=== FILE: README.md ===
# A verified model of the d3js neural-network toy engine

This project models the numeric engine of `jameswbaker/d3js` in Dafny. The engine is a small feed-forward neural network built for d3 visualisations, and it exists in two lineages.

- **The flat-array lineage (`ftgu`).**
  - Vectors are plain arrays, and the dense layer `Dense` computes `W·x + b`.
  - `ReLU` is the activation, and the abstract `Layer` base class supplies defaults.
  - `SGD` is a plain gradient-descent optimizer, and `Tensor.zeros` builds zero grids.
  - `NeuralNetwork` builds a fixed layered topology from layer sizes, for the visualiser.
  - `TODOnetwork.js` and `old_network.js` are two older cursor-less containers. They sit in the `ftgu2` tree, but their `exportGraph` reads a layer's flat `lastOutput` array and its `W`, which only the flat `Dense` layer has, so they are modelled over this lineage's layers.
- **The column-vector lineage (`ftgu2`).**
  - Every vector is a tensor of shape (n, 1).
  - The dense layer `DenseLayer` can also export its neurons and weights as a node/link graph.
  - `Network` is a layer container with a cursor for stepping one layer per call.
  - `DenseLayer.js` imports this lineage's own `core/Tensor.js` and `core/Layer.js`, and `Sigmoid` extends its `activations/Activation.js`. Those three files are not part of this model: the model takes them to behave like their `ftgu` namesakes, with a `Tensor` that stores its `data` unchanged, a `zeros` that fills a grid, and a base class whose defaults throw or return empty lists.

Numbers are Dafny `real`s, so shapes and algebraic identities are stated exactly. Every JavaScript failure the engine can raise becomes a value of `Common.Result`:

- `TypeError`: reading a property of `null` or `undefined`.
- `RangeError`: calling `Array(n)` with an `n` that is negative or 2^32 or more (`Common.IsArrayLength`).
- `ReferenceError`: assigning to an undeclared name in strict code.
- `NotImplemented`: one of the base class's own throws.

The source does not throw on a size mismatch; it silently computes `NaN` or `undefined` entries. The model reports that case as the error `ShapeMismatch`. Where the source stores such entries in a layer (a cached output, or a gradient), the model stores them too, as values of `LinAlg.Num`: a number `Real(r)` or `NaN`, with `undefined` folded into `NaN`.

Layers are values. Every operation returns the updated layer together with its result, and a network is a datatype holding its layers, its cursor and its cached output. Calls to `Math.random()` are parameters of the operations that draw them.

Module layout, one file each:

- `Common`: `Option`, `Result` and `Error`.
- `Seqs`: the flattening of blocks, which models `flatMap` and the successive `push` loops.
- `Text`: decimal rendering of numbers, and the injectivity of the id schemes.
- `LinAlg`: dot products, matrix products and the adjoint/outer-product identities, and `Num`, a number or `NaN`, for stored entries.
- `Graphs`: node and link records.
- `Tensor`, `Dense`, `DenseLayer`, `ReLU`, `SGD`: the layers, tensors and optimizer.
- `Units`: the closed family `Base | Dense | ReLU` that stands in for subclassing.
- `Network`: the cursor container, generic in its layer type.
- `NetworkGraph`: `Network.toGraph`.
- `FlatNetwork`: `TODOnetwork.js` and `old_network.js`.
- `NeuralNetwork`: the visualiser's topology.

The two flat containers agree on every method except `exportGraph`. Their shared methods are modelled once, in `FlatNetwork`.

Where the code does not do what its comments or names suggest, the model follows the code:

- **Graph ids between layers.** The comments at `Network.js:54` and `Network.js:59` say that each layer's `toGraph` takes the previous layer's output ids and returns its own `outputIds`. A dense layer's `toGraph` neither accepts input ids nor returns `outputIds`, so `Network.toGraph` links no layer to the next.
- **`step_forward` at the end.** Past the end it is not free of effects: a given input still replaces `lastOutput` (`Network.StepForward`).
- **`forward` versus stepping.** They are not equivalent for a network with no layers: stepping returns `null` where `forward` returns its input (`Network.EmptyStepDiffersFromForward`).
- **Failed calls.** Size mismatches do not abort in the source, and a failing call can leave earlier in-place updates behind. Within one layer the caches and gradients are modelled with those updates: a too-short input leaves `NaN` outputs in `Dense`'s `lastOutput`, and `backward` assigns `dW` and `db`, `NaN` entries included, before it fails. Past one layer they are not: the containers stop at a ShapeMismatch, where the source carries the `NaN`-holding array on to the later layers, and what a failing `SGD.step` leaves in the parameters is left out too (see Left out).

## Model

| member | source | states |
|---|---|---|
| Tensor.Zeros | ftgu/src/nn/core/Tensor.js:7-11 | `zeros([rows, cols])` fails with a RangeError exactly when `Array` rejects `rows` (negative, or 2^32 or more), or when `rows > 0` and `Array` rejects `cols`. Otherwise it has `rows` rows of `cols` entries, every one 0. |
| Tensor.FirstColumnRoundTrip | ftgu2/src/nn/layers/DenseLayer.js:65-67 | Reading the first column of an (n, 1) tensor and packing it as a column again, as `d.map(row => [row[0]])` does, gives back the same data. |
| Dense.New | ftgu/src/nn/layers/Dense.js:4-26 | Succeeds exactly when `Array(outputSize)` and, with at least one row, `Array(inputSize)` do: each size from 0 up to 2^32 - 1. `W` has `outputSize` rows of `inputSize` entries `draw(i, j) * scale`, and `b` is `outputSize` zeros. `dW`, `db` and the caches start empty. |
| Dense.Forward | ftgu/src/nn/layers/Dense.js:28-33 | Caches the input and overwrites `lastOutput` on success. The output has one entry per row of `W`, equal to `Dot(W[i], x) + b[i]`. `W`, `b` and the gradients are unchanged. A `null` input is a TypeError that leaves `lastOutput` as it was. A too-short input is a ShapeMismatch that still overwrites `lastOutput` with one `NaN` per row of `W`. |
| Dense.ForwardIsAffine | ftgu/src/nn/layers/Dense.js:82-86 | On an input of the right width, the output is `MatVec(W, x) + b`: row `i` of `_matVec` is row `i` dotted with `x`. |
| Dense.Backward | ftgu/src/nn/layers/Dense.js:35-80 | Succeeds exactly when an input is cached, it is as wide as `W`, and `g` has an entry per non-empty row. Unless it throws at `input[j]` (no input cached and `W` has an entry), `dW` and `db` are assigned even when the call fails: `dW` has the shape of `W`, with `dW[i][j] = g[i]*x[j]` where both exist and `NaN` elsewhere, and `db = g`. On success the result has `|x|` entries, entry `j` being `Σ_i W[i][j]*g[i]`. `W`, `b` and the caches are unchanged. |
| Dense.GradInputLoop | ftgu/src/nn/layers/Dense.js:72-77 | The nested `+=` loop over rows and columns computes exactly `Wᵀ·g`, padded to the input length. |
| Dense.Params | ftgu/src/nn/layers/Dense.js:88 | `getParams()` is `[W, b]` as a matrix and a vector, in that order. |
| Dense.Grads | ftgu/src/nn/layers/Dense.js:89 | `getGrads()` is `[dW, db]`, each `null` until the first `backward`. |
| Dense.ForwardThenBackward | ftgu/src/nn/layers/Dense.js:28-80 | After `forward(x)` on an input of the right width, `backward(g)` with an entry per row succeeds. It gives `W·x + b`, `Wᵀ·g`, `dW = g·xᵀ` with every entry a number, and `db = g`. |
| Dense.InputGradientExact | ftgu/src/nn/layers/Dense.js:64-79 | The returned input gradient is exact: moving `x` by `e` changes `⟨g, output⟩` by exactly `⟨e, gradInput⟩`. |
| Dense.WeightGradientExact | ftgu/src/nn/layers/Dense.js:38-53 | `dW` is exact: moving `W` by any `e` of its shape changes `⟨g, output⟩` by exactly the Frobenius product `⟨dW, e⟩`. |
| Dense.BiasGradientExact | ftgu/src/nn/layers/Dense.js:55-61 | `db` is exact: moving `b` by `e` changes `⟨g, output⟩` by exactly `⟨e, db⟩`. |
| LinAlg.Adjoint | ftgu/src/nn/layers/Dense.js:64-71 | `⟨W·x, g⟩ = ⟨x, Wᵀ·g⟩` for every rectangular `W`: the transpose product is the gradient with respect to the input. |
| LinAlg.OuterIsGradient | ftgu/src/nn/layers/Dense.js:38-50 | `⟨g·xᵀ, V⟩_F = ⟨V·x, g⟩` for every `V` of the shape of `W`: the outer product is the gradient with respect to the weights. |
| DenseLayer.New | ftgu2/src/nn/layers/DenseLayer.js:6-33 | Succeeds exactly when `Array` and `Tensor.zeros` accept the sizes: `output_size`, and with at least one row `input_size`, from 0 up to 2^32 - 1. `W` has `output_size` rows of `input_size` entries `draw - 0.5`, and `b` is a zero column. `dW` and `db` are zero tensors of the shapes of `W` and `b`, and no input is cached. |
| DenseLayer.NewGradsMatchParams | ftgu2/src/nn/layers/DenseLayer.js:19-30 | A new layer's gradient tensors have exactly the shapes of its parameter tensors. |
| DenseLayer.Forward | ftgu2/src/nn/layers/DenseLayer.js:35-48 | Returns one row `[Σ_j W[i][j]*x[j][0] + b[i][0]]` per row of `W` and caches the input. `W`, `b` and the gradients are unchanged. A `null` input, or a too-short input for a non-empty `W`, throws a TypeError before anything is stored. An empty row of `x` that gets read is a ShapeMismatch. |
| DenseLayer.Backward | ftgu2/src/nn/layers/DenseLayer.js:51-79 | With a cached input, `dW` and `db` are always assigned, whether or not the call then fails: `dW` has shape `|d| × |x|` with `dW[i][j] = d[i][0]*x[j][0]`, and `db[i] = [d[i][0]]`, each entry `NaN` where an empty row is read. The result has `W[0].length` rows `[Σ_i W[i][j]*d[i][0]]`, read from the first `W.length` rows of `d` only. It throws a TypeError with no cached input (nothing changed), and when `W` has no rows or `d` misses a row; it reports a ShapeMismatch exactly when those sums read an empty row of `d`. `NaN` left only in `dW` or `db` (an empty input row, an empty gradient row past `W.length`) does not make it fail. `W`, `b` and `lastInput` are never changed. |
| DenseLayer.BackwardResultIgnoresInput | ftgu2/src/nn/layers/DenseLayer.js:70-78 | The returned input gradient depends on whether an input is cached but not on which one: the sums read only `W` and `d`. |
| DenseLayer.BackwardGradsMatchParams | ftgu2/src/nn/layers/DenseLayer.js:57-87 | After a successful `backward` with one gradient row per output and one input row per column, `getGrads()` again matches `getParams()` shape for shape. |
| DenseLayer.Params | ftgu2/src/nn/layers/DenseLayer.js:81-83 | `getParams()` is `[W, b]`. |
| DenseLayer.Grads | ftgu2/src/nn/layers/DenseLayer.js:85-87 | `getGrads()` is `[dW, db]`, aligned with `getParams()`. |
| DenseLayer.ToGraph | ftgu2/src/nn/layers/DenseLayer.js:89-148 | Throws a TypeError exactly when `W` has no rows. Otherwise it emits `inputSize + outputSize` nodes: inputs `prefix:in:i` with label `in{i}`, then outputs `prefix:out:j` with label `out{j}`, each with its type, layer and colour. The links are the rows of `LinkRows`, flattened. |
| DenseLayer.ToGraphDefault | ftgu2/src/nn/layers/DenseLayer.js:89-90 | `toGraph()` without an argument is `toGraph("dense")`: every node then sits in the layer "dense" and has an id starting with "dense:". |
| DenseLayer.Neurons | ftgu2/src/nn/layers/DenseLayer.js:106-132 | The node list is the `n` input neurons (`prefix:in:i`, type "input", label `in{i}`, colour #1f77b4) followed by the `m` output neurons (`prefix:out:j`, type "output", label `out{j}`, colour #ff7f0e), all tagged with the layer prefix. |
| DenseLayer.NodeIdInjective | ftgu2/src/nn/layers/DenseLayer.js:110-128 | Within one layer, a node id determines the node's position: the `in`/`out` tag and the decimal index never collide. |
| DenseLayer.ToGraphLinks | ftgu2/src/nn/layers/DenseLayer.js:134-145 | Exactly `outputSize × inputSize` links. The one at `j*inputSize + i` runs from `prefix:in:i` to `prefix:out:j` with weight `W[j][i]`. |
| DenseLayer.ToGraphIdsDistinct | ftgu2/src/nn/layers/DenseLayer.js:106-132 | No two nodes of a layer's graph share an id. |
| DenseLayer.ToGraphLinksClosed | ftgu2/src/nn/layers/DenseLayer.js:136-145 | Every link starts at an input node's id and ends at an output node's id. |
| DenseLayer.ForwardAgrees | ftgu2/src/nn/layers/DenseLayer.js:35-48 | The column layer and the flat `Dense` layer compute the same forward pass when given the same weights and bias, up to packing vectors as columns. |
| DenseLayer.BackwardAgrees | ftgu2/src/nn/layers/DenseLayer.js:51-79 | After matching forward passes, the two lineages give the same `dW`, the same `db` and the same input gradient, up to packing, when `W` has rows and `g` an entry per row. |
| ReLU.Forward | ftgu/src/nn/activations/ReLU.js:4-7 | Caches the input, even a `null` one, which then throws a TypeError. On success the output has the input's length, with entries `max(0, x[i])`, all non-negative. |
| ReLU.Backward | ftgu/src/nn/activations/ReLU.js:9-11 | Has the length of the cached input. Entry `i` is `gradOutput[i]` where `x[i] > 0` and 0 otherwise, including at 0. It is a TypeError without a cached input, and nothing is stored. |
| ReLU.ForwardIdempotent | ftgu/src/nn/activations/ReLU.js:6 | Applying the activation to its own output returns the same output. |
| ReLU.BackwardIsDerivative | ftgu/src/nn/activations/ReLU.js:9-11 | Away from 0, moving input `i` by less than `|x[i]|` moves output `i` by exactly the backward mask times the move. |
| ReLU.BackwardOfInputIsOutput | ftgu/src/nn/activations/ReLU.js:4-11 | After `forward(x)`, `backward(x)` returns `forward(x)`. |
| ReLU.BackwardMaskOnly | ftgu/src/nn/activations/ReLU.js:10 | Two gradients that agree where the cached input is positive give the same input gradient. |
| ReLU.Params | ftgu/src/nn/core/Layer.js:10-12 | The activation has no parameters: it inherits the base class's empty `getParams()`. |
| ReLU.Grads | ftgu/src/nn/core/Layer.js:14-16 | The activation has no gradients: it inherits the base class's empty `getGrads()`. |
| Units.Forward | ftgu/src/nn/core/Layer.js:2-4 | The base class fails with "forward() not implemented" and changes nothing. The dense and ReLU variants do exactly what their own `forward` does. |
| Units.Backward | ftgu/src/nn/core/Layer.js:6-8 | The base class fails with "backward() not implemented". The variants dispatch to their own `backward`. |
| Units.Params | ftgu/src/nn/core/Layer.js:10-12 | The default `getParams()` is empty, and only a dense layer has parameters. |
| Units.Grads | ftgu/src/nn/core/Layer.js:14-16 | The default `getGrads()` is empty, and only a dense layer has gradients. |
| Units.ParamsGradsAligned | ftgu/src/nn/core/Layer.js:10-16 | Every layer reports as many gradients as parameters, each of the same kind, matrix or vector, as its parameter. |
| Units.StepAfterBackward | ftgu/src/nn/optimizers/SGD.js:6-24 | After a successful dense `backward`, an SGD step over that layer's `getParams()` and `getGrads()` succeeds and keeps both parameters. |
| SGD.New | ftgu/src/nn/optimizers/SGD.js:2-4 | The learning rate is the given one, or 0.01 when omitted. |
| SGD.PairStep | ftgu/src/nn/optimizers/SGD.js:11-22 | A matrix parameter (`p[0]` an array) becomes `p[i][j] - lr*g[i][j]` entry by entry, and a vector becomes `p[i] - lr*g[i]`. The shape of `p` is kept. It is a TypeError exactly when a visited element reads a missing gradient or row, and a ShapeMismatch when it reads a non-number. |
| SGD.Step | ftgu/src/nn/optimizers/SGD.js:6-24 | Visits `params.length` pairs in order and succeeds exactly when every pair does, with every updated parameter. A throwing pair makes the whole step a TypeError. |
| SGD.VecStepLoop | ftgu/src/nn/optimizers/SGD.js:19-21 | The vector loop subtracts `lr*g[i]` from each entry exactly once. |
| SGD.MatStepLoop | ftgu/src/nn/optimizers/SGD.js:13-17 | The nested matrix loop subtracts `lr*g[i][j]` from each entry exactly once. |
| SGD.ZeroGradientKeeps | ftgu/src/nn/optimizers/SGD.js:13-22 | With an all-zero gradient of the right shape for every parameter, the step succeeds and changes nothing. |
| SGD.StepUndo | ftgu/src/nn/optimizers/SGD.js:6-24 | A successful step at rate `lr`, followed by a step at `-lr` with the same gradients, gives back the original parameters. |
| SGD.PairUndo | ftgu/src/nn/optimizers/SGD.js:11-22 | A successful update of one parameter at rate `lr`, followed by an update at `-lr` with the same gradient, restores the parameter exactly. |
| SGD.ExtraGradsIgnored | ftgu/src/nn/optimizers/SGD.js:7-9 | Gradients beyond `params.length` are never read. |
| Network.Create | ftgu2/src/nn/core/Network.js:2-6 | A new network holds the given layers, with the cursor at 0 and no cached output. |
| Network.CreateDefault | ftgu2/src/nn/core/Network.js:2 | `new Network()` is `new Network([])`: no layers, the cursor at 0 and no cached output. |
| Network.Add | ftgu2/src/nn/core/Network.js:8-10 | `add` appends the layer last and leaves the earlier layers, the cursor and the cached output alone. |
| Network.Forward | ftgu2/src/nn/core/Network.js:12-18 | `forward` threads the input through the layers in list order, stopping at the first failure. The cursor and `lastOutput` are not touched. |
| Network.StepForward | ftgu2/src/nn/core/Network.js:20-32 | A defined input replaces `lastOutput` first, even at the end. At or past the end the call returns `null` and leaves the cursor alone. Otherwise it applies the layer under the cursor to `lastOutput`. On success it caches the output and advances the cursor by exactly 1. A negative cursor is a TypeError. |
| Network.Reset | ftgu2/src/nn/core/Network.js:34-37 | Sets the cursor to `pos`, and clears `lastOutput` exactly when `clearOutput` holds. The layers are untouched. |
| Network.ResetDefault | ftgu2/src/nn/core/Network.js:34 | `reset()` is `reset(0, true)`. |
| Network.CurrentLayer | ftgu2/src/nn/core/Network.js:39-44 | Returns the cursor, plus the layer under it exactly when the cursor is in range, `null` otherwise. |
| Network.RunIsThreadOfSuffix | ftgu2/src/nn/core/Network.js:20-32 | Stepping from cursor `c` to the end is threading the cached (or given) value through the layers from `c`. It has the same result and the same layers; on success the cursor ends at the end and the result is cached. |
| Network.StepsEqualForward | ftgu2/src/nn/core/Network.js:12-32 | After `reset()`, `step_forward(x)` followed by N-1 calls of `step_forward()` returns what `forward(x)` returns, fails where it fails, and leaves the same layers. On success the cursor ends at N. |
| Network.EmptyStepDiffersFromForward | ftgu2/src/nn/core/Network.js:24-26 | With no layers, `step_forward(x)` returns `null` while `forward(x)` returns `x`. |
| Network.ThreadAppend | ftgu2/src/nn/core/Network.js:8-18 | After `add(u)`, `forward` runs the old layers first and then `u` on their output. |
| NetworkGraph.LayerPrefix | ftgu2/src/nn/core/Network.js:53 | The intended prefix `layer-${i}` contains no ':'. |
| NetworkGraph.Assemble | ftgu2/src/nn/core/Network.js:46-64 | The network graph concatenates every layer's nodes and links in layer order. It throws a TypeError exactly when some layer has no rows. |
| NetworkGraph.ToGraphAsWritten | ftgu2/src/nn/core/Network.js:52-57 | As written, every layer receives the options object as its prefix, rendered as "[object Object]". |
| NetworkGraph.AsWrittenIdsCollide | ftgu2/src/nn/core/Network.js:55 | As written, any two layers with rows export a repeated id: both first output neurons are "[object Object]:out:0". |
| NetworkGraph.ToGraph | ftgu2/src/nn/core/Network.js:53-57 | As intended, layer `i` exports under the prefix `layer-${i}`. |
| NetworkGraph.ToGraphIdsDistinct | ftgu2/src/nn/core/Network.js:52-63 | With the intended prefixes, no two nodes of the network graph share an id, across layers or within one. |
| NetworkGraph.ToGraphLinksClosed | ftgu2/src/nn/core/Network.js:46-64 | Every link of the network graph starts and ends at the id of a node of the graph. |
| FlatNetwork.Create | ftgu2/src/nn/core/TODOnetwork.js:2-4 | A new network holds the given layers. |
| FlatNetwork.CreateDefault | ftgu2/src/nn/core/TODOnetwork.js:2 | `new Network()` is `new Network([])`, a network with no layers. |
| FlatNetwork.Add | ftgu2/src/nn/core/TODOnetwork.js:6-8 | `add` appends the layer last and keeps the earlier ones in place. The same holds for old_network.js. |
| FlatNetwork.Forward | ftgu2/src/nn/core/TODOnetwork.js:10-16 | `forward` threads the layers in list order, with the same loop as the cursor container. The same holds for old_network.js. |
| FlatNetwork.ForwardAdd | ftgu2/src/nn/core/TODOnetwork.js:6-16 | An added layer runs last in `forward`, on the output of all earlier layers. |
| FlatNetwork.BackwardAsWritten | ftgu2/src/nn/core/TODOnetwork.js:18-24 | As written, `backward` throws a ReferenceError at the undeclared `i` before touching any layer. The same holds for old_network.js. |
| FlatNetwork.BackwardAsWrittenAlwaysFails | ftgu2/src/nn/core/TODOnetwork.js:20 | The as-written method fails on every network, even the empty one, where the intended loop succeeds with nothing to do. |
| FlatNetwork.Backward | ftgu2/src/nn/core/TODOnetwork.js:18-24 | As intended, `backward` feeds the gradient through the layers from last to first and returns nothing. It fails with the first failing layer's error. |
| FlatNetwork.BackThreadAppend | ftgu2/src/nn/core/TODOnetwork.js:20-23 | Backward through `a + b` runs through `b` first and hands its gradient to `a`: the reverse of the forward order. |
| FlatNetwork.Params | ftgu2/src/nn/core/TODOnetwork.js:26-28 | `getParams()` is the concatenation of the layers' parameter lists, in layer order. |
| FlatNetwork.Grads | ftgu2/src/nn/core/TODOnetwork.js:30-32 | `getGrads()` is the concatenation of the layers' gradient lists, in layer order. |
| FlatNetwork.ParamsGradsAligned | ftgu2/src/nn/core/TODOnetwork.js:26-32 | The two flattened lists have equal length. Parameter `k` of layer `i` and its gradient sit at the same position. |
| FlatNetwork.LayerNodes | ftgu2/src/nn/core/TODOnetwork.js:39-47 | Layer `l` emits one node `L{l}N{k}` per entry of its cached output, carrying that activation. A layer without a cached output emits none. |
| FlatNetwork.LinkGrid | ftgu2/src/nn/core/TODOnetwork.js:49-60 | Row `i` of a dense layer's links holds one link per column `j`, from `L{l-1}N{j}` to `L{l}N{i}` with weight `W[i][j]`. |
| FlatNetwork.ExportGraph | ftgu2/src/nn/core/TODOnetwork.js:34-66 | Throws a TypeError exactly when some dense layer with a cached output has no rows. Otherwise the nodes and the links are the per-layer blocks, concatenated in layer order. |
| FlatNetwork.ExportNodeAt | ftgu2/src/nn/core/TODOnetwork.js:38-47 | Neuron `k` of layer `l` sits at the layer's offset plus `k`, with id `L{l}N{k}` and the cached activation. |
| FlatNetwork.NeuronIdInjective | ftgu2/src/nn/core/TODOnetwork.js:42 | The id `L{l}N{k}` determines `l` and `k`. |
| FlatNetwork.ExportIdsDistinct | ftgu2/src/nn/core/TODOnetwork.js:38-47 | No two exported nodes share an id. |
| FlatNetwork.LayerLinkAt | ftgu2/src/nn/core/TODOnetwork.js:48-61 | A dense layer with a cached output emits `W.length × W[0].length` links, the one at `i*W[0].length + j` going from `L{l-1}N{j}` to `L{l}N{i}` with weight `W[i][j]`. |
| FlatNetwork.FirstLayerSourcesDangle | ftgu2/src/nn/core/TODOnetwork.js:55 | The first layer's links start at `L-1N{j}`, which is no exported node's id. |
| FlatNetwork.LinkTargetsAreNodes | ftgu2/src/nn/core/TODOnetwork.js:52-60 | When every dense layer caches one output per row, every link ends at an exported node. |
| FlatNetwork.OldExportGraph | ftgu2/src/nn/core/old_network.js:34-36 | The old `exportGraph` is a stub that returns `undefined`. |
| NeuralNetwork.New | ftgu/src/network/NeuralNetwork.js:3-12 | One layer record per size, layer `i` with `sizes[i]` neurons, each layer after the first linked back to its predecessor. A size that is negative or 2^32 or more is a RangeError. |
| NeuralNetwork.NewKeepsSizes | ftgu/src/network/NeuralNetwork.js:5-8 | The constructed network's neuron counts are exactly the given sizes, in order. |
| NeuralNetwork.LayerNodes | ftgu/src/network/NeuralNetwork.js:19-21 | Layer `i` emits one node `"i-j"` per neuron `j`, carrying the activation draw. |
| NeuralNetwork.InLinks | ftgu/src/network/NeuralNetwork.js:23-27 | Neuron `j` of layer `i > 0` receives one link from every neuron `k` of layer `i-1`, weighted `2·draw - 1`. Layer 0 receives none. |
| NeuralNetwork.NodeCount | ftgu/src/network/NeuralNetwork.js:18-22 | The export has `Σ sizes` nodes. |
| NeuralNetwork.NodeAt | ftgu/src/network/NeuralNetwork.js:18-22 | Nodes are layer-major and neuron-minor: neuron `j` of layer `i` sits at the layer's offset plus `j`. |
| NeuralNetwork.NodeNameInjective | ftgu/src/network/NeuralNetwork.js:20 | The id `"i-j"` determines `i` and `j`. |
| NeuralNetwork.IdsDistinct | ftgu/src/network/NeuralNetwork.js:18-22 | No two nodes share an id. |
| NeuralNetwork.LinkCount | ftgu/src/network/NeuralNetwork.js:23-27 | The export has `Σ_{i≥1} sizes[i-1]·sizes[i]` links. |
| NeuralNetwork.LinkShape | ftgu/src/network/NeuralNetwork.js:23-27 | Every link runs from `"(i-1)-k"` to `"i-j"` for some `i ≥ 1` and in-range `j` and `k`, with weight `2·draw - 1`. |
| NeuralNetwork.LinksJoinNodes | ftgu/src/network/NeuralNetwork.js:20-25 | Every link joins two emitted nodes, from one layer to the next, so layer 0 receives none. |
| NeuralNetwork.ValueRanges | ftgu/src/network/NeuralNetwork.js:21-25 | With draws in [0, 1), activations lie in [0, 1) and weights in [-1, 1). |

## Left out

- Floating point: `real` replaces IEEE-754 doubles, so no claim is bit-for-bit. A `NaN`-producing size mismatch is reported as the error `ShapeMismatch` where the source returns an array holding `NaN`/`undefined`; the stored caches and gradients keep their `NaN` entries. `undefined` entries are stored as `NaN`, and an operation that returns such an array returns no array in the model.
- `Math.random()`: the draws are parameters (`draw`, `act`, `wt`) and are not modelled as a distribution. `Dense.New` takes the He factor `sqrt(2 / inputSize)` as the parameter `scale`, because square roots are not modelled.
- In-place mutation and aliasing: layers, optimizers and networks return new values. A parameter array shared between a layer and the optimizer is not modelled, and neither is the write-back of `SGD.step` into a layer's `W`.
- SGD.Step: when a later pair throws, the source has already updated the earlier parameters in place. The model reports only the TypeError, not those partial updates. On a mismatched pair the source does not stop: it visits every pair, writes NaN into the mismatched parameter's entries, updates all the others and returns normally. The model reports ShapeMismatch and keeps no update, because a parameter holds numbers only.
- SGD.PairStep: in the vector branch the source coerces a row read where a number is expected (`lr * [x]` is `lr * x`, `lr * []` is 0). The model reports every such read as ShapeMismatch instead of the coerced update.
- The `Tensor` constructor stores its argument unchanged; it is the datatype constructor `Tensor.Tensor` itself and needs no member.
- Network.Forward: a layer's ShapeMismatch stops the loop in the model, where the source (`Network.js:14-16`) passes the `NaN`-holding array on to every later layer, which caches it. After such a layer the model's result and the later layers' caches differ from the source's. `Network.RunIsThreadOfSuffix` and `Network.StepsEqualForward` relate the stepping and the threading as modelled, so they inherit this. Carrying the array on would need layer values that hold `NaN`, which the network modules do not model.
- Network.StepForward: on a layer's ShapeMismatch the model keeps the cursor and the old `lastOutput`, where the source (`Network.js:28-30`) caches the `NaN`-holding array and advances `curr_pos`.
- FlatNetwork.Forward: as for `Network.Forward`, a ShapeMismatch stops the loop, where `TODOnetwork.js:12-14` feeds the `NaN`-holding array to the later layers. Those layers then cache it, and `exportGraph` shows their nodes and links; the model's export after such a call misses them.
- FlatNetwork.Backward: a layer's ShapeMismatch stops the intended backward loop, where the source would pass the `NaN`-holding gradient on to the earlier layers, which assign their `dW` and `db` from it.
- JavaScript coercions: non-integer sizes, `Array(n)` of a non-number, truthiness tests on non-arrays, strings passed where numbers are expected, and an array read where SGD's vector branch expects a number are not modelled. Sizes are `int`s.
- Dense.Backward: a `null` or `undefined` `gradOutput` is not a value of the model. The source throws a TypeError on it (at `gradOutput[i]` or `gradOutput.slice()`).
- ReLU.Backward: a `null` or `undefined` `gradOutput` is not a value of the model. The source throws a TypeError on it only when some cached entry is positive, and returns all zeros otherwise.
- `DenseLayer.Backward` with a `null` `gradOutput`, and `Network.StepForward` on a `null` input: only `undefined` (`None`) is modelled as the absent input. A `null` gradient tensor is not a value of the model.
- ReLU: its base class `Activation.js` is not part of this model. The activation is taken to inherit `Layer`'s empty `getParams`/`getGrads` (`ReLU.Params`, `ReLU.Grads`), and `Units` dispatches to those defaults.
- `Sigmoid.js`: left out, because its `forward` needs `Math.exp` and its `backward` reads an undefined name.
- Rendering and UI (`renderer.js`, `Graph.jsx`, `NetworkVisualizer.js`, both `App.js`) and the console demo `main.js`: left out, because they hold no engine logic.
- NetworkGraph.Assemble: a layer's graph is a value here, so the `{ nodes, links }` object it returns cannot be observed being mutated. Nor can a second `toGraph` call differ from the first; repeat calls are trivially stable.
- `Network.toGraph` with non-dense layers: the model's network graph is over dense layers only. The other layer of this lineage is `Sigmoid`, whose `toGraph`, if any, would come from `activations/Activation.js`, which is not part of this model.
- NetworkGraph.ToGraphAsWritten: in the source, every node's `layer` field holds the options object `{ idPrefix: "layer-i", inputIds }` itself, which differs from layer to layer. The model stores its string rendering "[object Object]", so it does not distinguish the layers by that field; the node ids, which the source also renders as strings, are exact.
- FlatNetwork: `TODOnetwork.js` and `old_network.js` are modelled over the flat lineage's units (`Base | Dense | ReLU`). Over `ftgu2`'s own layers they behave differently: a `DenseLayer` has no `lastOutput`, so `exportGraph` emits no nodes or links for it, and a `Sigmoid` caches a `Tensor`, so `lastOutput.forEach` throws a TypeError. Those layer types are not part of the flat model.
- FlatNetwork.ExportGraph: a layer whose `lastOutput` is a non-array truthy value is not modelled. A cached output is a vector or absent.

## Findings

| source | as written | input that shows it | evidently intended | confidence | as-written member | corrected member |
|---|---|---|---|---|---|---|
| ftgu2/src/nn/core/Network.js:55 | `layer.toGraph({ idPrefix, inputIds })` passes an options object to `DenseLayer.toGraph(idPrefix)`, which interpolates it into every id as "[object Object]" | any network of two dense layers with at least one row each: both layers emit the node id "[object Object]:out:0" | layer `i` exports under the prefix `layer-${i}`, so ids never repeat. The threading of `inputIds` and `outputIds` from one layer to the next (lines 54 and 59) is not part of the corrected member, because `DenseLayer.toGraph` returns no `outputIds` | high, not executed | NetworkGraph.ToGraphAsWritten, NetworkGraph.AsWrittenIdsCollide | NetworkGraph.ToGraph, NetworkGraph.ToGraphIdsDistinct |
| ftgu2/src/nn/core/TODOnetwork.js:20-21 | the loop assigns to the undeclared names `i` and `layer`; class bodies and ES modules are strict code, where that throws a ReferenceError (old_network.js:20-21 is identical) | `backward(g)` on any network, including one with no layers | `let i`, `const layer`: visit the layers from last to first, feeding each returned gradient to the layer before | high, not executed | FlatNetwork.BackwardAsWritten, FlatNetwork.BackwardAsWrittenAlwaysFails | FlatNetwork.Backward, FlatNetwork.BackThreadAppend |

=== FILE: common.dfy ===
/** Values shared by every module: optional values and the failures a JavaScript
    caller of the engine can observe. */
module Common {

  /** A possibly absent value; `None` stands for JavaScript's `null`/`undefined`. */
  datatype Option<+T> = None | Some(value: T) {
    function GetOr(default: T): T {
      match this
      case Some(v) => v
      case None => default
    }
  }

  /** What goes wrong in the engine.
      - TypeError: a property of `null`/`undefined` is read (the source throws).
      - RangeError: `Array(n)` with a length that is not an array length (the source throws).
      - ReferenceError: assignment to an undeclared variable in strict code (the source throws).
      - NotImplemented: an abstract base-class method was called (the source throws).
      - ShapeMismatch: operands whose sizes disagree; the source does not throw here but
        silently computes `NaN`/`undefined` entries, which the model reports instead. */
  datatype Error =
    | TypeError
    | RangeError
    | ReferenceError
    | NotImplemented(message: string)
    | ShapeMismatch

  /** The lengths `Array(n)` accepts: `n` from 0 up to 2^32 - 1. Any other
      integer makes it throw a RangeError. */
  predicate IsArrayLength(n: int) {
    0 <= n < 0x1_0000_0000
  }

  datatype Result<+T> = Ok(value: T) | Err(error: Error) {
    predicate IsFailure() { Err? }
    function PropagateFailure<U>(): Result<U>
      requires Err?
    {
      Err(error)
    }
    function Extract(): T
      requires Ok?
    {
      value
    }
  }
}

=== FILE: dense.dfy ===
/** The dense (affine) layer of the flat-array lineage: `output = W·input + b`
    with `W` of shape (outputSize × inputSize) and plain arrays for vectors. */
module Dense {
  import opened Common
  import opened LinAlg

  /** The fields of a layer instance. `lastInput`/`lastOutput` are the forward
      caches and `dW`/`db` the gradients of the last backward call; `None` is
      the `null` (or never assigned) value they start with. A failed call can
      leave NaN entries in `lastOutput` and `dW`. */
  datatype State = State(
    W: Matrix,
    b: Vector,
    lastInput: Option<Vector>,
    lastOutput: Option<seq<Num>>,
    dW: Option<seq<seq<Num>>>,
    db: Option<Vector>)

  /** What the constructor establishes and no operation of the layer breaks:
      `W` is rectangular and `b` has one entry per row of `W`. */
  predicate Valid(s: State) {
    Rect(s.W, Width(s.W)) && |s.b| == |s.W|
  }

  type Layer = s: State | Valid(s) witness State([], [], None, None, None, None)

  /** `new Dense(inputSize, outputSize)`. Entry (i, j) of `W` is the raw draw
      `draw(i, j)` of `Math.random()` times the He factor `scale`, which the caller
      supplies as `sqrt(2 / inputSize)`; `b` is all zeros; caches and gradients are
      empty. An `outputSize`, or an `inputSize` with at least one row to build,
      that is negative or 2^32 or more makes `Array(n)` throw a RangeError. */
  function New(inputSize: int, outputSize: int, draw: (nat, nat) -> real, scale: real): (r: Result<Layer>)
    ensures r.Ok? <==> IsArrayLength(outputSize) && (outputSize == 0 || IsArrayLength(inputSize))
    ensures r.Err? ==> r.error == RangeError
    ensures r.Ok? ==> |r.value.W| == outputSize
    ensures r.Ok? ==> forall i :: 0 <= i < |r.value.W| ==> |r.value.W[i]| == inputSize
    ensures r.Ok? ==> forall i, j :: 0 <= i < |r.value.W| && 0 <= j < |r.value.W[i]| ==>
      r.value.W[i][j] == draw(i, j) * scale
    ensures r.Ok? ==> r.value.b == Zero(outputSize)
    ensures r.Ok? ==> r.value.lastInput.None? && r.value.lastOutput.None?
    ensures r.Ok? ==> r.value.dW.None? && r.value.db.None?
  {
    if !IsArrayLength(outputSize) then Err(RangeError)
    else if outputSize == 0 then Ok(State([], [], None, None, None, None))
    else if !IsArrayLength(inputSize) then Err(RangeError)
    else
      var W := seq(outputSize, i requires 0 <= i < outputSize =>
        seq(inputSize, j requires 0 <= j < inputSize => draw(i, j) * scale));
      Ok(State(W, Zero(outputSize), None, None, None, None))
  }

  /** `forward(input)`: caches the input, computes `_matVec(W, input)` plus `b`,
      caches and returns the result. An undefined input is read only when `W` has
      an entry (then a TypeError, before `lastOutput` is assigned); an input
      shorter than the rows of `W` makes every output entry NaN in the source:
      that array is still cached as `lastOutput`, and the call is reported here
      as a ShapeMismatch. */
  function Forward(l: Layer, input: Option<Vector>): (r: (Layer, Result<Vector>))
    ensures r.0.W == l.W && r.0.b == l.b && r.0.dW == l.dW && r.0.db == l.db
    ensures r.0.lastInput == input
    ensures r.1.Ok? <==> Width(l.W) <= |input.GetOr([])|
    ensures r.1.Err? ==> r.1.error == (if input.None? then TypeError else ShapeMismatch)
    ensures r.1.Err? && input.None? ==> r.0.lastOutput == l.lastOutput
    ensures r.1.Err? && input.Some? ==> r.0.lastOutput.Some? && |r.0.lastOutput.value| == |l.W|
    ensures r.1.Err? && input.Some? ==> forall i :: 0 <= i < |l.W| ==> r.0.lastOutput.value[i] == NaN
    ensures r.1.Ok? ==> r.0.lastOutput == Some(Lift(r.1.value))
    ensures r.1.Ok? ==> |r.1.value| == |l.W|
    ensures r.1.Ok? ==> forall i :: 0 <= i < |l.W| ==>
      r.1.value[i] == Dot(l.W[i], input.GetOr([])) + l.b[i]
  {
    var x := input.GetOr([]);
    var l1 := l.(lastInput := input);
    if Width(l.W) > |x| && input.None? then (l1, Err(TypeError))
    else if Width(l.W) > |x| then
      (l1.(lastOutput := Some(seq(|l.W|, i => NaN))), Err(ShapeMismatch))
    else
      var mv := MatVec(l.W, x);
      var out := seq(|mv|, i requires 0 <= i < |mv| => mv[i] + l.b[i]);
      (l1.(lastOutput := Some(Lift(out))), Ok(out))
  }

  /** `W.map((row, i) => row.map((_, j) => g[i] * x[j]))`: the outer product
      `g·xᵀ` in the shape of `W`, NaN wherever `g[i]` or `x[j]` is missing. */
  function OuterNum(W: Matrix, g: Vector, x: Vector): (d: seq<seq<Num>>)
    ensures |d| == |W| && forall i :: 0 <= i < |W| ==> |d[i]| == |W[i]|
  {
    seq(|W|, i requires 0 <= i < |W| => seq(|W[i]|, j requires 0 <= j < |W[i]| =>
      if i < |g| && j < |x| then Real(g[i] * x[j]) else NaN))
  }

  /** Whether `backward` throws at `input[j]` while building `dW`: no input is
      cached and `W` has an entry. */
  predicate ThrowsBeforeGrads(l: Layer) {
    l.lastInput.None? && Width(l.W) > 0
  }

  /** `backward(gradOutput)`: `dW` becomes the outer product `g·xᵀ` in the shape
      of `W`, `db` a copy of `g`, and the result is `Wᵀ·g` with one entry per
      entry of the cached input `x`. Without a cached input the source throws a
      TypeError: at `input[j]` before any assignment when `W` has an entry, and
      otherwise at `input.length` after `dW` and `db` were set. An input shorter
      than the rows of `W`, or a gradient missing an entry for a non-empty row,
      leaves NaN entries in `dW` and in the result; the gradients are still
      assigned, and the call is reported here as a ShapeMismatch. */
  function Backward(l: Layer, gradOutput: Vector): (r: (Layer, Result<Vector>))
    ensures r.0.W == l.W && r.0.b == l.b
    ensures r.0.lastInput == l.lastInput && r.0.lastOutput == l.lastOutput
    ensures r.1.Ok? <==>
      l.lastInput.Some? && Width(l.W) <= |l.lastInput.value| && Covers(l.W, gradOutput)
    ensures r.1.Err? ==> r.1.error == (if l.lastInput.None? then TypeError else ShapeMismatch)
    ensures ThrowsBeforeGrads(l) ==> r.0 == l
    ensures !ThrowsBeforeGrads(l) ==> r.0.db == Some(gradOutput)
    ensures !ThrowsBeforeGrads(l) ==> r.0.dW.Some? && |r.0.dW.value| == |l.W|
    ensures !ThrowsBeforeGrads(l) ==> forall i :: 0 <= i < |l.W| ==> |r.0.dW.value[i]| == |l.W[i]|
    ensures !ThrowsBeforeGrads(l) ==> forall i, j :: 0 <= i < |l.W| && 0 <= j < |l.W[i]| ==>
      r.0.dW.value[i][j] == (if i < |gradOutput| && j < |l.lastInput.GetOr([])|
                             then Real(gradOutput[i] * l.lastInput.value[j]) else NaN)
    ensures r.1.Ok? ==> |r.1.value| == |l.lastInput.value|
    ensures r.1.Ok? ==> forall j :: 0 <= j < |r.1.value| ==> r.1.value[j] == ColDot(l.W, j, gradOutput)
  {
    var g := gradOutput;
    var x := l.lastInput.GetOr([]);
    if ThrowsBeforeGrads(l) then (l, Err(TypeError))
    else
      var d := OuterNum(l.W, g, x);
      assert forall i, j :: 0 <= i < |l.W| && 0 <= j < |l.W[i]| ==>
        d[i][j] == (if i < |g| && j < |x| then Real(g[i] * x[j]) else NaN);
      var l1 := l.(dW := Some(d), db := Some(g));
      if l.lastInput.None? then (l1, Err(TypeError))
      else if Width(l.W) > |x| || !Covers(l.W, g) then (l1, Err(ShapeMismatch))
      else (l1, Ok(TApply(l.W, g, |x|)))
  }

  /** With the input and the gradient covering `W`, the NaN-free outer product
      is the real one. */
  lemma OuterNumCovered(W: Matrix, g: Vector, x: Vector)
    requires Covers(W, g) && forall i :: 0 <= i < |W| ==> |W[i]| <= |x|
    ensures OuterNum(W, g, x) == LiftRows(Outer(W, g, x))
  {
    var a := OuterNum(W, g, x);
    var b := LiftRows(Outer(W, g, x));
    forall i | 0 <= i < |W|
      ensures a[i] == b[i]
    {
      assert |a[i]| == |b[i]|;
    }
  }

  /** The accumulation loop of `backward` as the source writes it: `gradInput`
      starts as zeros and row by row receives `W[i][j] * g[i]` in column `j`. It
      computes `Wᵀ·g` in the same order of additions as `TApply`. */
  method GradInputLoop(W: Matrix, g: Vector, len: nat) returns (gi: Vector)
    requires forall i :: 0 <= i < |W| ==> |W[i]| <= len
    requires Covers(W, g)
    ensures gi == TApply(W, g, len)
  {
    gi := Zero(len);
    var i := 0;
    while i < |W|
      invariant 0 <= i <= |W|
      invariant |gi| == len
      invariant Covers(W[..i], g)
      invariant forall j :: 0 <= j < len ==> gi[j] == ColDot(W[..i], j, g)
    {
      assert W[..i + 1][..i] == W[..i];
      var j := 0;
      while j < |W[i]|
        invariant 0 <= j <= |W[i]|
        invariant |gi| == len
        invariant forall j' :: 0 <= j' < j ==> gi[j'] == ColDot(W[..i + 1], j', g)
        invariant forall j' :: j <= j' < len ==> gi[j'] == ColDot(W[..i], j', g)
      {
        gi := gi[j := gi[j] + W[i][j] * g[i]];
        j := j + 1;
      }
      i := i + 1;
    }
    assert W[..|W|] == W;
  }

  /** `getParams()`: the weight matrix and the bias vector, in that order. */
  function Params(l: Layer): (ps: seq<Param>)
    ensures |ps| == 2 && ps[0] == Mat(l.W) && ps[1] == Vec(l.b)
  {
    [Mat(l.W), Vec(l.b)]
  }

  /** `getGrads()`: the gradients aligned with `getParams()`, `null` before the first backward. */
  function Grads(l: Layer): (gs: seq<Option<Grad>>)
    ensures |gs| == 2
    ensures gs[0] == (if l.dW.Some? then Some(Mat(l.dW.value)) else None)
    ensures gs[1] == (if l.db.Some? then Some(Vec(Lift(l.db.value))) else None)
  {
    [if l.dW.Some? then Some(Mat(l.dW.value)) else None,
     if l.db.Some? then Some(Vec(Lift(l.db.value))) else None]
  }

  /** The output of a successful forward call is `W·x + b`. */
  lemma ForwardIsAffine(l: Layer, x: Vector)
    requires |x| == Width(l.W)
    ensures Forward(l, Some(x)).1 == Ok(AddScaled(MatVec(l.W, x), 1.0, l.b))
  {
    var out := Forward(l, Some(x)).1.value;
    var mv := MatVec(l.W, x);
    var a := AddScaled(mv, 1.0, l.b);
    assert |out| == |a|;
    forall i | 0 <= i < |l.W|
      ensures out[i] == a[i]
    {
      assert out[i] == mv[i] + l.b[i];
      assert a[i] == mv[i] + 1.0 * l.b[i];
    }
    assert out == a;
  }

  /** A layer whose weights are moved by `e`. */
  function WithWeightsMoved(l: Layer, e: Matrix): (l': Layer)
    requires |e| == |l.W| && Rect(e, Width(l.W))
    ensures l'.W == MatAdd(l.W, e) && l'.b == l.b
  {
    var W' := MatAdd(l.W, e);
    assert Rect(W', Width(l.W));
    assert Width(W') == Width(l.W);
    l.(W := W')
  }

  /** A layer whose bias is moved by `e`. */
  function WithBiasMoved(l: Layer, e: Vector): (l': Layer)
    requires |e| == |l.b|
    ensures l'.W == l.W && l'.b == AddScaled(l.b, 1.0, e)
  {
    l.(b := AddScaled(l.b, 1.0, e))
  }

  /** `gradInput` is exact: after `forward(x)` and `backward(g)`, moving the input
      by `e` changes `⟨g, output⟩` by exactly `⟨e, gradInput⟩` (the layer is affine,
      so there is no higher-order term). */
  lemma InputGradientExact(l: Layer, x: Vector, g: Vector, e: Vector)
    requires |x| == Width(l.W) && |e| == |x| && |l.W| <= |g|
    ensures Forward(l, Some(x)).1.Ok?
    ensures Backward(Forward(l, Some(x)).0, g).1.Ok?
    ensures Forward(l, Some(AddScaled(x, 1.0, e))).1.Ok?
    ensures Dot(Forward(l, Some(AddScaled(x, 1.0, e))).1.value, g)
         == Dot(Forward(l, Some(x)).1.value, g) + Dot(e, Backward(Forward(l, Some(x)).0, g).1.value)
  {
    var n := Width(l.W);
    var x' := AddScaled(x, 1.0, e);
    var out := Forward(l, Some(x)).1.value;
    var out' := Forward(l, Some(x')).1.value;
    var gi := Backward(Forward(l, Some(x)).0, g).1.value;
    MatVecLinear(l.W, n, x, 1.0, e);
    assert out == AddScaled(MatVec(l.W, x), 1.0, l.b);
    assert out' == AddScaled(out, 1.0, MatVec(l.W, e));
    DotAddScaledLeft(out, 1.0, MatVec(l.W, e), g);
    Adjoint(l.W, n, e, g);
    assert gi == TApply(l.W, g, n);
  }

  /** A forward call on an input of the right width followed by a backward call
      with a gradient entry per row: both succeed, with `W·x + b`, `Wᵀ·g`, the
      outer product `g·xᵀ` and `g` as output, input gradient, `dW` and `db`. */
  lemma ForwardThenBackward(l: Layer, x: Vector, g: Vector)
    requires |x| == Width(l.W) && |l.W| <= |g|
    ensures Covers(l.W, g)
    ensures Forward(l, Some(x)).1 == Ok(AddScaled(MatVec(l.W, x), 1.0, l.b))
    ensures Backward(Forward(l, Some(x)).0, g).1 == Ok(TApply(l.W, g, |x|))
    ensures Backward(Forward(l, Some(x)).0, g).0.dW == Some(LiftRows(Outer(l.W, g, x)))
    ensures Backward(Forward(l, Some(x)).0, g).0.db == Some(g)
  {
    ForwardIsAffine(l, x);
    var l1 := Forward(l, Some(x)).0;
    assert l1.lastInput == Some(x) && l1.W == l.W;
    OuterNumCovered(l.W, g, x);
  }

  /** `dW` is exact: after `forward(x)` and `backward(g)`, moving the weights by
      any `e` of their shape changes `⟨g, output⟩` by exactly `⟨dW, e⟩`. */
  lemma WeightGradientExact(l: Layer, x: Vector, g: Vector, e: Matrix)
    requires |x| == Width(l.W) && |l.W| <= |g|
    requires |e| == |l.W| && Rect(e, Width(l.W))
    ensures Forward(l, Some(x)).1.Ok?
    ensures Backward(Forward(l, Some(x)).0, g).1.Ok?
    ensures Backward(Forward(l, Some(x)).0, g).0.dW.Some?
    ensures AllReal(Backward(Forward(l, Some(x)).0, g).0.dW.value)
    ensures Forward(WithWeightsMoved(l, e), Some(x)).1.Ok?
    ensures |Backward(Forward(l, Some(x)).0, g).0.dW.value| == |e|
    ensures Dot(Forward(WithWeightsMoved(l, e), Some(x)).1.value, g)
         == Dot(Forward(l, Some(x)).1.value, g) + FrobDot(Unlift(Backward(Forward(l, Some(x)).0, g).0.dW.value), e)
  {
    var l' := WithWeightsMoved(l, e);
    ForwardThenBackward(l, x, g);
    UnliftRows(Outer(l.W, g, x));
    ForwardIsAffine(l', x);
    AffineWeightShift(l.W, e, Width(l.W), x, l.b, g);
  }

  /** `db` is exact: after `forward(x)` and `backward(g)`, moving the bias by any
      `e` changes `⟨g, output⟩` by exactly `⟨e, db⟩`. */
  lemma BiasGradientExact(l: Layer, x: Vector, g: Vector, e: Vector)
    requires |x| == Width(l.W) && |l.W| <= |g| && |e| == |l.b|
    ensures Forward(l, Some(x)).1.Ok?
    ensures Backward(Forward(l, Some(x)).0, g).1.Ok?
    ensures Forward(WithBiasMoved(l, e), Some(x)).1.Ok?
    ensures Backward(Forward(l, Some(x)).0, g).0.db.Some?
    ensures Dot(Forward(WithBiasMoved(l, e), Some(x)).1.value, g)
         == Dot(Forward(l, Some(x)).1.value, g) + Dot(e, Backward(Forward(l, Some(x)).0, g).0.db.value)
  {
    var out := Forward(l, Some(x)).1.value;
    var out' := Forward(WithBiasMoved(l, e), Some(x)).1.value;
    assert Backward(Forward(l, Some(x)).0, g).0.db == Some(g) by {
      ForwardThenBackward(l, x, g);
    }
    assert out' == AddScaled(out, 1.0, e) by {
      assert |out'| == |out| == |e|;
      forall i | 0 <= i < |e|
        ensures out'[i] == out[i] + 1.0 * e[i]
      {
      }
    }
    DotAddScaledLeft(out, 1.0, e, g);
  }
}

=== FILE: dense_layer.dfy ===
/** The dense layer of the column-vector lineage: every vector is a tensor of
    shape (n, 1), `W` is (outputSize × inputSize) and `b` is (outputSize × 1). */
module DenseLayer {
  import opened Common
  import opened LinAlg
  import opened Tensor
  import opened Text
  import opened Seqs
  import opened Graphs
  import Dense

  /** The fields of a layer instance; the gradients start as zero tensors and
      `lastInput` as `null` (`None`). A backward call can leave NaN entries in
      the gradients. */
  datatype State = State(W: Tensor, b: Tensor, dW: TensorOf<Num>, db: TensorOf<Num>, lastInput: Option<Tensor>)

  /** `W` is rectangular and `b` holds one number `b[i][0]` per row of `W`. */
  predicate Valid(s: State) {
    Rect(s.W.data, Width(s.W.data)) && |s.b.data| == |s.W.data| && HasFirst(s.b.data)
  }

  type Layer = s: State | Valid(s) witness State(Tensor([]), Tensor([]), Tensor([]), Tensor([]), None)

  /** `new DenseLayer(input_size, output_size)`. Entry (i, j) of `W` is the raw
      draw `draw(i, j)` of `Math.random()` minus 0.5, `b` is a column of zeros,
      and `dW`/`db` are `Tensor.zeros` of the shapes of `W` and `b`. The sizes are
      rejected exactly as `Array(n)` and `Tensor.zeros` reject them. */
  function New(inputSize: int, outputSize: int, draw: (nat, nat) -> real): (r: Result<Layer>)
    ensures r.Ok? <==> IsArrayLength(outputSize) && (outputSize == 0 || IsArrayLength(inputSize))
    ensures r.Err? ==> r.error == RangeError
    ensures r.Ok? ==> |r.value.W.data| == outputSize && Rect(r.value.W.data, Width(r.value.W.data))
    ensures r.Ok? ==> forall i :: 0 <= i < outputSize ==> |r.value.W.data[i]| == inputSize
    ensures r.Ok? ==> forall i, j :: 0 <= i < outputSize && 0 <= j < |r.value.W.data[i]| ==>
      r.value.W.data[i][j] == draw(i, j) - 0.5
    ensures r.Ok? ==> r.value.b.data == ColumnOf(Zero(outputSize))
    ensures r.Ok? ==> |r.value.dW.data| == outputSize && |r.value.db.data| == outputSize
    ensures r.Ok? ==> forall i :: 0 <= i < outputSize ==>
      |r.value.dW.data[i]| == inputSize && r.value.db.data[i] == [Real(0.0)]
    ensures r.Ok? ==> forall i, j :: 0 <= i < outputSize && 0 <= j < |r.value.dW.data[i]| ==>
      r.value.dW.data[i][j] == Real(0.0)
    ensures r.Ok? ==> r.value.lastInput.None?
  {
    var dW := Zeros(outputSize, inputSize);
    var db := Zeros(outputSize, 1);
    if dW.Err? || db.Err? then Err(RangeError)
    else
      var W := seq(outputSize, i requires 0 <= i < outputSize =>
        seq(inputSize, j requires 0 <= j < inputSize => draw(i, j) - 0.5));
      var b := ColumnOf(Zero(outputSize));
      assert outputSize > 0 ==> Width(W) == inputSize;
      Ok(State(Tensor(W), Tensor(b), Tensor(LiftRows(dW.value.data)), Tensor(LiftRows(db.value.data)), None))
  }

  /** `forward(input)`: output row i is `[Σ_j W[i][j]*x[j][0] + b[i][0]]`, summed
      from j = 0, and the input is cached after the computation. A `null` input,
      or (when `W` has rows) an input with fewer rows than `W` has columns, throws
      a TypeError before anything is stored; an empty row `x[j]` that is read
      gives a NaN entry in the source, reported here as a ShapeMismatch. */
  function Forward(l: Layer, input: Option<Tensor>): (r: (Layer, Result<Tensor>))
    ensures r.0.W == l.W && r.0.b == l.b && r.0.dW == l.dW && r.0.db == l.db
    ensures r.1.Ok? <==>
      (input.Some? && (|l.W.data| == 0 || Readable(input.value.data, Width(l.W.data))))
    ensures r.1.Err? ==> (r.1.error == TypeError <==>
      input.None? || (|l.W.data| > 0 && |input.value.data| < Width(l.W.data)))
    ensures r.1.Err? ==> r.1.error in {TypeError, ShapeMismatch}
    ensures r.1.Err? && r.1.error == TypeError ==> r.0 == l
    ensures !(r.1.Err? && r.1.error == TypeError) ==> r.0.lastInput == input
    ensures r.1.Ok? ==> |r.1.value.data| == |l.W.data|
    ensures r.1.Ok? ==> forall i :: 0 <= i < |l.W.data| ==>
      |r.1.value.data[i]| == 1 &&
      r.1.value.data[i][0] == Dot(l.W.data[i], ColumnPrefix(input.value.data, Width(l.W.data))) + l.b.data[i][0]
  {
    match input
    case None => (l, Err(TypeError))
    case Some(t) =>
      var W := l.W.data;
      var n := Width(W);
      if |W| == 0 then (l.(lastInput := input), Ok(Tensor([])))
      else if |t.data| < n then (l, Err(TypeError))
      else if !Readable(t.data, n) then (l.(lastInput := input), Err(ShapeMismatch))
      else
        var x := ColumnPrefix(t.data, n);
        var out := seq(|W|, i requires 0 <= i < |W| => [Dot(W[i], x) + l.b.data[i][0]]);
        (l.(lastInput := input), Ok(Tensor(out)))
  }

  /** `d.map((row, i) => x.map((_, j) => row[0] * x[j][0]))`: the outer product
      `d·xᵀ` of two columns, one row per row of `d` and one entry per row of `x`,
      NaN where `row[0]` or `x[j][0]` is missing. */
  function ColumnOuter(d: Matrix, x: Matrix): (r: seq<seq<Num>>)
    ensures |r| == |d| && forall i :: 0 <= i < |d| ==> |r[i]| == |x|
    ensures forall i, j :: 0 <= i < |d| && 0 <= j < |x| ==>
      r[i][j] == (if |d[i]| >= 1 && |x[j]| >= 1 then Real(d[i][0] * x[j][0]) else NaN)
  {
    var r := seq(|d|, i requires 0 <= i < |d| => seq(|x|, j requires 0 <= j < |x| =>
      if |d[i]| >= 1 && |x[j]| >= 1 then Real(d[i][0] * x[j][0]) else NaN));
    forall i, j | 0 <= i < |d| && 0 <= j < |x|
      ensures r[i][j] == (if |d[i]| >= 1 && |x[j]| >= 1 then Real(d[i][0] * x[j][0]) else NaN)
    {
    }
    r
  }

  /** `d.map(row => [row[0]])`: the first column of `d`, NaN for an empty row. */
  function BiasGrad(d: Matrix): (r: seq<seq<Num>>)
    ensures |r| == |d|
    ensures forall i :: 0 <= i < |d| ==> r[i] == [if |d[i]| >= 1 then Real(d[i][0]) else NaN]
  {
    seq(|d|, i requires 0 <= i < |d| => [if |d[i]| >= 1 then Real(d[i][0]) else NaN])
  }

  /** Whether `backward` throws when it reaches `W[0].map`: `W` has no rows, or
      its rows are non-empty and `d` has fewer rows than `W`. */
  predicate GradInputThrows(W: Matrix, d: Matrix) {
    |W| == 0 || (Width(W) > 0 && |d| < |W|)
  }

  /** Whether the sums of `dx` read an empty row of `d`: `W` has columns and one
      of the first `|W|` rows of `d` is empty, so `d[i][0]` is undefined and the
      sum NaN. Rows of `d` past `|W|` and the cached input are never read there. */
  predicate GradInputNaN(W: Matrix, d: Matrix) {
    Width(W) > 0 && exists i :: 0 <= i < |W| && i < |d| && |d[i]| == 0
  }

  /** The entries `d[i][0]` that the sums of `dx` read, one per row of `W`; 0.0
      where there is no such entry, which a successful call never reads. */
  function GradColumn(W: Matrix, d: Matrix): (v: Vector)
    ensures |v| == |W|
    ensures forall i :: 0 <= i < |W| && i < |d| && |d[i]| >= 1 ==> v[i] == d[i][0]
  {
    seq(|W|, i requires 0 <= i < |W| => if i < |d| && |d[i]| >= 1 then d[i][0] else 0.0)
  }

  /** `backward(gradOutput)`: `dW := d·xᵀ` of shape (|d| × |x|), `db := [[d[i][0]]]`
      and the result is the column `dx[j][0] = Σ_i W[i][j]*d[i][0]` for
      `j < W[0].length`. Without a cached input it throws a TypeError and changes
      nothing. Otherwise `dW` and `db` are always assigned, with NaN where an
      empty row of `d` or of the cached input is read; then it throws a TypeError
      when `W` has no rows or `d` misses a row of a non-empty `W`, and the call is
      reported as a ShapeMismatch exactly when `dx` would hold NaN. NaN left only
      in `dW` or `db` does not affect the returned `dx`. */
  function Backward(l: Layer, gradOutput: Tensor): (r: (Layer, Result<Tensor>))
    ensures r.0.W == l.W && r.0.b == l.b && r.0.lastInput == l.lastInput
    ensures r.1.Ok? <==>
      (l.lastInput.Some? && !GradInputThrows(l.W.data, gradOutput.data) &&
       !GradInputNaN(l.W.data, gradOutput.data))
    ensures r.1.Err? ==> (r.1.error == TypeError <==>
      l.lastInput.None? || GradInputThrows(l.W.data, gradOutput.data))
    ensures r.1.Err? ==> r.1.error in {TypeError, ShapeMismatch}
    ensures l.lastInput.None? ==> r.0 == l
    ensures l.lastInput.Some? ==> |r.0.dW.data| == |gradOutput.data| && |r.0.db.data| == |gradOutput.data|
    ensures l.lastInput.Some? ==> forall i :: 0 <= i < |gradOutput.data| ==>
      |r.0.dW.data[i]| == |l.lastInput.value.data| &&
      r.0.db.data[i] == [if |gradOutput.data[i]| >= 1 then Real(gradOutput.data[i][0]) else NaN]
    ensures l.lastInput.Some? ==> forall i, j :: 0 <= i < |gradOutput.data| && 0 <= j < |l.lastInput.value.data| ==>
      r.0.dW.data[i][j] ==
        (if |gradOutput.data[i]| >= 1 && |l.lastInput.value.data[j]| >= 1
         then Real(gradOutput.data[i][0] * l.lastInput.value.data[j][0]) else NaN)
    ensures r.1.Ok? ==> |r.1.value.data| == Width(l.W.data)
    ensures r.1.Ok? ==> forall j :: 0 <= j < Width(l.W.data) ==>
      r.1.value.data[j] == [ColDot(l.W.data, j, GradColumn(l.W.data, gradOutput.data))]
  {
    match l.lastInput
    case None => (l, Err(TypeError))
    case Some(xt) =>
      var x := xt.data;
      var d := gradOutput.data;
      var W := l.W.data;
      var l1 := l.(dW := Tensor(ColumnOuter(d, x)), db := Tensor(BiasGrad(d)));
      if GradInputThrows(W, d) then (l1, Err(TypeError))
      else if GradInputNaN(W, d) then (l1, Err(ShapeMismatch))
      else
        var dv := GradColumn(W, d);
        var dx := TApply(W, dv, Width(W));
        (l1, Ok(Tensor(ColumnOf(dx))))
  }

  /** The returned input gradient never reads the cached input, only whether one
      is cached: an input with empty rows gives the same result as any other,
      even though it leaves NaN in `dW`. */
  lemma BackwardResultIgnoresInput(l: Layer, a: Tensor, c: Tensor, g: Tensor)
    ensures Backward(l.(lastInput := Some(a)), g).1 == Backward(l.(lastInput := Some(c)), g).1
  {
  }

  /** `getParams()`: the weight tensor, then the bias tensor. */
  function Params(l: Layer): (ps: seq<Tensor>)
    ensures |ps| == 2 && ps[0] == l.W && ps[1] == l.b
  {
    [l.W, l.b]
  }

  /** `getGrads()`: the gradient tensors in the order of `getParams()`. */
  function Grads(l: Layer): (gs: seq<TensorOf<Num>>)
    ensures |gs| == 2 && gs[0] == l.dW && gs[1] == l.db
  {
    [l.dW, l.db]
  }

  /** Two tensors have the same number of rows and rows of the same lengths. */
  predicate SameShape<A, B>(a: TensorOf<A>, b: TensorOf<B>) {
    |a.data| == |b.data| && forall i :: 0 <= i < |a.data| ==> |a.data[i]| == |b.data[i]|
  }

  /** A new layer's gradients have the shapes of its parameters. */
  lemma NewGradsMatchParams(inputSize: int, outputSize: int, draw: (nat, nat) -> real)
    requires New(inputSize, outputSize, draw).Ok?
    ensures forall k :: 0 <= k < 2 ==>
      SameShape(Params(New(inputSize, outputSize, draw).value)[k],
                Grads(New(inputSize, outputSize, draw).value)[k])
  {
  }

  /** After a successful backward pass with one gradient row per output and a
      cached input of one row per input, the gradients again have the shapes of
      the parameters. */
  lemma BackwardGradsMatchParams(l: Layer, g: Tensor)
    requires Backward(l, g).1.Ok?
    requires |g.data| == |l.W.data| && |l.lastInput.value.data| == Width(l.W.data)
    requires forall i :: 0 <= i < |l.b.data| ==> |l.b.data[i]| == 1
    ensures forall k :: 0 <= k < 2 ==>
      SameShape(Params(Backward(l, g).0)[k], Grads(Backward(l, g).0)[k])
  {
  }

  /** The id of input neuron `i`: `${prefix}:in:${i}`. */
  function InId(prefix: string, i: nat): (id: string)
    ensures |id| > |prefix| + 1 && id[..|prefix|] == prefix && id[|prefix|] == ':' && id[|prefix| + 1] == 'i'
  {
    prefix + ":in:" + NatStr(i)
  }

  /** The id of output neuron `j`: `${prefix}:out:${j}`. */
  function OutId(prefix: string, j: nat): (id: string)
    ensures |id| > |prefix| + 1 && id[..|prefix|] == prefix && id[|prefix|] == ':' && id[|prefix| + 1] == 'o'
  {
    prefix + ":out:" + NatStr(j)
  }

  /** The links of `toGraph`, row `j` of `W` holding the links into output `j`. */
  function LinkRows(W: Matrix, prefix: string): (rows: seq<seq<Link>>)
    requires Rect(W, Width(W))
    ensures |rows| == |W| && forall j :: 0 <= j < |W| ==> |rows[j]| == Width(W)
    ensures forall j, i :: 0 <= j < |W| && 0 <= i < Width(W) ==>
      rows[j][i] == Link(InId(prefix, i), OutId(prefix, j), W[j][i])
  {
    seq(|W|, j requires 0 <= j < |W| =>
      seq(Width(W), i requires 0 <= i < Width(W) => Link(InId(prefix, i), OutId(prefix, j), W[j][i])))
  }

  /** The input neuron records of `toGraph`, one per column. */
  function InputNodes(prefix: string, n: nat): (ns: seq<UnitNode>)
    ensures |ns| == n && forall i :: 0 <= i < n ==>
      ns[i] == UnitNode(InId(prefix, i), "input", prefix, "in" + NatStr(i), "#1f77b4")
  {
    seq(n, i requires 0 <= i < n => UnitNode(InId(prefix, i), "input", prefix, "in" + NatStr(i), "#1f77b4"))
  }

  /** The output neuron records of `toGraph`, one per row. */
  function OutputNodes(prefix: string, m: nat): (ns: seq<UnitNode>)
    ensures |ns| == m && forall j :: 0 <= j < m ==>
      ns[j] == UnitNode(OutId(prefix, j), "output", prefix, "out" + NatStr(j), "#ff7f0e")
  {
    seq(m, j requires 0 <= j < m => UnitNode(OutId(prefix, j), "output", prefix, "out" + NatStr(j), "#ff7f0e"))
  }

  /** The neuron records of `toGraph`: `n` inputs, then `m` outputs. */
  function Neurons(prefix: string, n: nat, m: nat): (ns: seq<UnitNode>)
    ensures |ns| == n + m
    ensures forall i :: 0 <= i < n ==>
      ns[i] == UnitNode(InId(prefix, i), "input", prefix, "in" + NatStr(i), "#1f77b4")
    ensures forall p :: n <= p < n + m ==>
      ns[p] == UnitNode(OutId(prefix, p - n), "output", prefix, "out" + NatStr(p - n), "#ff7f0e")
  {
    var ins := InputNodes(prefix, n);
    var outs := OutputNodes(prefix, m);
    assert forall p :: n <= p < n + m ==> (ins + outs)[p] == outs[p - n];
    ins + outs
  }

  /** `toGraph(idPrefix)`: the input neurons (one per column of `W`, counted from
      `W[0]`), then the output neurons (one per row), then one link per weight,
      output-major. A layer without rows throws a TypeError at `W[0].length`. */
  function ToGraph(l: Layer, prefix: string): (r: Result<Graph<UnitNode>>)
    ensures r.Err? <==> |l.W.data| == 0
    ensures r.Err? ==> r.error == TypeError
    ensures r.Ok? ==> |r.value.nodes| == Width(l.W.data) + |l.W.data|
    ensures r.Ok? ==> forall i :: 0 <= i < Width(l.W.data) ==>
      r.value.nodes[i] == UnitNode(InId(prefix, i), "input", prefix, "in" + NatStr(i), "#1f77b4")
    ensures r.Ok? ==> forall p :: Width(l.W.data) <= p < |r.value.nodes| ==>
      r.value.nodes[p] == UnitNode(OutId(prefix, p - Width(l.W.data)), "output", prefix,
                                   "out" + NatStr(p - Width(l.W.data)), "#ff7f0e")
    ensures r.Ok? ==> r.value.links == Flatten(LinkRows(l.W.data, prefix))
  {
    var W := l.W.data;
    if |W| == 0 then Err(TypeError)
    else
      var n := |W[0]|;
      Ok(Graph(Neurons(prefix, n, |W|), Flatten(LinkRows(W, prefix))))
  }

  /** `toGraph()` with its default prefix "dense": every node is filed under
      the layer "dense" and its id starts with "dense:". */
  function ToGraphDefault(l: Layer): (r: Result<Graph<UnitNode>>)
    ensures r == ToGraph(l, "dense")
    ensures r.Ok? ==> forall p :: 0 <= p < |r.value.nodes| ==>
      r.value.nodes[p].layer == "dense" && |r.value.nodes[p].id| > 6 &&
      r.value.nodes[p].id[..6] == "dense:"
  {
    ToGraph(l, "dense")
  }

  /** `toGraph` emits exactly one link per weight: the link at `j * inputSize + i`
      runs from input `i` to output `j` and carries `W[j][i]`. */
  lemma ToGraphLinks(l: Layer, prefix: string)
    requires |l.W.data| > 0
    ensures ToGraph(l, prefix).Ok?
    ensures |ToGraph(l, prefix).value.links| == |l.W.data| * Width(l.W.data)
    ensures forall j, i :: 0 <= j < |l.W.data| && 0 <= i < Width(l.W.data) ==>
      Cell(j, Width(l.W.data), i) < |ToGraph(l, prefix).value.links| &&
      ToGraph(l, prefix).value.links[Cell(j, Width(l.W.data), i)]
        == Link(InId(prefix, i), OutId(prefix, j), l.W.data[j][i])
  {
    var rows := LinkRows(l.W.data, prefix);
    FlattenUniformLength(rows, Width(l.W.data));
    FlattenGrid(rows, Width(l.W.data));
  }

  /** Distinct input neurons have distinct ids. */
  lemma InIdInjective(prefix: string, a: nat, b: nat)
    requires InId(prefix, a) == InId(prefix, b)
    ensures a == b
  {
    CancelPrefix(prefix + ":in:", NatStr(a), NatStr(b));
    NatStrInjective(a, b);
  }

  /** Distinct output neurons have distinct ids. */
  lemma OutIdInjective(prefix: string, a: nat, b: nat)
    requires OutId(prefix, a) == OutId(prefix, b)
    ensures a == b
  {
    CancelPrefix(prefix + ":out:", NatStr(a), NatStr(b));
    NatStrInjective(a, b);
  }

  /** The id `toGraph` gives node `p` when the first `n` nodes are inputs. */
  function NodeId(prefix: string, n: nat, p: nat): string {
    if p < n then InId(prefix, p) else OutId(prefix, p - n)
  }

  /** The input/output id scheme never repeats an id. */
  lemma NodeIdInjective(prefix: string, n: nat, p: nat, q: nat)
    requires NodeId(prefix, n, p) == NodeId(prefix, n, q)
    ensures p == q
  {
    var idp := NodeId(prefix, n, p);
    var idq := NodeId(prefix, n, q);
    if p < n && q < n {
      InIdInjective(prefix, p, q);
    } else if p >= n && q >= n {
      OutIdInjective(prefix, p - n, q - n);
    } else {
      assert false;
    }
  }

  /** No two nodes of `toGraph` share an id. */
  lemma {:induction false} ToGraphIdsDistinct(l: Layer, prefix: string)
    requires |l.W.data| > 0
    ensures ToGraph(l, prefix).Ok? && Distinct(UnitIds(ToGraph(l, prefix).value.nodes))
  {
    var nodes := ToGraph(l, prefix).value.nodes;
    var n := Width(l.W.data);
    var ids := UnitIds(nodes);
    forall p | 0 <= p < |ids|
      ensures ids[p] == NodeId(prefix, n, p)
    {
    }
    forall p, q | 0 <= p < |ids| && 0 <= q < |ids| && p != q
      ensures ids[p] != ids[q]
    {
      if ids[p] == ids[q] {
        NodeIdInjective(prefix, n, p, q);
      }
    }
  }

  /** Every link of `toGraph` runs from the id of an input node to the id of an
      output node. */
  lemma ToGraphLinksClosed(l: Layer, prefix: string)
    requires |l.W.data| > 0
    ensures ToGraph(l, prefix).Ok?
    ensures forall k :: 0 <= k < |ToGraph(l, prefix).value.links| ==>
      (exists p :: 0 <= p < Width(l.W.data) &&
         ToGraph(l, prefix).value.links[k].source == ToGraph(l, prefix).value.nodes[p].id) &&
      (exists q :: Width(l.W.data) <= q < |ToGraph(l, prefix).value.nodes| &&
         ToGraph(l, prefix).value.links[k].target == ToGraph(l, prefix).value.nodes[q].id)
  {
    var g := ToGraph(l, prefix).value;
    var W := l.W.data;
    var n := Width(W);
    var rows := LinkRows(W, prefix);
    FlattenGrid(rows, n);
    forall k | 0 <= k < |g.links|
      ensures exists p :: 0 <= p < n && g.links[k].source == g.nodes[p].id
      ensures exists q :: n <= q < |g.nodes| && g.links[k].target == g.nodes[q].id
    {
      var (j, i) := Locate(rows, k);
      assert g.links[k] == Link(InId(prefix, i), OutId(prefix, j), W[j][i]);
      assert g.links[k].source == g.nodes[i].id;
      assert g.links[k].target == g.nodes[n + j].id;
    }
  }

  /** Reading a packed column back up to its full length gives the vector. */
  lemma ColumnPrefixOf(x: Vector)
    ensures Readable(ColumnOf(x), |x|) && ColumnPrefix(ColumnOf(x), |x|) == x
  {
  }

  /** The two lineages compute the same forward pass: a column layer holding the
      weights of a flat layer and its bias as a column maps the column of `x` to
      the column of the flat layer's output. */
  lemma ForwardAgrees(l: Dense.Layer, k: Layer, x: Vector)
    requires k.W.data == l.W && k.b.data == ColumnOf(l.b)
    requires |x| == Width(l.W)
    ensures Dense.Forward(l, Some(x)).1.Ok?
    ensures Forward(k, Some(Tensor(ColumnOf(x)))).1.Ok?
    ensures Forward(k, Some(Tensor(ColumnOf(x)))).1.value.data == ColumnOf(Dense.Forward(l, Some(x)).1.value)
  {
    ColumnPrefixOf(x);
    var out := Forward(k, Some(Tensor(ColumnOf(x)))).1.value.data;
    var flat := Dense.Forward(l, Some(x)).1.value;
    forall i | 0 <= i < |l.W|
      ensures out[i] == ColumnOf(flat)[i]
    {
      assert out[i] == [out[i][0]];
    }
  }

  /** The two lineages compute the same backward pass after such a forward pass,
      for a layer with at least one row and one gradient entry per row: the same
      `dW`, `db` as the column of the flat `db`, and the column of the flat input
      gradient. (Without rows the column layer throws at `W[0]` where the flat
      layer returns zeros.) */
  lemma BackwardAgrees(l: Dense.Layer, k: Layer, x: Vector, g: Vector)
    requires k.W.data == l.W && k.b.data == ColumnOf(l.b)
    requires |x| == Width(l.W) && |g| == |l.W| > 0
    ensures Dense.Backward(Dense.Forward(l, Some(x)).0, g).1.Ok?
    ensures Backward(Forward(k, Some(Tensor(ColumnOf(x)))).0, Tensor(ColumnOf(g))).1.Ok?
    ensures Backward(Forward(k, Some(Tensor(ColumnOf(x)))).0, Tensor(ColumnOf(g))).1.value.data
         == ColumnOf(Dense.Backward(Dense.Forward(l, Some(x)).0, g).1.value)
    ensures Some(Backward(Forward(k, Some(Tensor(ColumnOf(x)))).0, Tensor(ColumnOf(g))).0.dW.data)
         == Dense.Backward(Dense.Forward(l, Some(x)).0, g).0.dW
    ensures Dense.Backward(Dense.Forward(l, Some(x)).0, g).0.db.Some?
    ensures FirstColumn(Backward(Forward(k, Some(Tensor(ColumnOf(x)))).0, Tensor(ColumnOf(g))).0.db.data)
         == Lift(Dense.Backward(Dense.Forward(l, Some(x)).0, g).0.db.value)
  {
    var n := Width(l.W);
    ColumnRoundTrip(g);
    var k1 := Forward(k, Some(Tensor(ColumnOf(x)))).0;
    var l1 := Dense.Forward(l, Some(x)).0;
    assert k1.lastInput == Some(Tensor(ColumnOf(x)));
    assert l1.lastInput == Some(x);
    var kb := Backward(k1, Tensor(ColumnOf(g)));
    var lb := Dense.Backward(l1, g);
    assert kb.1.value.data == ColumnOf(lb.1.value) by {
      GradColumnOfColumn(l.W, g);
      forall j | 0 <= j < n
        ensures kb.1.value.data[j] == ColumnOf(lb.1.value)[j]
      {
      }
    }
    assert kb.0.dW.data == lb.0.dW.value by {
      assert kb.0.dW.data == ColumnOuter(ColumnOf(g), ColumnOf(x));
      assert lb.0.dW == Some(Dense.OuterNum(l.W, g, x));
      ColumnOuterOfColumns(l.W, g, x);
    }
    assert FirstColumn(kb.0.db.data) == Lift(g) by {
      assert kb.0.db.data == BiasGrad(ColumnOf(g));
      BiasGradOfColumn(g);
    }
  }

  /** On two columns, the column outer product is the flat layer's `dW` for a
      `W` with one row per gradient entry and one column per input entry. */
  lemma ColumnOuterOfColumns(W: Matrix, g: Vector, x: Vector)
    requires |g| == |W| && Rect(W, |x|)
    ensures ColumnOuter(ColumnOf(g), ColumnOf(x)) == Dense.OuterNum(W, g, x)
  {
    var a := ColumnOuter(ColumnOf(g), ColumnOf(x));
    var b := Dense.OuterNum(W, g, x);
    forall i | 0 <= i < |W|
      ensures a[i] == b[i]
    {
      forall j | 0 <= j < |x|
        ensures a[i][j] == b[i][j]
      {
      }
    }
  }

  /** The entries the input-gradient sums read from a column with one row per row
      of `W` are that column's entries. */
  lemma GradColumnOfColumn(W: Matrix, g: Vector)
    requires |g| == |W|
    ensures GradColumn(W, ColumnOf(g)) == g
  {
    var v := GradColumn(W, ColumnOf(g));
    assert forall i :: 0 <= i < |g| ==> v[i] == ColumnOf(g)[i][0] == g[i];
  }

  /** The bias gradient of a column is that column, every entry a number. */
  lemma BiasGradOfColumn(g: Vector)
    ensures FirstColumn(BiasGrad(ColumnOf(g))) == Lift(g)
  {
    var r := BiasGrad(ColumnOf(g));
    assert forall i :: 0 <= i < |g| ==> r[i] == [Real(g[i])];
  }
}

=== FILE: flat_network.dfy ===
/** The cursor-less layer container of the flat-array lineage, kept in two
    copies (`TODOnetwork.js` and `old_network.js`) that agree on every method but
    `exportGraph`. Layers are the `Units` family; vectors are plain arrays. */
module FlatNetwork {
  import opened Common
  import opened LinAlg
  import opened Seqs
  import opened Text
  import opened Graphs
  import Units
  import Network

  datatype Net = Net(layers: seq<Units.Unit>)

  /** `new Network(layers)`. */
  function Create(layers: seq<Units.Unit>): (n: Net)
    ensures n.layers == layers
  {
    Net(layers)
  }

  /** `new Network()`: the default `layers = []` gives a network with no layers. */
  function CreateDefault(): (n: Net)
    ensures n == Create([]) && |n.layers| == 0
  {
    Create([])
  }

  /** `add(layer)`: appends the layer. */
  function Add(n: Net, u: Units.Unit): (r: Net)
    ensures |r.layers| == |n.layers| + 1 && r.layers[..|n.layers|] == n.layers && r.layers[|n.layers|] == u
  {
    Net(n.layers + [u])
  }

  /** `forward(input)`: the same loop as the cursor container's `forward`. */
  function Forward(n: Net, input: Option<Vector>): (r: (Net, Result<Option<Vector>>))
    ensures (r.0.layers, r.1) == Network.Thread(n.layers, Units.Forward, input)
  {
    var (ls, out) := Network.Thread(n.layers, Units.Forward, input);
    (Net(ls), out)
  }

  /** An added layer runs last in `forward`, after every earlier layer succeeded. */
  lemma ForwardAdd(n: Net, u: Units.Unit, x: Option<Vector>)
    ensures var (n', r) := Forward(n, x);
      Forward(Add(n, u), x) ==
        if r.Err? then (Net(n'.layers + [u]), r)
        else var (u', y) := Units.Forward(u, r.value);
          (Net(n'.layers + [u']), if y.Err? then Err(y.error) else Ok(Some(y.value)))
  {
    Network.ThreadAppend(n.layers, u, Units.Forward, x);
  }

  /** `backward(grad)` as written: the loop assigns to the undeclared names `i`
      and `layer`, which in module (strict) code throws a ReferenceError before
      any layer is reached. */
  function BackwardAsWritten(n: Net, grad: Vector): (r: (Net, Result<()>))
    ensures r.0 == n && r.1 == Err(ReferenceError)
  {
    (n, Err(ReferenceError))
  }

  /** Feeds `g` backwards through `layers`, last layer first, each returned
      gradient becoming the next (earlier) layer's input, and stops at the first
      failure. Returns the layers as the calls left them and the gradient that
      came out of the first layer. */
  function BackThread(layers: seq<Units.Unit>, g: Vector): (r: (seq<Units.Unit>, Result<Vector>))
    ensures |r.0| == |layers|
    decreases |layers|
  {
    if |layers| == 0 then (layers, Ok(g))
    else
      var k := |layers| - 1;
      var (u, d) := Units.Backward(layers[k], g);
      if d.Err? then (layers[..k] + [u], Err(d.error))
      else
        var (front, z) := BackThread(layers[..k], d.value);
        (front + [u], z)
  }

  /** `backward(grad)` as intended: the layers from last to first. The source
      discards the final gradient and returns nothing. */
  function Backward(n: Net, grad: Vector): (r: (Net, Result<()>))
    ensures r.0.layers == BackThread(n.layers, grad).0
    ensures r.1.Ok? <==> BackThread(n.layers, grad).1.Ok?
    ensures r.1.Err? ==> r.1.error == BackThread(n.layers, grad).1.error
  {
    var (ls, d) := BackThread(n.layers, grad);
    (Net(ls), if d.Err? then Err(d.error) else Ok(()))
  }

  /** The as-written method fails on every network, even on the empty one where
      the intended loop has nothing to do. */
  lemma BackwardAsWrittenAlwaysFails(n: Net, grad: Vector)
    ensures BackwardAsWritten(n, grad).1.Err?
    ensures |n.layers| == 0 ==> Backward(n, grad) == (n, Ok(()))
  {
  }

  /** Running backward through `a + b` runs through `b` first and hands the
      gradient it returns to `a`: the reverse of the order `forward` uses. */
  lemma {:induction false} BackThreadAppend(a: seq<Units.Unit>, b: seq<Units.Unit>, g: Vector)
    ensures var (b', r) := BackThread(b, g);
      BackThread(a + b, g) ==
        if r.Err? then (a + b', r)
        else var (a', z) := BackThread(a, r.value); (a' + b', z)
    decreases |b|
  {
    if |b| == 0 {
      assert a + b == a;
      if |a| > 0 {
        var (a', z) := BackThread(a, g);
        assert a' + [] == a';
      }
    } else {
      var k := |b| - 1;
      assert (a + b)[..|a| + k] == a + b[..k];
      assert (a + b)[|a| + k] == b[k];
      var (u, d) := Units.Backward(b[k], g);
      if d.Err? {
        assert (a + b[..k]) + [u] == a + (b[..k] + [u]);
      } else {
        BackThreadAppend(a, b[..k], d.value);
        var (b1, r1) := BackThread(b[..k], d.value);
        if r1.Err? {
          assert (a + b1) + [u] == a + (b1 + [u]);
        } else {
          var (a', z) := BackThread(a, r1.value);
          assert (a' + b1) + [u] == a' + (b1 + [u]);
        }
      }
    }
  }

  /** The per-layer parameter and gradient lists. */
  function ParamBlocks(n: Net): (bs: seq<seq<Param>>)
    ensures |bs| == |n.layers| && forall i :: 0 <= i < |n.layers| ==> bs[i] == Units.Params(n.layers[i])
  {
    seq(|n.layers|, i requires 0 <= i < |n.layers| => Units.Params(n.layers[i]))
  }

  function GradBlocks(n: Net): (bs: seq<seq<Option<Grad>>>)
    ensures |bs| == |n.layers| && forall i :: 0 <= i < |n.layers| ==> bs[i] == Units.Grads(n.layers[i])
  {
    seq(|n.layers|, i requires 0 <= i < |n.layers| => Units.Grads(n.layers[i]))
  }

  /** `getParams()`: `flatMap` of the layers' parameter lists. */
  function Params(n: Net): (ps: seq<Param>)
    ensures ps == Flatten(ParamBlocks(n))
  {
    Flatten(ParamBlocks(n))
  }

  /** `getGrads()`: `flatMap` of the layers' gradient lists. */
  function Grads(n: Net): (gs: seq<Option<Grad>>)
    ensures gs == Flatten(GradBlocks(n))
  {
    Flatten(GradBlocks(n))
  }

  /** Two block lists with equal block lengths flatten to equal lengths and
      start every block at the same offset. */
  lemma {:induction false} SameLengthsSameOffsets<S, T>(a: seq<seq<S>>, b: seq<seq<T>>, i: nat)
    requires |a| == |b| && forall k :: 0 <= k < |a| ==> |a[k]| == |b[k]|
    requires i <= |a|
    ensures Offset(a, i) == Offset(b, i)
    decreases i
  {
    if i > 0 {
      SameLengthsSameOffsets(a, b, i - 1);
      assert a[..i][..i - 1] == a[..i - 1];
      assert b[..i][..i - 1] == b[..i - 1];
    }
  }

  /** The flattened lists line up: they are equally long, and the entry at
      every position comes from the same layer and the same slot in both, so an
      optimizer walking both with one index pairs each parameter with its own
      gradient. */
  lemma ParamsGradsAligned(n: Net, i: nat, k: nat)
    requires i < |n.layers| && k < |Units.Params(n.layers[i])|
    ensures |Params(n)| == |Grads(n)|
    ensures Offset(ParamBlocks(n), i) == Offset(GradBlocks(n), i)
    ensures Offset(ParamBlocks(n), i) + k < |Params(n)|
    ensures Params(n)[Offset(ParamBlocks(n), i) + k] == Units.Params(n.layers[i])[k]
    ensures Grads(n)[Offset(ParamBlocks(n), i) + k] == Units.Grads(n.layers[i])[k]
  {
    var pb, gb := ParamBlocks(n), GradBlocks(n);
    forall j | 0 <= j < |n.layers|
      ensures |pb[j]| == |gb[j]|
    {
      Units.ParamsGradsAligned(n.layers[j]);
    }
    SameLengthsSameOffsets(pb, gb, i);
    SameLengthsSameOffsets(pb, gb, |pb|);
    assert pb[..|pb|] == pb && gb[..|gb|] == gb;
    FlattenIndex(pb, i, k);
    FlattenIndex(gb, i, k);
  }

  /** The id `L${layer}N${neuron}`. */
  function NeuronId(layer: int, neuron: nat): (id: string)
  {
    "L" + IntStr(layer) + "N" + NatStr(neuron)
  }

  /** The neurons `exportGraph` emits for layer `li`: one per entry of the
      cached output, none for a layer without one (ReLU and the base class
      never store it). */
  function LayerNodes(u: Units.Unit, li: nat): (ns: seq<NeuronNode>)
    ensures Units.LastOutput(u).None? ==> ns == []
    ensures Units.LastOutput(u).Some? ==> |ns| == |Units.LastOutput(u).value|
    ensures Units.LastOutput(u).Some? ==> forall k :: 0 <= k < |ns| ==>
      ns[k] == NeuronNode(NeuronId(li, k), li, k, Units.LastOutput(u).value[k])
  {
    match Units.LastOutput(u)
    case None => []
    case Some(out) => seq(|out|, k requires 0 <= k < |out| => NeuronNode(NeuronId(li, k), li, k, out[k]))
  }

  /** A layer whose weights `exportGraph` reads has a cached output and a `W`;
      it throws a TypeError at `W[0].length` when `W` has no rows. */
  predicate LinksThrow(u: Units.Unit) {
    Units.LastOutput(u).Some? && Units.Weights(u).Some? && |Units.Weights(u).value| == 0
  }

  /** The links `exportGraph` emits for layer `li`, row-major: from neuron `j` of
      layer `li - 1` to neuron `i` of layer `li`, weighted `W[i][j]`. */
  function LayerLinks(u: Units.Unit, li: nat): (ls: seq<Link>)
    requires !LinksThrow(u)
    ensures Units.LastOutput(u).None? || Units.Weights(u).None? ==> ls == []
  {
    if Units.LastOutput(u).None? || Units.Weights(u).None? then []
    else
      var W := Units.Weights(u).value;
      Flatten(LinkGrid(W, li))
  }

  /** The rows of links of one dense layer. */
  function LinkGrid(W: Matrix, li: nat): (rows: seq<seq<Link>>)
    requires Rect(W, Width(W))
    ensures |rows| == |W| && forall i :: 0 <= i < |W| ==> |rows[i]| == Width(W)
    ensures forall i, j :: 0 <= i < |W| && 0 <= j < Width(W) ==>
      rows[i][j] == Link(NeuronId(li - 1, j), NeuronId(li, i), W[i][j])
  {
    seq(|W|, i requires 0 <= i < |W| =>
      seq(Width(W), j requires 0 <= j < Width(W) => Link(NeuronId(li - 1, j), NeuronId(li, i), W[i][j])))
  }

  /** No layer makes `exportGraph` throw. */
  predicate Exportable(n: Net) {
    forall li :: 0 <= li < |n.layers| ==> !LinksThrow(n.layers[li])
  }

  /** `exportGraph()` of `TODOnetwork.js`. Layer `li` adds its neurons and then
      its links; a dense layer with a cached output and no rows makes the call
      throw. */
  function ExportGraph(n: Net): (r: Result<Graph<NeuronNode>>)
    ensures r.Err? <==> exists li :: 0 <= li < |n.layers| && LinksThrow(n.layers[li])
    ensures r.Ok? <==> Exportable(n)
    ensures r.Err? ==> r.error == TypeError
    ensures r.Ok? ==> r.value.nodes == Flatten(NodeBlocks(n))
    ensures r.Ok? ==> r.value.links == Flatten(LinkBlocks(n))
  {
    if !Exportable(n) then Err(TypeError)
    else Ok(Graph(Flatten(NodeBlocks(n)), Flatten(LinkBlocks(n))))
  }

  function NodeBlocks(n: Net): (bs: seq<seq<NeuronNode>>)
    ensures |bs| == |n.layers|
  {
    seq(|n.layers|, li requires 0 <= li < |n.layers| => LayerNodes(n.layers[li], li))
  }

  function LinkBlocks(n: Net): (bs: seq<seq<Link>>)
    requires Exportable(n)
    ensures |bs| == |n.layers|
  {
    seq(|n.layers|, li requires 0 <= li < |n.layers| => LayerLinks(n.layers[li], li))
  }

  /** `exportGraph()` of `old_network.js`: a stub whose body is a comment, so it
      returns `undefined`. */
  function OldExportGraph(n: Net): (r: Option<Graph<NeuronNode>>)
    ensures r.None?
  {
    None
  }

  /** One node per cached output entry, in layer order: neuron `k` of layer `li`
      sits at the layer's offset plus `k` and carries the cached activation. */
  lemma ExportNodeAt(n: Net, li: nat, k: nat)
    requires Exportable(n) && li < |n.layers|
    requires Units.LastOutput(n.layers[li]).Some? && k < |Units.LastOutput(n.layers[li]).value|
    ensures Offset(NodeBlocks(n), li) + k < |ExportGraph(n).value.nodes|
    ensures ExportGraph(n).value.nodes[Offset(NodeBlocks(n), li) + k]
      == NeuronNode(NeuronId(li, k), li, k, Units.LastOutput(n.layers[li]).value[k])
  {
    var bs := NodeBlocks(n);
    NodeBlockAt(n, li, k);
    assert bs[li][k] == NeuronNode(NeuronId(li, k), li, k, Units.LastOutput(n.layers[li]).value[k]) by {
      assert bs[li] == LayerNodes(n.layers[li], li);
    }
    assert ExportGraph(n).value.nodes == Flatten(bs);
  }

  /** Node `k` of layer `li` sits at the layer's offset plus `k`. */
  lemma NodeBlockAt(n: Net, li: nat, k: nat)
    requires li < |n.layers| && k < |NodeBlocks(n)[li]|
    ensures Offset(NodeBlocks(n), li) + k < |Flatten(NodeBlocks(n))|
    ensures Flatten(NodeBlocks(n))[Offset(NodeBlocks(n), li) + k] == NodeBlocks(n)[li][k]
  {
    FlattenIndex(NodeBlocks(n), li, k);
  }

  /** `L${l}N${k}` names one neuron only. */
  lemma NeuronIdInjective(l: nat, k: nat, l': nat, k': nat)
    requires NeuronId(l, k) == NeuronId(l', k')
    ensures l == l' && k == k'
  {
    NonDigitNotInNatStr(l, 'N');
    NonDigitNotInNatStr(l', 'N');
    assert "L" + NatStr(l) + "N" + NatStr(k) == ("L" + NatStr(l)) + ['N'] + NatStr(k);
    assert "L" + NatStr(l') + "N" + NatStr(k') == ("L" + NatStr(l')) + ['N'] + NatStr(k');
    assert 'N' !in "L" + NatStr(l);
    assert 'N' !in "L" + NatStr(l');
    SepSplit("L" + NatStr(l), NatStr(k), "L" + NatStr(l'), NatStr(k'), 'N');
    CancelPrefix("L", NatStr(l), NatStr(l'));
    NatStrInjective(l, l');
    NatStrInjective(k, k');
  }

  /** Node `p` of the export, named by the layer and the neuron it stands for. */
  lemma NodeIdAt(n: Net, p: nat)
    requires Exportable(n) && p < |ExportGraph(n).value.nodes|
    ensures ExportGraph(n).value.nodes[p].id
      == NeuronId(Locate(NodeBlocks(n), p).0, Locate(NodeBlocks(n), p).1)
  {
    var bs := NodeBlocks(n);
    var (li, k) := Locate(bs, p);
    assert bs[li] == LayerNodes(n.layers[li], li);
  }

  /** No two nodes of the export share an id. */
  lemma {:induction false} ExportIdsDistinct(n: Net)
    requires Exportable(n)
    ensures Distinct(NeuronIds(ExportGraph(n).value.nodes))
  {
    var bs := NodeBlocks(n);
    var nodes := ExportGraph(n).value.nodes;
    var ids := NeuronIds(nodes);
    forall p, q | 0 <= p < |ids| && 0 <= q < |ids| && p != q
      ensures ids[p] != ids[q]
    {
      LocateSeparates(bs, p, q);
      NodeIdAt(n, p);
      NodeIdAt(n, q);
      if ids[p] == ids[q] {
        var (l, k) := Locate(bs, p);
        var (l', k') := Locate(bs, q);
        NeuronIdInjective(l, k, l', k');
        assert false;
      }
    }
  }

  /** The id of a neuron of layer `l >= 0` has a digit after the `L`. */
  lemma NeuronIdDigit(l: nat, k: nat)
    ensures |NeuronId(l, k)| >= 2 && IsDigit(NeuronId(l, k)[1])
  {
    assert NeuronId(l, k) == "L" + (NatStr(l) + "N" + NatStr(k));
  }

  /** The id of a neuron of layer -1 has a '-' after the `L`. */
  lemma NeuronIdDash(k: nat)
    ensures |NeuronId(-1, k)| >= 2 && NeuronId(-1, k)[1] == '-'
  {
    assert NeuronId(-1, k) == "L" + ("-" + NatStr(1) + "N" + NatStr(k));
  }

  /** Every node id has a digit right after the leading `L`. */
  lemma NodeIdShape(n: Net, p: nat)
    requires Exportable(n) && p < |ExportGraph(n).value.nodes|
    ensures |ExportGraph(n).value.nodes[p].id| >= 2 && IsDigit(ExportGraph(n).value.nodes[p].id[1])
  {
    NodeIdAt(n, p);
    var (li, k) := Locate(NodeBlocks(n), p);
    NeuronIdDigit(li, k);
  }

  /** The links of a dense layer with a cached output: the link at
      `i * inputSize + j` runs from `L${li-1}N${j}` to `L${li}N${i}` and carries
      `W[i][j]`. */
  lemma LayerLinkAt(u: Units.Unit, li: nat, i: nat, j: nat)
    requires u.DenseUnit? && u.dense.lastOutput.Some? && |u.dense.W| > 0
    requires i < |u.dense.W| && j < Width(u.dense.W)
    ensures Cell(i, Width(u.dense.W), j) < |LayerLinks(u, li)|
    ensures LayerLinks(u, li)[Cell(i, Width(u.dense.W), j)]
      == Link(NeuronId(li - 1, j), NeuronId(li, i), u.dense.W[i][j])
  {
    FlattenGridAt(LinkGrid(u.dense.W, li), Width(u.dense.W), i, j);
  }

  /** The first layer's links start at `L-1N${j}`, an id no node of the export
      has: the ids of the nodes all have a digit where this one has '-'. */
  lemma FirstLayerSourcesDangle(n: Net, k: nat, p: nat)
    requires Exportable(n) && |n.layers| > 0
    requires k < |LayerLinks(n.layers[0], 0)|
    requires p < |ExportGraph(n).value.nodes|
    ensures k < |ExportGraph(n).value.links|
    ensures ExportGraph(n).value.links[k].source != ExportGraph(n).value.nodes[p].id
  {
    var j := FirstLayerLinkSource(n, k);
    NeuronIdDash(j);
    NodeIdShape(n, p);
  }

  /** The links of the first layer come first, each from some `L-1N${j}`. */
  lemma FirstLayerLinkSource(n: Net, k: nat) returns (j: nat)
    requires Exportable(n) && |n.layers| > 0
    requires k < |LayerLinks(n.layers[0], 0)|
    ensures k < |ExportGraph(n).value.links|
    ensures ExportGraph(n).value.links[k].source == NeuronId(-1, j)
  {
    FirstBlockLink(n, k);
    j := LayerLinkSource(n.layers[0], 0, k);
    assert ExportGraph(n).value.links == Flatten(LinkBlocks(n));
  }

  /** The first layer's links open the flattened list. */
  lemma FirstBlockLink(n: Net, k: nat)
    requires Exportable(n) && |n.layers| > 0
    requires k < |LayerLinks(n.layers[0], 0)|
    ensures k < |Flatten(LinkBlocks(n))| && Flatten(LinkBlocks(n))[k] == LayerLinks(n.layers[0], 0)[k]
  {
    var lbs := LinkBlocks(n);
    assert lbs[0] == LayerLinks(n.layers[0], 0);
    LinkBlockAt(n, 0, k);
    assert Offset(lbs, 0) == 0;
  }

  /** Every dense layer that cached an output cached one entry per row of `W`,
      as a forward pass leaves it (NaN entries after a too-short input). */
  predicate OutputsCoverRows(n: Net) {
    forall li :: 0 <= li < |n.layers| && n.layers[li].DenseUnit? && n.layers[li].dense.lastOutput.Some? ==>
      |n.layers[li].dense.lastOutput.value| == |n.layers[li].dense.W|
  }

  /** Link `k` of layer `li` sits at the layer's offset plus `k`. */
  lemma LinkBlockAt(n: Net, li: nat, k: nat)
    requires Exportable(n)
    requires li < |n.layers| && k < |LinkBlocks(n)[li]|
    ensures Offset(LinkBlocks(n), li) + k < |Flatten(LinkBlocks(n))|
    ensures Flatten(LinkBlocks(n))[Offset(LinkBlocks(n), li) + k] == LinkBlocks(n)[li][k]
  {
    FlattenIndex(LinkBlocks(n), li, k);
  }

  /** Every link of layer `li` starts at a neuron of layer `li - 1`. */
  lemma LayerLinkSource(u: Units.Unit, li: nat, k: nat) returns (j: nat)
    requires !LinksThrow(u) && k < |LayerLinks(u, li)|
    ensures LayerLinks(u, li)[k].source == NeuronId(li - 1, j)
  {
    var rows := LinkGrid(u.dense.W, li);
    assert LayerLinks(u, li) == Flatten(rows);
    var i;
    i, j := Locate(rows, k).0, Locate(rows, k).1;
  }

  /** A layer emits links only when it is dense, and each ends at one of its
      own rows. */
  lemma LayerLinkTarget(u: Units.Unit, li: nat, k: nat)
    requires !LinksThrow(u) && k < |LayerLinks(u, li)|
    ensures u.DenseUnit? && u.dense.lastOutput.Some?
    ensures exists i :: 0 <= i < |u.dense.W| && LayerLinks(u, li)[k].target == NeuronId(li, i)
  {
    var rows := LinkGrid(u.dense.W, li);
    assert LayerLinks(u, li) == Flatten(rows);
    var (i, j) := Locate(rows, k);
    assert LayerLinks(u, li)[k].target == NeuronId(li, i);
  }

  /** With outputs as a forward pass leaves them, the target of every link is a
      node of the export: link `k` of layer `li` ends at a neuron of layer `li`,
      which the export lists because that layer cached one output per row. */
  lemma LinkTargetsAreNodes(n: Net, li: nat, k: nat)
    requires Exportable(n) && OutputsCoverRows(n) && li < |n.layers|
    requires k < |LayerLinks(n.layers[li], li)|
    ensures Offset(LinkBlocks(n), li) + k < |ExportGraph(n).value.links|
    ensures exists p :: (0 <= p < |ExportGraph(n).value.nodes| &&
      ExportGraph(n).value.links[Offset(LinkBlocks(n), li) + k].target == ExportGraph(n).value.nodes[p].id)
  {
    var u := n.layers[li];
    var lbs := LinkBlocks(n);
    assert ExportGraph(n).value.links == Flatten(lbs);
    assert lbs[li] == LayerLinks(u, li);
    LinkBlockAt(n, li, k);
    LayerLinkTarget(u, li, k);
    var i :| 0 <= i < |u.dense.W| && LayerLinks(u, li)[k].target == NeuronId(li, i);
    assert |Units.LastOutput(u).value| == |u.dense.W|;
    ExportNodeAt(n, li, i);
    var p := Offset(NodeBlocks(n), li) + i;
    assert ExportGraph(n).value.nodes[p].id == NeuronId(li, i);
  }
}

=== FILE: graphs.dfy ===
/** The plain node/link records the exporters return for the d3 views. */
module Graphs {
  import opened LinAlg

  /** `{ source, target, weight }`: an edge between two node ids. */
  datatype Link = Link(source: string, target: string, weight: real)

  /** `{ id, type, layer, label, color }` (`type` as `kind`, `label` as `caption`): a neuron of one dense layer as its
      `toGraph` describes it. */
  datatype UnitNode = UnitNode(id: string, kind: string, layer: string, caption: string, color: string)

  /** `{ id, layer, neuron, activation }`: a neuron of a whole network; a layer
      whose cached output is NaN exports NaN activations. */
  datatype NeuronNode = NeuronNode(id: string, layer: int, neuron: nat, activation: Num)

  /** `{ nodes, links }`. */
  datatype Graph<N> = Graph(nodes: seq<N>, links: seq<Link>)

  /** No string occurs twice in `ids`. */
  predicate Distinct(ids: seq<string>) {
    forall p, q :: 0 <= p < |ids| && 0 <= q < |ids| && p != q ==> ids[p] != ids[q]
  }

  function UnitIds(nodes: seq<UnitNode>): (ids: seq<string>)
    ensures |ids| == |nodes| && forall p :: 0 <= p < |nodes| ==> ids[p] == nodes[p].id
  {
    seq(|nodes|, p requires 0 <= p < |nodes| => nodes[p].id)
  }

  function NeuronIds(nodes: seq<NeuronNode>): (ids: seq<string>)
    ensures |ids| == |nodes| && forall p :: 0 <= p < |nodes| ==> ids[p] == nodes[p].id
  {
    seq(|nodes|, p requires 0 <= p < |nodes| => nodes[p].id)
  }
}

=== FILE: linalg.dfy ===
/** Exact vector and matrix arithmetic used by the dense layers. JavaScript
    doubles are modelled as `real`; every sum is accumulated in the order the
    source accumulates it (`reduce` from index 0, `+=` loops from row 0). */
module LinAlg {

  type Vector = seq<real>
  type Matrix = seq<seq<real>>

  /** A number as the layers leave it in their fields: a real, or the NaN that
      JavaScript arithmetic makes of a missing (`undefined`) entry. An `undefined`
      stored where a number belongs is folded into NaN as well. */
  datatype Num = Real(r: real) | NaN

  /** An array as the optimizer sees it: nested (a matrix) or flat (a vector). */
  datatype ArrayOf<T> = Mat(rows: seq<seq<T>>) | Vec(entries: seq<T>)

  /** Parameters hold reals; a gradient may hold NaN entries. */
  type Param = ArrayOf<real>
  type Grad = ArrayOf<Num>

  /** The entries of `v` as numbers. */
  function Lift(v: Vector): (w: seq<Num>)
    ensures |w| == |v| && forall i :: 0 <= i < |v| ==> w[i] == Real(v[i])
  {
    seq(|v|, i requires 0 <= i < |v| => Real(v[i]))
  }

  /** The rows of `m` as rows of numbers. */
  function LiftRows(m: Matrix): (w: seq<seq<Num>>)
    ensures |w| == |m| && forall i :: 0 <= i < |m| ==> w[i] == Lift(m[i])
  {
    seq(|m|, i requires 0 <= i < |m| => Lift(m[i]))
  }

  /** No entry of `m` is NaN. */
  predicate AllReal(m: seq<seq<Num>>) {
    forall i, j :: 0 <= i < |m| && 0 <= j < |m[i]| ==> m[i][j].Real?
  }

  /** The reals a grid without NaN entries holds. */
  function Unlift(m: seq<seq<Num>>): (r: Matrix)
    requires AllReal(m)
    ensures |r| == |m| && forall i :: 0 <= i < |m| ==> |r[i]| == |m[i]|
    ensures forall i, j :: 0 <= i < |m| && 0 <= j < |m[i]| ==> Real(r[i][j]) == m[i][j]
  {
    seq(|m|, i requires 0 <= i < |m| => seq(|m[i]|, j requires 0 <= j < |m[i]| => m[i][j].r))
  }

  /** Lifting a matrix and reading its reals back gives the matrix. */
  lemma UnliftRows(m: Matrix)
    ensures AllReal(LiftRows(m)) && Unlift(LiftRows(m)) == m
  {
    var u := Unlift(LiftRows(m));
    forall i | 0 <= i < |m|
      ensures u[i] == m[i]
    {
      assert |u[i]| == |m[i]|;
      forall j | 0 <= j < |m[i]|
        ensures u[i][j] == m[i][j]
      {
        assert Real(u[i][j]) == LiftRows(m)[i][j] == Real(m[i][j]);
      }
    }
  }

  /** The first `n` entries of `v` exist and none is NaN. */
  predicate RealUpTo(v: seq<Num>, n: nat) {
    n <= |v| && forall j :: 0 <= j < n ==> v[j].Real?
  }

  /** Every row of `m` has `cols` entries. */
  predicate Rect(m: Matrix, cols: nat) {
    forall i :: 0 <= i < |m| ==> |m[i]| == cols
  }

  /** The number of columns, read from the first row as `m[0].length` does (0 without rows). */
  function Width(m: Matrix): nat {
    if |m| == 0 then 0 else |m[0]|
  }

  function Zero(n: nat): (r: Vector)
    ensures |r| == n && forall i :: 0 <= i < n ==> r[i] == 0.0
  {
    seq(n, i => 0.0)
  }

  /** Σ_{j<k} u[j]*v[j], accumulated from index 0 upwards. */
  function DotTo(u: Vector, v: Vector, k: nat): real
    requires k <= |u| && k <= |v|
  {
    if k == 0 then 0.0 else DotTo(u, v, k - 1) + u[k - 1] * v[k - 1]
  }

  /** Σ_j u[j]*v[j] over the indices of `u`, as `u.reduce((s, w, j) => s + w * v[j], 0)`
      computes it; entries of `v` beyond `|u|` are never read. */
  function Dot(u: Vector, v: Vector): real
    requires |u| <= |v|
  {
    DotTo(u, v, |u|)
  }

  /** Row `i` of the result is row `i` of `m` dotted with `v`. */
  function MatVec(m: Matrix, v: Vector): (r: Vector)
    requires forall i :: 0 <= i < |m| ==> |m[i]| <= |v|
    ensures |r| == |m|
  {
    seq(|m|, i requires 0 <= i < |m| => Dot(m[i], v))
  }

  /** `a + c*b`, entrywise. */
  function AddScaled(a: Vector, c: real, b: Vector): (r: Vector)
    requires |a| == |b|
    ensures |r| == |a| && forall i :: 0 <= i < |a| ==> r[i] == a[i] + c * b[i]
  {
    seq(|a|, i requires 0 <= i < |a| => a[i] + c * b[i])
  }

  /** `a + e`, entrywise, for two matrices of one shape. */
  function MatAdd(a: Matrix, e: Matrix): (r: Matrix)
    requires |a| == |e| && forall i :: 0 <= i < |a| ==> |a[i]| == |e[i]|
    ensures |r| == |a| && forall i :: 0 <= i < |a| ==> r[i] == AddScaled(a[i], 1.0, e[i])
  {
    seq(|a|, i requires 0 <= i < |a| => AddScaled(a[i], 1.0, e[i]))
  }

  /** Every row of `m` that has an entry is matched by an entry of `g`. */
  predicate Covers(m: Matrix, g: Vector) {
    forall i :: 0 <= i < |m| && |m[i]| > 0 ==> i < |g|
  }

  /** Σ_i m[i][j]*g[i] over the rows that have a column `j`, accumulated from row 0. */
  function ColDot(m: Matrix, j: nat, g: Vector): real
    requires Covers(m, g)
    decreases |m|
  {
    if |m| == 0 then 0.0
    else
      var k := |m| - 1;
      ColDot(m[..k], j, g) + (if j < |m[k]| then m[k][j] * g[k] else 0.0)
  }

  /** `mᵀ·g`, padded or cut to `len` entries. */
  function TApply(m: Matrix, g: Vector, len: nat): (r: Vector)
    requires Covers(m, g)
    ensures |r| == len && forall j :: 0 <= j < len ==> r[j] == ColDot(m, j, g)
  {
    seq(len, j requires 0 <= j < len => ColDot(m, j, g))
  }

  /** The outer product `g·xᵀ`, restricted to the shape of `m`. */
  function Outer(m: Matrix, g: Vector, x: Vector): (r: Matrix)
    requires Covers(m, g)
    requires forall i :: 0 <= i < |m| ==> |m[i]| <= |x|
    ensures |r| == |m| && forall i :: 0 <= i < |m| ==> |r[i]| == |m[i]|
    ensures forall i, j :: 0 <= i < |m| && 0 <= j < |m[i]| ==> r[i][j] == g[i] * x[j]
  {
    seq(|m|, i requires 0 <= i < |m| =>
      seq(|m[i]|, j requires 0 <= j < |m[i]| => g[i] * x[j]))
  }

  /** Σ_i Σ_j a[i][j]*b[i][j] for two matrices of one shape. */
  function FrobDot(a: Matrix, b: Matrix): real
    requires |a| == |b| && forall i :: 0 <= i < |a| ==> |a[i]| == |b[i]|
    decreases |a|
  {
    if |a| == 0 then 0.0
    else
      var k := |a| - 1;
      FrobDot(a[..k], b[..k]) + Dot(a[k], b[k])
  }

  /** A partial dot product only reads the first `k` entries of each side. */
  lemma {:induction false} DotToAgree(u: Vector, v: Vector, u': Vector, v': Vector, k: nat)
    requires k <= |u| && k <= |v| && k <= |u'| && k <= |v'|
    requires forall j :: 0 <= j < k ==> u[j] == u'[j] && v[j] == v'[j]
    ensures DotTo(u, v, k) == DotTo(u', v', k)
    decreases k
  {
    if k > 0 {
      DotToAgree(u, v, u', v', k - 1);
    }
  }

  lemma {:induction false} DotComm(u: Vector, v: Vector, k: nat)
    requires k <= |u| && k <= |v|
    ensures DotTo(u, v, k) == DotTo(v, u, k)
    decreases k
  {
    if k > 0 {
      DotComm(u, v, k - 1);
    }
  }

  /** The dot product is linear in its second argument. */
  lemma {:induction false} DotAddScaled(x: Vector, a: Vector, c: real, b: Vector, k: nat)
    requires k <= |x| && k <= |a| && |a| == |b|
    ensures DotTo(x, AddScaled(a, c, b), k) == DotTo(x, a, k) + c * DotTo(x, b, k)
    decreases k
  {
    if k > 0 {
      DotAddScaled(x, a, c, b, k - 1);
      var i := k - 1;
      assert x[i] * (a[i] + c * b[i]) == x[i] * a[i] + c * (x[i] * b[i]);
    }
  }

  /** Scaling the first argument scales the dot product. */
  lemma {:induction false} DotScaleLeft(c: real, u: Vector, v: Vector, k: nat)
    requires k <= |u| && k <= |v|
    ensures DotTo(seq(|u|, j requires 0 <= j < |u| => c * u[j]), v, k) == c * DotTo(u, v, k)
    decreases k
  {
    if k > 0 {
      DotScaleLeft(c, u, v, k - 1);
      var i := k - 1;
      assert (c * u[i]) * v[i] == c * (u[i] * v[i]);
    }
  }

  lemma {:induction false} ZeroDot(x: Vector, n: nat, k: nat)
    requires k <= |x| && k <= n
    ensures DotTo(x, Zero(n), k) == 0.0
    decreases k
  {
    if k > 0 {
      ZeroDot(x, n, k - 1);
    }
  }

  /** Matrix-vector product is linear: `m·(u + c·v) == m·u + c·(m·v)`. */
  lemma MatVecLinear(m: Matrix, n: nat, u: Vector, c: real, v: Vector)
    requires Rect(m, n) && |u| == n && |v| == n
    ensures MatVec(m, AddScaled(u, c, v)) == AddScaled(MatVec(m, u), c, MatVec(m, v))
  {
    forall i | 0 <= i < |m|
      ensures MatVec(m, AddScaled(u, c, v))[i] == AddScaled(MatVec(m, u), c, MatVec(m, v))[i]
    {
      DotAddScaled(m[i], u, c, v, n);
    }
  }

  /** Dropping the last row of `m` removes the last term of `⟨m·x, g⟩`. */
  lemma MatVecDotLast(m: Matrix, x: Vector, g: Vector)
    requires |m| > 0 && (forall i :: 0 <= i < |m| ==> |m[i]| <= |x|) && |m| <= |g|
    ensures Dot(MatVec(m, x), g)
         == Dot(MatVec(m[..|m| - 1], x), g) + Dot(m[|m| - 1], x) * g[|m| - 1]
  {
    var k := |m| - 1;
    var mv := MatVec(m, x);
    var mv' := MatVec(m[..k], x);
    forall j | 0 <= j < k
      ensures mv[j] == mv'[j]
    {
      assert m[..k][j] == m[j];
    }
    DotToAgree(mv, g, mv', g, k);
    assert Dot(mv, g) == DotTo(mv, g, k) + mv[k] * g[k];
    assert Dot(mv', g) == DotTo(mv', g, k);
  }

  /** Dropping the last row of `m` removes that row's contribution from `mᵀ·g`. */
  lemma TApplyLastRow(m: Matrix, n: nat, g: Vector)
    requires |m| > 0 && Rect(m, n) && |m| <= |g|
    ensures Covers(m, g) && Covers(m[..|m| - 1], g)
    ensures TApply(m, g, n) == AddScaled(TApply(m[..|m| - 1], g, n), g[|m| - 1], m[|m| - 1])
  {
  }

  /** Dropping the last row of `m` removes that row's term from `⟨x, mᵀ·g⟩`. */
  lemma TApplyDotLast(m: Matrix, n: nat, x: Vector, g: Vector)
    requires |m| > 0 && Rect(m, n) && |x| == n && |m| <= |g|
    ensures Covers(m, g) && Covers(m[..|m| - 1], g)
    ensures Dot(x, TApply(m, g, n))
         == Dot(x, TApply(m[..|m| - 1], g, n)) + g[|m| - 1] * Dot(m[|m| - 1], x)
  {
    var k := |m| - 1;
    TApplyLastRow(m, n, g);
    DotAddScaled(x, TApply(m[..k], g, n), g[k], m[k], n);
    DotComm(x, m[k], n);
  }

  /** Adjoint identity `⟨m·x, g⟩ == ⟨x, mᵀ·g⟩`: moving the input by `x` changes
      `⟨g, output⟩` by exactly `⟨x, mᵀ·g⟩`, so `mᵀ·g` is the gradient with
      respect to the input. Entries of `g` beyond the rows of `m` play no part. */
  lemma {:induction false} Adjoint(m: Matrix, n: nat, x: Vector, g: Vector)
    requires Rect(m, n) && |x| == n && |m| <= |g|
    ensures Covers(m, g)
    ensures Dot(MatVec(m, x), g) == Dot(x, TApply(m, g, n))
    decreases |m|
  {
    if |m| == 0 {
      assert TApply(m, g, n) == Zero(n);
      ZeroDot(x, n, n);
    } else {
      var k := |m| - 1;
      Adjoint(m[..k], n, x, g);
      MatVecDotLast(m, x, g);
      TApplyDotLast(m, n, x, g);
    }
  }

  /** Row `k` of `g·xᵀ` dotted with row `k` of `v` is `⟨v[k], x⟩·g[k]`. */
  lemma OuterRowDot(m: Matrix, n: nat, g: Vector, x: Vector, v: Matrix, k: nat)
    requires Rect(m, n) && |x| == n && |m| <= |g|
    requires |v| == |m| && Rect(v, n) && k < |m|
    ensures Covers(m, g)
    ensures Dot(Outer(m, g, x)[k], v[k]) == Dot(v[k], x) * g[k]
  {
    var row := seq(|x|, j requires 0 <= j < |x| => g[k] * x[j]);
    assert Outer(m, g, x)[k] == row;
    DotScaleLeft(g[k], x, v[k], n);
    DotComm(x, v[k], n);
  }

  /** The outer product `g·xᵀ` is the gradient of `V ↦ ⟨g, V·x⟩`: for every
      matrix `v` of the shape of `m`, `⟨g·xᵀ, v⟩_F == ⟨v·x, g⟩`. */
  lemma {:induction false} OuterIsGradient(m: Matrix, n: nat, g: Vector, x: Vector, v: Matrix)
    requires Rect(m, n) && |x| == n && |m| <= |g|
    requires |v| == |m| && Rect(v, n)
    ensures Covers(m, g)
    ensures FrobDot(Outer(m, g, x), v) == Dot(MatVec(v, x), g)
    decreases |m|
  {
    if |m| > 0 {
      var k := |m| - 1;
      var o := Outer(m, g, x);
      OuterIsGradient(m[..k], n, g, x, v[..k]);
      assert o[..k] == Outer(m[..k], g, x);
      assert FrobDot(o, v) == FrobDot(o[..k], v[..k]) + Dot(o[k], v[k]);
      MatVecDotLast(v, x, g);
      OuterRowDot(m, n, g, x, v, k);
    }
  }

  /** Adding `e` to `m` perturbs `m·x` by `e·x`. */
  lemma MatVecMatAdd(m: Matrix, e: Matrix, n: nat, x: Vector)
    requires Rect(m, n) && Rect(e, n) && |m| == |e| && |x| == n
    ensures MatVec(MatAdd(m, e), x) == AddScaled(MatVec(m, x), 1.0, MatVec(e, x))
  {
    forall i | 0 <= i < |m|
      ensures MatVec(MatAdd(m, e), x)[i] == AddScaled(MatVec(m, x), 1.0, MatVec(e, x))[i]
    {
      DotComm(AddScaled(m[i], 1.0, e[i]), x, n);
      DotAddScaled(x, m[i], 1.0, e[i], n);
      DotComm(x, m[i], n);
      DotComm(x, e[i], n);
    }
  }

  /** The dot product is linear in its first argument too. */
  lemma DotAddScaledLeft(a: Vector, c: real, b: Vector, g: Vector)
    requires |a| == |b| <= |g|
    ensures Dot(AddScaled(a, c, b), g) == Dot(a, g) + c * Dot(b, g)
  {
    var k := |a|;
    DotComm(AddScaled(a, c, b), g, k);
    DotAddScaled(g, a, c, b, k);
    DotComm(g, a, k);
    DotComm(g, b, k);
  }

  /** Two shifts of a vector commute: `(a + e) + b == (a + b) + e`. */
  lemma AddScaledShift(a: Vector, e: Vector, b: Vector)
    requires |a| == |e| == |b|
    ensures AddScaled(AddScaled(a, 1.0, e), 1.0, b) == AddScaled(AddScaled(a, 1.0, b), 1.0, e)
  {
    var l := AddScaled(AddScaled(a, 1.0, e), 1.0, b);
    var r := AddScaled(AddScaled(a, 1.0, b), 1.0, e);
    forall i | 0 <= i < |a|
      ensures l[i] == r[i]
    {
    }
  }

  /** For the affine map `x ↦ W·x + b`, moving `W` by `e` changes `⟨W·x + b, g⟩`
      by exactly `⟨g·xᵀ, e⟩`. */
  lemma {:induction false} AffineWeightShift(m: Matrix, e: Matrix, n: nat, x: Vector, b: Vector, g: Vector)
    requires Rect(m, n) && Rect(e, n) && |m| == |e| && |x| == n && |b| == |m| && |m| <= |g|
    ensures Covers(m, g)
    ensures Dot(AddScaled(MatVec(MatAdd(m, e), x), 1.0, b), g)
         == Dot(AddScaled(MatVec(m, x), 1.0, b), g) + FrobDot(Outer(m, g, x), e)
  {
    var mx := MatVec(m, x);
    var ex := MatVec(e, x);
    var out := AddScaled(mx, 1.0, b);
    MatVecMatAdd(m, e, n, x);
    AddScaledShift(mx, ex, b);
    DotAddScaledLeft(out, 1.0, ex, g);
    OuterIsGradient(m, n, g, x, e);
  }
}

=== FILE: network.dfy ===
/** The layer container of the column-vector lineage: an ordered list of
    layers, a cursor `curr_pos` for stepping through them one call at a time, and
    the value `lastOutput` that the next step feeds in. The container is generic
    in the layer type `U` and the value type `V`; a layer's `forward` is the
    parameter `fwd`, which returns the updated layer with the output or the
    failure. `None` stands for `undefined`. */
module Network {
  import opened Common

  datatype Net<U, V> = Net(layers: seq<U>, cursor: int, lastOutput: Option<V>)

  /** `new Network(layers)`: the cursor at 0 and no output yet. */
  function Create<U, V>(layers: seq<U>): (n: Net<U, V>)
    ensures n.layers == layers && n.cursor == 0 && n.lastOutput.None?
  {
    Net(layers, 0, None)
  }

  /** `new Network()`: the default `layers = []` gives a network with no layers. */
  function CreateDefault<U, V>(): (n: Net<U, V>)
    ensures n == Create([])
    ensures |n.layers| == 0 && n.cursor == 0 && n.lastOutput.None?
  {
    Create([])
  }

  /** `add(layer)`: appends the layer; earlier layers, the cursor and the cached
      output stay as they were. */
  function Add<U, V>(n: Net<U, V>, u: U): (r: Net<U, V>)
    ensures |r.layers| == |n.layers| + 1 && r.layers[..|n.layers|] == n.layers && r.layers[|n.layers|] == u
    ensures r.cursor == n.cursor && r.lastOutput == n.lastOutput
  {
    n.(layers := n.layers + [u])
  }

  /** Feeds `x` through `layers` in list order, each output becoming the next
      layer's input, and stops at the first failure. Returns the layers as the
      calls left them and the last output (`x` itself when there is no layer). */
  function Thread<U, V>(layers: seq<U>, fwd: (U, Option<V>) -> (U, Result<V>), x: Option<V>)
    : (r: (seq<U>, Result<Option<V>>))
    ensures |r.0| == |layers|
    ensures |layers| > 0 && r.1.Ok? ==> r.1.value.Some?
    decreases |layers|
  {
    if |layers| == 0 then (layers, Ok(x))
    else
      var (u, y) := fwd(layers[0], x);
      if y.Err? then ([u] + layers[1..], Err(y.error))
      else
        var (rest, z) := Thread(layers[1..], fwd, Some(y.value));
        ([u] + rest, z)
  }

  /** `forward(input)`: threads the input through every layer and returns the
      last output; the cursor and `lastOutput` are not touched. */
  function Forward<U, V>(n: Net<U, V>, fwd: (U, Option<V>) -> (U, Result<V>), input: Option<V>)
    : (r: (Net<U, V>, Result<Option<V>>))
    ensures r.0.cursor == n.cursor && r.0.lastOutput == n.lastOutput
    ensures (r.0.layers, r.1) == Thread(n.layers, fwd, input)
  {
    var (ls, out) := Thread(n.layers, fwd, input);
    (n.(layers := ls), out)
  }

  /** `step_forward(input)`: a defined input first replaces `lastOutput`, even
      when the cursor is past the end. Past the end the call returns `null`
      (`Ok(None)`) and changes nothing else. Otherwise the layer under the
      cursor is applied to `lastOutput`; on success its output becomes
      `lastOutput` and the cursor moves on by one. A negative cursor names no
      layer, so reading its `forward` throws a TypeError. */
  function StepForward<U, V>(n: Net<U, V>, fwd: (U, Option<V>) -> (U, Result<V>), input: Option<V>)
    : (r: (Net<U, V>, Result<Option<V>>))
    ensures |r.0.layers| == |n.layers|
    ensures n.cursor >= |n.layers| ==>
      r == (n.(lastOutput := if input.Some? then input else n.lastOutput), Ok(None))
    ensures n.cursor < 0 ==>
      r == (n.(lastOutput := if input.Some? then input else n.lastOutput), Err(TypeError))
    ensures 0 <= n.cursor < |n.layers| ==>
      var v := if input.Some? then input else n.lastOutput;
      var (u, y) := fwd(n.layers[n.cursor], v);
      r.0.layers == n.layers[n.cursor := u] &&
      (y.Ok? ==> r == (Net(n.layers[n.cursor := u], n.cursor + 1, Some(y.value)), Ok(Some(y.value)))) &&
      (y.Err? ==> r.1 == Err(y.error) && r.0.cursor == n.cursor && r.0.lastOutput == v)
  {
    var v := if input.Some? then input else n.lastOutput;
    var n1 := n.(lastOutput := v);
    if n.cursor >= |n.layers| then (n1, Ok(None))
    else if n.cursor < 0 then (n1, Err(TypeError))
    else
      var (u, y) := fwd(n.layers[n.cursor], v);
      var ls := n.layers[n.cursor := u];
      if y.Err? then (n1.(layers := ls), Err(y.error))
      else (Net(ls, n.cursor + 1, Some(y.value)), Ok(Some(y.value)))
  }

  /** `reset(pos, clearOutput)`: moves the cursor to `pos` and forgets the
      cached output exactly when `clearOutput` holds. */
  function Reset<U, V>(n: Net<U, V>, pos: int, clearOutput: bool): (r: Net<U, V>)
    ensures r.layers == n.layers && r.cursor == pos
    ensures r.lastOutput == (if clearOutput then None else n.lastOutput)
  {
    n.(cursor := pos, lastOutput := if clearOutput then None else n.lastOutput)
  }

  /** `reset()` with its defaults `pos = 0`, `clearOutput = true`. */
  function ResetDefault<U, V>(n: Net<U, V>): (r: Net<U, V>)
    ensures r == Reset(n, 0, true)
  {
    Reset(n, 0, true)
  }

  /** `currentLayer()`: the cursor and the layer under it, `null` when the
      cursor names no layer. */
  function CurrentLayer<U, V>(n: Net<U, V>): (r: (int, Option<U>))
    ensures r.0 == n.cursor
    ensures r.1.Some? <==> 0 <= n.cursor < |n.layers|
    ensures r.1.Some? ==> r.1.value == n.layers[n.cursor]
  {
    (n.cursor, if 0 <= n.cursor < |n.layers| then Some(n.layers[n.cursor]) else None)
  }

  /** `step_forward(input)` followed by `k - 1` calls of `step_forward()`, as a
      caller drives them: the run ends at the first call that throws. The result
      is the state after the last call made and that call's return value. */
  function Run<U, V>(n: Net<U, V>, fwd: (U, Option<V>) -> (U, Result<V>), input: Option<V>, k: nat)
    : (r: (Net<U, V>, Result<Option<V>>))
    requires k >= 1
    decreases k
  {
    var (n1, r1) := StepForward(n, fwd, input);
    if k == 1 || r1.Err? then (n1, r1) else Run(n1, fwd, None, k - 1)
  }

  /** Running the remaining layers from cursor `c` one step at a time is
      threading the cached (or given) value through the suffix of the layer
      list from `c`: same result, same layers, and on success the cursor at the
      end and the result cached. */
  lemma {:induction false} RunIsThreadOfSuffix<U, V>(
    n: Net<U, V>, fwd: (U, Option<V>) -> (U, Result<V>), input: Option<V>)
    requires 0 <= n.cursor < |n.layers|
    ensures var v := if input.Some? then input else n.lastOutput;
      var t := Thread(n.layers[n.cursor..], fwd, v);
      var r := Run(n, fwd, input, |n.layers| - n.cursor);
      r.1 == t.1 && r.0.layers == n.layers[..n.cursor] + t.0 &&
      (r.1.Ok? ==> r.0.cursor == |n.layers| && r.0.lastOutput == r.1.value)
    decreases |n.layers| - n.cursor, 1
  {
    var v := if input.Some? then input else n.lastOutput;
    if fwd(n.layers[n.cursor], v).1.Err? || n.cursor == |n.layers| - 1 {
      RunSuffixLastStep(n, fwd, input);
    } else {
      RunSuffixNextStep(n, fwd, input);
    }
  }

  /** The inductive case of the previous lemma: the step under the cursor
      succeeds and more layers follow. */
  lemma {:induction false} RunSuffixNextStep<U, V>(
    n: Net<U, V>, fwd: (U, Option<V>) -> (U, Result<V>), input: Option<V>)
    requires 0 <= n.cursor < |n.layers| - 1
    requires var v := if input.Some? then input else n.lastOutput;
      fwd(n.layers[n.cursor], v).1.Ok?
    ensures var v := if input.Some? then input else n.lastOutput;
      var t := Thread(n.layers[n.cursor..], fwd, v);
      var r := Run(n, fwd, input, |n.layers| - n.cursor);
      r.1 == t.1 && r.0.layers == n.layers[..n.cursor] + t.0 &&
      (r.1.Ok? ==> r.0.cursor == |n.layers| && r.0.lastOutput == r.1.value)
    decreases |n.layers| - n.cursor, 0
  {
    var c := n.cursor;
    var ls := n.layers;
    var v := if input.Some? then input else n.lastOutput;
    var u := fwd(ls[c], v).0;
    var y := fwd(ls[c], v).1;
    var n1 := Net(ls[c := u], c + 1, Some(y.value));
    var r1 := Run(n1, fwd, None, |ls| - (c + 1));
    var t' := Thread(ls[c + 1..], fwd, Some(y.value));
    assert Run(n, fwd, input, |ls| - c) == r1 by {
      RunStep(n, fwd, input, |ls| - c);
    }
    assert Thread(ls[c..], fwd, v) == ([u] + t'.0, t'.1) by {
      ThreadSuffixStep(ls, c, fwd, v);
    }
    assert r1.1 == t'.1 && r1.0.layers == (ls[..c] + [u]) + t'.0 &&
      (r1.1.Ok? ==> r1.0.cursor == |ls| && r1.0.lastOutput == r1.1.value) by {
      RunIsThreadOfSuffix(n1, fwd, None);
      assert n1.layers[c + 1..] == ls[c + 1..];
      assert n1.layers[..c + 1] == ls[..c] + [u];
    }
    assert (ls[..c] + [u]) + t'.0 == ls[..c] + ([u] + t'.0);
  }

  /** The base cases of the previous lemma: the step under the cursor fails, or
      it is the last layer. */
  lemma RunSuffixLastStep<U, V>(n: Net<U, V>, fwd: (U, Option<V>) -> (U, Result<V>), input: Option<V>)
    requires 0 <= n.cursor < |n.layers|
    requires var v := if input.Some? then input else n.lastOutput;
      fwd(n.layers[n.cursor], v).1.Err? || n.cursor == |n.layers| - 1
    ensures var v := if input.Some? then input else n.lastOutput;
      var t := Thread(n.layers[n.cursor..], fwd, v);
      var r := Run(n, fwd, input, |n.layers| - n.cursor);
      r.1 == t.1 && r.0.layers == n.layers[..n.cursor] + t.0 &&
      (r.1.Ok? ==> r.0.cursor == |n.layers| && r.0.lastOutput == r.1.value)
  {
    var c := n.cursor;
    var ls := n.layers;
    var v := if input.Some? then input else n.lastOutput;
    var u := fwd(ls[c], v).0;
    var y := fwd(ls[c], v).1;
    ThreadSuffixStep(ls, c, fwd, v);
    RunStep(n, fwd, input, |ls| - c);
    if y.Err? {
      assert ls[..c] + ([u] + ls[c + 1..]) == ls[c := u];
    } else {
      assert ls[c + 1..] == [];
      assert Thread(ls[c + 1..], fwd, Some(y.value)) == ([], Ok(Some(y.value)));
      assert [u] + [] == [u];
      assert ls[..c] + [u] == ls[c := u];
    }
  }

  /** One unfolding of `Thread` over the suffix from `c`. */
  lemma ThreadSuffixStep<U, V>(ls: seq<U>, c: nat, fwd: (U, Option<V>) -> (U, Result<V>), v: Option<V>)
    requires c < |ls|
    ensures var (u, y) := fwd(ls[c], v);
      Thread(ls[c..], fwd, v) ==
        if y.Err? then ([u] + ls[c + 1..], Err(y.error))
        else ([u] + Thread(ls[c + 1..], fwd, Some(y.value)).0, Thread(ls[c + 1..], fwd, Some(y.value)).1)
  {
    assert ls[c..][0] == ls[c];
    assert ls[c..][1..] == ls[c + 1..];
  }

  /** One unfolding of `Run`. */
  lemma RunStep<U, V>(n: Net<U, V>, fwd: (U, Option<V>) -> (U, Result<V>), input: Option<V>, k: nat)
    requires k >= 1
    ensures var s := StepForward(n, fwd, input);
      Run(n, fwd, input, k) == if k == 1 || s.1.Err? then s else Run(s.0, fwd, None, k - 1)
  {
  }

  /** Stepping through every layer after `reset()` computes what `forward` does:
      `reset()`, then `step_forward(x)`, then `step_forward()` until each layer
      has run once, returns the value `forward(x)` returns (or fails where it
      fails) and leaves the layers as `forward(x)` leaves them. */
  lemma StepsEqualForward<U, V>(n: Net<U, V>, fwd: (U, Option<V>) -> (U, Result<V>), x: Option<V>)
    requires |n.layers| >= 1
    ensures Run(ResetDefault(n), fwd, x, |n.layers|).1 == Forward(n, fwd, x).1
    ensures Run(ResetDefault(n), fwd, x, |n.layers|).0.layers == Forward(n, fwd, x).0.layers
    ensures Run(ResetDefault(n), fwd, x, |n.layers|).1.Ok? ==>
      Run(ResetDefault(n), fwd, x, |n.layers|).0.cursor == |n.layers|
  {
    var n0 := ResetDefault(n);
    RunIsThreadOfSuffix(n0, fwd, x);
    assert n0.layers[0..] == n.layers;
    assert n0.layers[..0] + Thread(n.layers, fwd, x).0 == Thread(n.layers, fwd, x).0;
  }

  /** Without layers the two disagree: `step_forward(x)` returns `null` while
      `forward(x)` returns `x`. */
  lemma EmptyStepDiffersFromForward<U, V>(n: Net<U, V>, fwd: (U, Option<V>) -> (U, Result<V>), x: V)
    requires |n.layers| == 0
    ensures StepForward(ResetDefault(n), fwd, Some(x)).1 == Ok(None)
    ensures Forward(n, fwd, Some(x)).1 == Ok(Some(x))
  {
  }

  /** Threading through an appended layer threads through the old layers first
      and then through the new one, so `add` puts a layer last in `forward`. */
  lemma {:induction false} ThreadAppend<U, V>(layers: seq<U>, u: U, fwd: (U, Option<V>) -> (U, Result<V>), x: Option<V>)
    ensures var t := Thread(layers, fwd, x);
      Thread(layers + [u], fwd, x) ==
        if t.1.Err? then (t.0 + [u], t.1)
        else var (u', y) := fwd(u, t.1.value);
          (t.0 + [u'], if y.Err? then Err(y.error) else Ok(Some(y.value)))
    decreases |layers|
  {
    if |layers| > 0 {
      assert (layers + [u])[0] == layers[0];
      assert (layers + [u])[1..] == layers[1..] + [u];
      var (u0, y0) := fwd(layers[0], x);
      if y0.Ok? {
        ThreadAppend(layers[1..], u, fwd, Some(y0.value));
        var t' := Thread(layers[1..], fwd, Some(y0.value));
        if t'.1.Err? {
          assert [u0] + (t'.0 + [u]) == ([u0] + t'.0) + [u];
        } else {
          var (u', y) := fwd(u, t'.1.value);
          assert [u0] + (t'.0 + [u']) == ([u0] + t'.0) + [u'];
        }
      } else {
        assert [u0] + (layers[1..] + [u]) == ([u0] + layers[1..]) + [u];
      }
    } else {
      assert layers + [u] == [u];
      assert [u][1..] == [];
      assert Thread(layers, fwd, x) == (layers, Ok(x));
      var y := fwd(u, x).1;
      if y.Ok? {
        assert Thread([u][1..], fwd, Some(y.value)) == ([], Ok(Some(y.value)));
        assert [fwd(u, x).0] + [] == [] + [fwd(u, x).0];
      }
    }
  }
}

=== FILE: network_graph.dfy ===
/** `Network.toGraph()` of the column-vector lineage: the graphs of the dense
    layers, concatenated in layer order. Every layer is asked for its graph with
    its own id prefix; as written, the prefix handed over is an options object
    `{ idPrefix, inputIds }`, which the dense layer interpolates into its ids as
    the string "[object Object]". */
module NetworkGraph {
  import opened Common
  import opened Seqs
  import opened Text
  import opened Graphs
  import opened LinAlg
  import Tensor
  import DenseLayer
  import Network

  /** A container of dense layers whose values are tensors. */
  type DenseNet = Network.Net<DenseLayer.Layer, Tensor.Tensor>

  /** What `${layerId}` yields when `layerId` is a plain object. */
  const ObjectString: string := "[object Object]"

  /** The prefix the container means layer `i` to use: `layer-${i}`. */
  function LayerPrefix(i: nat): (s: string)
    ensures s == "layer-" + NatStr(i)
    ensures ':' !in s
  {
    NonDigitNotInNatStr(i, ':');
    "layer-" + NatStr(i)
  }

  /** A layer with no rows throws when its `toGraph` reads `W[0].length`. */
  predicate AllHaveRows(layers: seq<DenseLayer.Layer>) {
    forall i :: 0 <= i < |layers| ==> |layers[i].W.data| > 0
  }

  /** The node lists of the layers' graphs, layer `i` exported with `prefix(i)`. */
  function NodeBlocks(layers: seq<DenseLayer.Layer>, prefix: nat -> string): (bs: seq<seq<UnitNode>>)
    requires AllHaveRows(layers)
    ensures |bs| == |layers|
  {
    seq(|layers|, i requires 0 <= i < |layers| => DenseLayer.ToGraph(layers[i], prefix(i)).value.nodes)
  }

  /** The link lists of the layers' graphs, layer `i` exported with `prefix(i)`. */
  function LinkBlocks(layers: seq<DenseLayer.Layer>, prefix: nat -> string): (bs: seq<seq<Link>>)
    requires AllHaveRows(layers)
    ensures |bs| == |layers|
  {
    seq(|layers|, i requires 0 <= i < |layers| => DenseLayer.ToGraph(layers[i], prefix(i)).value.links)
  }

  /** Pushes every layer's nodes and links in layer order; a layer without rows
      makes the whole call throw a TypeError (the layers' `toGraph` change
      nothing, so only the error is observable). */
  function Assemble(layers: seq<DenseLayer.Layer>, prefix: nat -> string): (r: Result<Graph<UnitNode>>)
    ensures r.Ok? <==> AllHaveRows(layers)
    ensures r.Err? ==> r.error == TypeError
    ensures r.Ok? ==> r.value.nodes == Flatten(NodeBlocks(layers, prefix))
    ensures r.Ok? ==> r.value.links == Flatten(LinkBlocks(layers, prefix))
  {
    if !AllHaveRows(layers) then Err(TypeError)
    else Ok(Graph(Flatten(NodeBlocks(layers, prefix)), Flatten(LinkBlocks(layers, prefix))))
  }

  /** The prefix every layer receives as written. */
  function AsWrittenPrefix(i: nat): string {
    ObjectString
  }

  /** `toGraph()` as written: every layer gets the prefix "[object Object]". */
  function ToGraphAsWritten(n: DenseNet): (r: Result<Graph<UnitNode>>)
    ensures r == Assemble(n.layers, AsWrittenPrefix)
  {
    Assemble(n.layers, AsWrittenPrefix)
  }

  /** `toGraph()` as intended: layer `i` gets the prefix `layer-${i}`. */
  function ToGraph(n: DenseNet): (r: Result<Graph<UnitNode>>)
    ensures r == Assemble(n.layers, LayerPrefix)
  {
    Assemble(n.layers, LayerPrefix)
  }

  /** Node `p` of layer `i` sits at `Offset + p` of the network's node list. */
  lemma AssembleNodeAt(layers: seq<DenseLayer.Layer>, prefix: nat -> string, i: nat, p: nat)
    requires AllHaveRows(layers) && i < |layers|
    requires p < |NodeBlocks(layers, prefix)[i]|
    ensures Offset(NodeBlocks(layers, prefix), i) + p < |Flatten(NodeBlocks(layers, prefix))|
    ensures Flatten(NodeBlocks(layers, prefix))[Offset(NodeBlocks(layers, prefix), i) + p]
      == NodeBlocks(layers, prefix)[i][p]
  {
    FlattenIndex(NodeBlocks(layers, prefix), i, p);
  }

  /** As written, two layers with rows always export clashing ids: the first
      output neuron of layer 0 and of layer 1 are both "[object Object]:out:0". */
  lemma {:induction false} AsWrittenIdsCollide(n: DenseNet)
    requires |n.layers| >= 2 && AllHaveRows(n.layers)
    ensures ToGraphAsWritten(n).Ok?
    ensures !Distinct(UnitIds(ToGraphAsWritten(n).value.nodes))
  {
    var blocks: seq<seq<UnitNode>> := NodeBlocks(n.layers, AsWrittenPrefix);
    var id := DenseLayer.OutId(ObjectString, 0);
    var w0 := Width(n.layers[0].W.data);
    var w1 := Width(n.layers[1].W.data);
    BlockFirstOutput(n.layers, AsWrittenPrefix, 0);
    BlockFirstOutput(n.layers, AsWrittenPrefix, 1);
    IdAtOffset(blocks, 0, w0, id);
    IdAtOffset(blocks, 1, w1, id);
    OffsetMonotone(blocks, 0, 1);
    var p := Offset(blocks, 0) + w0;
    var q := Offset(blocks, 1) + w1;
    var nodes := ToGraphAsWritten(n).value.nodes;
    assert nodes == Flatten(blocks);
    assert UnitIds(nodes)[p] == UnitIds(nodes)[q];
  }

  /** The first output neuron of layer `i` is node `Width(W)` of its block. */
  lemma BlockFirstOutput(layers: seq<DenseLayer.Layer>, prefix: nat -> string, i: nat)
    requires AllHaveRows(layers) && i < |layers|
    ensures Width(layers[i].W.data) < |NodeBlocks(layers, prefix)[i]|
    ensures NodeBlocks(layers, prefix)[i][Width(layers[i].W.data)].id == DenseLayer.OutId(prefix(i), 0)
  {
    var l := layers[i];
    assert NodeBlocks(layers, prefix)[i] == DenseLayer.ToGraph(l, prefix(i)).value.nodes;
    BlockId(l, prefix(i), Width(l.W.data));
  }

  /** A node of block `i` keeps its id in the flattened node list. */
  lemma IdAtOffset(blocks: seq<seq<UnitNode>>, i: nat, w: nat, id: string)
    requires i < |blocks| && w < |blocks[i]| && blocks[i][w].id == id
    ensures Offset(blocks, i) + w < |Flatten(blocks)|
    ensures Flatten(blocks)[Offset(blocks, i) + w].id == id
  {
    FlattenIndex(blocks, i, w);
  }

  /** Every node id of a layer's graph is its prefix, a ':' and a tail. */
  lemma NodeIdSplits(prefix: string, w: nat, p: nat)
    ensures exists tail :: DenseLayer.NodeId(prefix, w, p) == prefix + [':'] + tail
  {
    if p < w {
      assert DenseLayer.NodeId(prefix, w, p) == prefix + [':'] + ("in:" + NatStr(p));
    } else {
      assert DenseLayer.NodeId(prefix, w, p) == prefix + [':'] + ("out:" + NatStr(p - w));
    }
  }

  /** The ids of node `p` of a layer's graph, named without unfolding it. */
  lemma BlockId(l: DenseLayer.Layer, prefix: string, p: nat)
    requires |l.W.data| > 0 && p < |DenseLayer.ToGraph(l, prefix).value.nodes|
    ensures DenseLayer.ToGraph(l, prefix).value.nodes[p].id == DenseLayer.NodeId(prefix, Width(l.W.data), p)
  {
  }

  /** Ids exported under two different layer prefixes never coincide. */
  lemma PrefixesSeparate(i: nat, j: nat, wi: nat, wj: nat, p: nat, q: nat)
    requires i != j
    ensures DenseLayer.NodeId(LayerPrefix(i), wi, p) != DenseLayer.NodeId(LayerPrefix(j), wj, q)
  {
    if DenseLayer.NodeId(LayerPrefix(i), wi, p) == DenseLayer.NodeId(LayerPrefix(j), wj, q) {
      NodeIdSplits(LayerPrefix(i), wi, p);
      NodeIdSplits(LayerPrefix(j), wj, q);
      var a :| DenseLayer.NodeId(LayerPrefix(i), wi, p) == LayerPrefix(i) + [':'] + a;
      var b :| DenseLayer.NodeId(LayerPrefix(j), wj, q) == LayerPrefix(j) + [':'] + b;
      SepSplit(LayerPrefix(i), a, LayerPrefix(j), b, ':');
      CancelPrefix("layer-", NatStr(i), NatStr(j));
      NatStrInjective(i, j);
    }
  }

  /** With the intended prefixes no two nodes of the network graph share an id. */
  lemma {:induction false} ToGraphIdsDistinct(n: DenseNet)
    requires AllHaveRows(n.layers)
    ensures ToGraph(n).Ok?
    ensures Distinct(UnitIds(ToGraph(n).value.nodes))
  {
    var blocks := NodeBlocks(n.layers, LayerPrefix);
    var nodes := ToGraph(n).value.nodes;
    var ids := UnitIds(nodes);
    forall p, q | 0 <= p < |ids| && 0 <= q < |ids| && p != q
      ensures ids[p] != ids[q]
    {
      var (i, p') := Locate(blocks, p);
      var (j, q') := Locate(blocks, q);
      LocateSeparates(blocks, p, q);
      BlockId(n.layers[i], LayerPrefix(i), p');
      BlockId(n.layers[j], LayerPrefix(j), q');
      if i == j {
        DenseLayer.ToGraphIdsDistinct(n.layers[i], LayerPrefix(i));
        var bids := UnitIds(blocks[i]);
        assert bids[p'] != bids[q'];
      } else {
        PrefixesSeparate(i, j, Width(n.layers[i].W.data), Width(n.layers[j].W.data), p', q');
      }
    }
  }

  /** Every link of the network graph joins two nodes of the graph, and both lie
      in the block of the layer the link belongs to. */
  lemma ToGraphLinksClosed(n: DenseNet, k: nat)
    requires AllHaveRows(n.layers)
    requires k < |ToGraph(n).value.links|
    ensures exists p :: (0 <= p < |ToGraph(n).value.nodes| &&
      ToGraph(n).value.links[k].source == ToGraph(n).value.nodes[p].id)
    ensures exists q :: (0 <= q < |ToGraph(n).value.nodes| &&
      ToGraph(n).value.links[k].target == ToGraph(n).value.nodes[q].id)
  {
    var g := ToGraph(n).value;
    var nblocks := NodeBlocks(n.layers, LayerPrefix);
    var lblocks := LinkBlocks(n.layers, LayerPrefix);
    var (i, k') := Locate(lblocks, k);
    var l := n.layers[i];
    var pre := LayerPrefix(i);
    var w := Width(l.W.data);
    var rows := DenseLayer.LinkRows(l.W.data, pre);
    assert lblocks[i] == Flatten(rows);
    var (j, c) := Locate(rows, k');
    assert g.links[k] == Link(DenseLayer.InId(pre, c), DenseLayer.OutId(pre, j), l.W.data[j][c]);
    BlockId(l, pre, c);
    BlockId(l, pre, w + j);
    AssembleNodeAt(n.layers, LayerPrefix, i, c);
    AssembleNodeAt(n.layers, LayerPrefix, i, w + j);
    var p := Offset(nblocks, i) + c;
    var q := Offset(nblocks, i) + (w + j);
    var lg := DenseLayer.ToGraph(l, pre).value;
    assert g.nodes[p] == lg.nodes[c] && g.nodes[q] == lg.nodes[w + j];
    assert DenseLayer.NodeId(pre, w, w + j) == DenseLayer.OutId(pre, j);
    assert g.links[k].source == g.nodes[p].id;
    assert g.links[k].target == g.nodes[q].id;
  }
}

=== FILE: neural_network.dfy ===
/** The fixed-topology network of the flat-array lineage's visualiser: one
    record per layer size, each knowing its predecessor, and an export of the
    fully connected layered graph with random activations and weights. The
    values of `Math.random()` are parameters: `act(i, j)` is the draw for the
    activation of neuron `j` of layer `i`, and `wt(i, j, k)` the draw for the
    link from neuron `k` of layer `i - 1` to it. */
module NeuralNetwork {
  import opened Common
  import opened Seqs
  import opened Text
  import opened Graphs
  import opened LinAlg

  /** `{ neurons, prevLayer }`: the neuron array is only ever counted, and the
      predecessor is named by its index. */
  datatype LayerRec = LayerRec(neurons: nat, prev: Option<nat>)

  datatype Net = Net(layers: seq<LayerRec>)

  /** The constructor links every layer but the first to the one before it. */
  predicate Linked(n: Net) {
    forall i :: 0 <= i < |n.layers| ==> n.layers[i].prev == (if i > 0 then Some(i - 1) else None)
  }

  type Topology = n: Net | Linked(n) witness Net([])

  /** `new NeuralNetwork(sizes)`: one layer per size with that many neurons,
      layer `i > 0` pointing back to layer `i - 1`. `Array(size)` throws a
      RangeError for a size that is negative or 2^32 or more, which aborts the
      whole construction. */
  function New(sizes: seq<int>): (r: Result<Topology>)
    ensures r.Ok? <==> forall i :: 0 <= i < |sizes| ==> IsArrayLength(sizes[i])
    ensures r.Err? ==> r.error == RangeError
    ensures r.Ok? ==> |r.value.layers| == |sizes|
    ensures r.Ok? ==> forall i :: 0 <= i < |sizes| ==> r.value.layers[i].neurons == sizes[i]
  {
    if exists i :: 0 <= i < |sizes| && !IsArrayLength(sizes[i]) then Err(RangeError)
    else
      Ok(Net(seq(|sizes|, i requires 0 <= i < |sizes| =>
        LayerRec(sizes[i] as nat, if i > 0 then Some(i - 1) else None))))
  }

  /** The neuron counts of the layers. */
  function Sizes(n: Net): (s: seq<int>)
    ensures |s| == |n.layers| && forall i :: 0 <= i < |n.layers| ==> s[i] == n.layers[i].neurons
  {
    seq(|n.layers|, i requires 0 <= i < |n.layers| => n.layers[i].neurons)
  }

  /** The id `${i}-${j}`. */
  function NodeName(i: nat, j: nat): string {
    NatStr(i) + "-" + NatStr(j)
  }

  /** The nodes of layer `i`, in neuron order. */
  function LayerNodes(n: Net, act: (nat, nat) -> real, i: nat): (ns: seq<NeuronNode>)
    requires i < |n.layers|
    ensures |ns| == n.layers[i].neurons
    ensures forall j :: 0 <= j < |ns| ==> ns[j] == NeuronNode(NodeName(i, j), i, j, Real(act(i, j)))
  {
    seq(n.layers[i].neurons, j requires 0 <= j < n.layers[i].neurons => NeuronNode(NodeName(i, j), i, j, Real(act(i, j))))
  }

  /** The links into neuron `j` of layer `i`: one from every neuron `k` of the
      layer before, weighted `2 * draw - 1`; none into the first layer. */
  function InLinks(n: Topology, wt: (nat, nat, nat) -> real, i: nat, j: nat): (ls: seq<Link>)
    requires i < |n.layers|
    ensures i == 0 ==> ls == []
    ensures i > 0 ==> |ls| == n.layers[i - 1].neurons
    ensures i > 0 ==> forall k :: 0 <= k < |ls| ==>
      ls[k] == Link(NodeName(i - 1, k), NodeName(i, j), wt(i, j, k) * 2.0 - 1.0)
  {
    if i == 0 then []
    else
      var m := n.layers[i - 1].neurons;
      seq(m, k requires 0 <= k < m => Link(NodeName(i - 1, k), NodeName(i, j), wt(i, j, k) * 2.0 - 1.0))
  }

  /** The links of layer `i`, grouped by target neuron. */
  function LayerLinkBlocks(n: Topology, wt: (nat, nat, nat) -> real, i: nat): (bs: seq<seq<Link>>)
    requires i < |n.layers|
    ensures |bs| == n.layers[i].neurons
  {
    seq(n.layers[i].neurons, j requires 0 <= j < n.layers[i].neurons => InLinks(n, wt, i, j))
  }

  function NodeBlocks(n: Net, act: (nat, nat) -> real): (bs: seq<seq<NeuronNode>>)
    ensures |bs| == |n.layers|
  {
    seq(|n.layers|, i requires 0 <= i < |n.layers| => LayerNodes(n, act, i))
  }

  function LinkBlocks(n: Topology, wt: (nat, nat, nat) -> real): (bs: seq<seq<Link>>)
    ensures |bs| == |n.layers|
  {
    seq(|n.layers|, i requires 0 <= i < |n.layers| => Flatten(LayerLinkBlocks(n, wt, i)))
  }

  /** `exportGraph()`: layer by layer, neuron by neuron, the node and then the
      links into it. Nodes and links go to separate lists, so the interleaving
      only shows in the order of the random draws. */
  function ExportGraph(n: Topology, act: (nat, nat) -> real, wt: (nat, nat, nat) -> real): (g: Graph<NeuronNode>)
  {
    Graph(Flatten(NodeBlocks(n, act)), Flatten(LinkBlocks(n, wt)))
  }

  /** The construction keeps the sizes it was given, in order. */
  lemma NewKeepsSizes(sizes: seq<int>)
    requires forall i :: 0 <= i < |sizes| ==> IsArrayLength(sizes[i])
    ensures New(sizes).Ok? && Sizes(New(sizes).value) == sizes
  {
    assert Sizes(New(sizes).value) == sizes;
  }

  /** One node per neuron: `Σ sizes` nodes in all. */
  lemma NodeCount(n: Topology, act: (nat, nat) -> real, wt: (nat, nat, nat) -> real)
    ensures |ExportGraph(n, act, wt).nodes| == Sum(Sizes(n))
  {
    var bs := NodeBlocks(n, act);
    FlattenLength(bs);
    assert Lengths(bs) == Sizes(n);
  }

  /** Neuron `j` of layer `i` sits at the layer's offset plus `j`. */
  lemma NodeAt(n: Topology, act: (nat, nat) -> real, wt: (nat, nat, nat) -> real, i: nat, j: nat)
    requires i < |n.layers| && j < n.layers[i].neurons
    ensures Offset(NodeBlocks(n, act), i) + j < |ExportGraph(n, act, wt).nodes|
    ensures ExportGraph(n, act, wt).nodes[Offset(NodeBlocks(n, act), i) + j]
      == NeuronNode(NodeName(i, j), i, j, Real(act(i, j)))
  {
    FlattenIndex(NodeBlocks(n, act), i, j);
  }

  /** `${i}-${j}` names one neuron only. */
  lemma NodeNameInjective(i: nat, j: nat, i': nat, j': nat)
    requires NodeName(i, j) == NodeName(i', j')
    ensures i == i' && j == j'
  {
    NonDigitNotInNatStr(i, '-');
    NonDigitNotInNatStr(i', '-');
    SepSplit(NatStr(i), NatStr(j), NatStr(i'), NatStr(j'), '-');
    NatStrInjective(i, i');
    NatStrInjective(j, j');
  }

  /** No two nodes share an id. */
  lemma {:induction false} IdsDistinct(n: Topology, act: (nat, nat) -> real, wt: (nat, nat, nat) -> real)
    ensures Distinct(NeuronIds(ExportGraph(n, act, wt).nodes))
  {
    var bs := NodeBlocks(n, act);
    var ids := NeuronIds(ExportGraph(n, act, wt).nodes);
    forall p, q | 0 <= p < |ids| && 0 <= q < |ids| && p != q
      ensures ids[p] != ids[q]
    {
      var (i, j) := Locate(bs, p);
      var (i', j') := Locate(bs, q);
      LocateSeparates(bs, p, q);
      assert bs[i] == LayerNodes(n, act, i) && bs[i'] == LayerNodes(n, act, i');
      if ids[p] == ids[q] {
        NodeNameInjective(i, j, i', j');
        assert false;
      }
    }
  }

  /** The number of links into layer `i`: every pair of a neuron there and one
      in the layer before. */
  function LinkCounts(n: Net): (c: seq<int>)
    ensures |c| == |n.layers|
  {
    seq(|n.layers|, i requires 0 <= i < |n.layers| =>
      if i == 0 then 0 else n.layers[i - 1].neurons * n.layers[i].neurons)
  }

  /** Layer `i` contributes `sizes[i-1] * sizes[i]` links, layer 0 none. */
  lemma LayerLinkCount(n: Topology, wt: (nat, nat, nat) -> real, i: nat)
    requires i < |n.layers|
    ensures |Flatten(LayerLinkBlocks(n, wt, i))| == LinkCounts(n)[i]
  {
    var bs := LayerLinkBlocks(n, wt, i);
    var m := if i == 0 then 0 else n.layers[i - 1].neurons;
    forall j | 0 <= j < |bs|
      ensures |bs[j]| == m
    {
      assert bs[j] == InLinks(n, wt, i, j);
    }
    FlattenUniformLength(bs, m);
    if i > 0 {
      assert |bs| * m == m * |bs|;
    }
  }

  /** `Σ_{i≥1} sizes[i-1] * sizes[i]` links in all. */
  lemma LinkCount(n: Topology, act: (nat, nat) -> real, wt: (nat, nat, nat) -> real)
    ensures |ExportGraph(n, act, wt).links| == Sum(LinkCounts(n))
  {
    var bs := LinkBlocks(n, wt);
    FlattenLength(bs);
    forall i | 0 <= i < |bs|
      ensures Lengths(bs)[i] == LinkCounts(n)[i]
    {
      LayerLinkCount(n, wt, i);
    }
    assert Lengths(bs) == LinkCounts(n);
  }

  /** Link `p` runs from neuron `k` of layer `i - 1` to neuron `j` of layer `i`
      for some `i >= 1`, `j` and `k` within the layer sizes. */
  lemma LinkShape(n: Topology, act: (nat, nat) -> real, wt: (nat, nat, nat) -> real, p: nat)
    requires p < |ExportGraph(n, act, wt).links|
    ensures exists i: nat, j: nat, k: nat :: (
      1 <= i < |n.layers| && j < n.layers[i].neurons && k < n.layers[i - 1].neurons &&
      ExportGraph(n, act, wt).links[p] == Link(NodeName(i - 1, k), NodeName(i, j), wt(i, j, k) * 2.0 - 1.0))
  {
    var bs := LinkBlocks(n, wt);
    var (i, q) := Locate(bs, p);
    var inner := LayerLinkBlocks(n, wt, i);
    var (j, k) := Locate(inner, q);
    assert i >= 1;
    assert ExportGraph(n, act, wt).links[p] == inner[j][k];
  }

  /** Every link joins two emitted nodes, from a layer to the next one, so the
      first layer receives none. */
  lemma LinksJoinNodes(n: Topology, act: (nat, nat) -> real, wt: (nat, nat, nat) -> real, p: nat)
    requires p < |ExportGraph(n, act, wt).links|
    ensures exists a, b :: (0 <= a < |ExportGraph(n, act, wt).nodes| && 0 <= b < |ExportGraph(n, act, wt).nodes| &&
      ExportGraph(n, act, wt).links[p].source == ExportGraph(n, act, wt).nodes[a].id &&
      ExportGraph(n, act, wt).links[p].target == ExportGraph(n, act, wt).nodes[b].id &&
      ExportGraph(n, act, wt).nodes[b].layer >= 1 &&
      ExportGraph(n, act, wt).nodes[a].layer + 1 == ExportGraph(n, act, wt).nodes[b].layer)
  {
    var g := ExportGraph(n, act, wt);
    var i: nat, j: nat, k: nat :| 1 <= i < |n.layers| && j < n.layers[i].neurons && k < n.layers[i - 1].neurons &&
      g.links[p] == Link(NodeName(i - 1, k), NodeName(i, j), wt(i, j, k) * 2.0 - 1.0) by {
      LinkShape(n, act, wt, p);
    }
    var a, b := AdjacentNodes(n, act, wt, i, j, k);
    JoinWitness(g.nodes, g.links[p], a, b);
  }

  /** Neuron `k` of layer `i - 1` and neuron `j` of layer `i` are emitted, at
      positions `a` and `b`. */
  lemma AdjacentNodes(n: Topology, act: (nat, nat) -> real, wt: (nat, nat, nat) -> real, i: nat, j: nat, k: nat)
      returns (a: nat, b: nat)
    requires 1 <= i < |n.layers| && j < n.layers[i].neurons && k < n.layers[i - 1].neurons
    ensures a < |ExportGraph(n, act, wt).nodes| && b < |ExportGraph(n, act, wt).nodes|
    ensures ExportGraph(n, act, wt).nodes[a] == NeuronNode(NodeName(i - 1, k), i - 1, k, Real(act(i - 1, k)))
    ensures ExportGraph(n, act, wt).nodes[b] == NeuronNode(NodeName(i, j), i, j, Real(act(i, j)))
  {
    a := NodePosition(n, act, wt, i - 1, k);
    b := NodePosition(n, act, wt, i, j);
  }

  /** The position of neuron `j` of layer `i` in the export. */
  lemma NodePosition(n: Topology, act: (nat, nat) -> real, wt: (nat, nat, nat) -> real, i: nat, j: nat)
      returns (a: nat)
    requires i < |n.layers| && j < n.layers[i].neurons
    ensures a < |ExportGraph(n, act, wt).nodes|
    ensures ExportGraph(n, act, wt).nodes[a] == NeuronNode(NodeName(i, j), i, j, Real(act(i, j)))
  {
    a := Offset(NodeBlocks(n, act), i) + j;
    NodeAt(n, act, wt, i, j);
  }

  /** A link whose ends are the ids of nodes `a` and `b`, one layer apart, joins
      two nodes of the list. */
  lemma JoinWitness(nodes: seq<NeuronNode>, link: Link, a: nat, b: nat)
    requires a < |nodes| && b < |nodes|
    requires link.source == nodes[a].id && link.target == nodes[b].id
    requires nodes[b].layer >= 1 && nodes[a].layer + 1 == nodes[b].layer
    ensures exists a', b' :: (0 <= a' < |nodes| && 0 <= b' < |nodes| &&
      link.source == nodes[a'].id && link.target == nodes[b'].id &&
      nodes[b'].layer >= 1 && nodes[a'].layer + 1 == nodes[b'].layer)
  {
  }

  /** With every draw in [0, 1), as `Math.random` gives them, activations lie in
      [0, 1) and weights in [-1, 1). */
  lemma ValueRanges(n: Topology, act: (nat, nat) -> real, wt: (nat, nat, nat) -> real)
    requires forall i, j :: 0.0 <= act(i, j) < 1.0
    requires forall i, j, k :: 0.0 <= wt(i, j, k) < 1.0
    ensures forall p :: 0 <= p < |ExportGraph(n, act, wt).nodes| ==>
      ExportGraph(n, act, wt).nodes[p].activation.Real? &&
      0.0 <= ExportGraph(n, act, wt).nodes[p].activation.r < 1.0
    ensures forall p :: 0 <= p < |ExportGraph(n, act, wt).links| ==>
      -1.0 <= ExportGraph(n, act, wt).links[p].weight < 1.0
  {
    var g := ExportGraph(n, act, wt);
    var bs := NodeBlocks(n, act);
    forall p | 0 <= p < |g.nodes|
      ensures g.nodes[p].activation.Real? && 0.0 <= g.nodes[p].activation.r < 1.0
    {
      var (i, j) := Locate(bs, p);
      assert g.nodes[p] == LayerNodes(n, act, i)[j];
    }
    forall p | 0 <= p < |g.links|
      ensures -1.0 <= g.links[p].weight < 1.0
    {
      LinkShape(n, act, wt, p);
    }
  }
}

=== FILE: relu.dfy ===
/** The rectified-linear activation of the flat-array lineage. Its base class
    `Activation` is not part of this model; the layer is taken to inherit the
    defaults of `Layer` for everything it does not define. */
module ReLU {
  import opened Common
  import opened LinAlg

  /** The one field the activation keeps: the input of the last forward call. */
  datatype State = State(lastInput: Option<Vector>)

  /** A fresh activation: nothing cached yet. */
  const Initial: State := State(None)

  /** `Math.max(0, x)`. */
  function Max0(x: real): (y: real)
    ensures y >= 0.0 && y >= x && (y == x || y == 0.0)
  {
    if x > 0.0 then x else 0.0
  }

  /** `forward(input)`: caches the input first, then maps every entry to
      `max(0, x)`. A `null` input is cached and then throws a TypeError at
      `input.map`. */
  function Forward(s: State, input: Option<Vector>): (r: (State, Result<Vector>))
    ensures r.0 == State(input)
    ensures r.1.Ok? <==> input.Some?
    ensures r.1.Err? ==> r.1.error == TypeError
    ensures r.1.Ok? ==> |r.1.value| == |input.value|
    ensures r.1.Ok? ==> forall i :: 0 <= i < |input.value| ==>
      r.1.value[i] >= 0.0 && r.1.value[i] >= input.value[i] &&
      (r.1.value[i] == input.value[i] || r.1.value[i] == 0.0)
  {
    match input
    case None => (State(None), Err(TypeError))
    case Some(x) => (State(input), Ok(seq(|x|, i requires 0 <= i < |x| => Max0(x[i]))))
  }

  /** `backward(gradOutput)`: entry `i` passes `gradOutput[i]` through where the
      cached input is positive and is 0 elsewhere (including at 0). Nothing is
      stored. Without a cached input it throws a TypeError; a gradient missing an
      entry where the input is positive yields `undefined` in the source,
      reported here as a ShapeMismatch. */
  function Backward(s: State, gradOutput: Vector): (r: Result<Vector>)
    ensures r.Ok? <==> (s.lastInput.Some? &&
      forall i :: 0 <= i < |s.lastInput.value| && s.lastInput.value[i] > 0.0 ==> i < |gradOutput|)
    ensures r.Err? ==> r.error == (if s.lastInput.None? then TypeError else ShapeMismatch)
    ensures r.Ok? ==> |r.value| == |s.lastInput.value|
    ensures r.Ok? ==> forall i :: 0 <= i < |r.value| ==>
      (s.lastInput.value[i] > 0.0 ==> r.value[i] == gradOutput[i]) &&
      (s.lastInput.value[i] <= 0.0 ==> r.value[i] == 0.0)
  {
    match s.lastInput
    case None => Err(TypeError)
    case Some(x) =>
      if exists i :: 0 <= i < |x| && x[i] > 0.0 && i >= |gradOutput| then Err(ShapeMismatch)
      else Ok(seq(|x|, i requires 0 <= i < |x| => if x[i] > 0.0 then gradOutput[i] else 0.0))
  }

  /** `getParams()` / `getGrads()`: an activation has no parameters. */
  function Params(s: State): (ps: seq<Param>)
    ensures ps == []
  {
    []
  }

  function Grads(s: State): (gs: seq<Option<Grad>>)
    ensures gs == []
  {
    []
  }

  /** Applying the activation to its own output changes nothing. */
  lemma ForwardIdempotent(s: State, x: Vector)
    ensures Forward(s, Some(x)).1.Ok?
    ensures Forward(Forward(s, Some(x)).0, Some(Forward(s, Some(x)).1.value)).1 == Forward(s, Some(x)).1
  {
    var y := Forward(s, Some(x)).1.value;
    var z := Forward(State(Some(x)), Some(y)).1.value;
    assert |z| == |y|;
    forall i | 0 <= i < |y|
      ensures z[i] == y[i]
    {
    }
    assert z == y;
  }

  /** `|x|`. */
  function Abs(x: real): (a: real)
    ensures a >= 0.0 && (a == x || a == -x)
  {
    if x < 0.0 then -x else x
  }

  /** The backward pass is the derivative of the forward pass away from the kink:
      where `x[i] != 0`, moving the input by `t` with `|t| < |x[i]|` moves output
      `i` by exactly the gradient entry times `t`. */
  lemma BackwardIsDerivative(s: State, x: Vector, i: nat, t: real)
    requires i < |x| && x[i] != 0.0
    requires -Abs(x[i]) < t < Abs(x[i])
    ensures Forward(s, Some(x)).1.Ok?
    ensures Backward(Forward(s, Some(x)).0, seq(|x|, k => 1.0)).Ok?
    ensures Max0(x[i] + t) == Forward(s, Some(x)).1.value[i]
      + Backward(Forward(s, Some(x)).0, seq(|x|, k => 1.0)).value[i] * t
  {
  }

  /** Positive homogeneity: after `forward(x)`, `backward(x)` returns `forward(x)`
      again, because every output entry is its input entry times the mask. */
  lemma BackwardOfInputIsOutput(s: State, x: Vector)
    ensures Forward(s, Some(x)).1.Ok?
    ensures Backward(Forward(s, Some(x)).0, x) == Forward(s, Some(x)).1
  {
    var y := Forward(s, Some(x)).1.value;
    var b := Backward(State(Some(x)), x);
    assert b.Ok?;
    forall i | 0 <= i < |x|
      ensures b.value[i] == y[i]
    {
    }
    assert b.value == y;
  }

  /** The mask does not depend on the gradient: two gradients that agree where
      the cached input is positive give the same input gradient. */
  lemma BackwardMaskOnly(s: State, g: Vector, h: Vector)
    requires s.lastInput.Some? && |g| == |h| == |s.lastInput.value|
    requires forall i :: 0 <= i < |g| && s.lastInput.value[i] > 0.0 ==> g[i] == h[i]
    ensures Backward(s, g).Ok? && Backward(s, g) == Backward(s, h)
  {
    var a := Backward(s, g).value;
    var b := Backward(s, h).value;
    forall i | 0 <= i < |a|
      ensures a[i] == b[i]
    {
    }
    assert a == b;
  }
}

=== FILE: seqs.dfy ===
/** Concatenation of blocks of a sequence (JavaScript's `flatMap`, and the
    `push` loops of the graph exporters), with the index arithmetic that locates
    an element of the result inside its block. */
module Seqs {

  /** The blocks joined in order. */
  function Flatten<T>(blocks: seq<seq<T>>): seq<T>
    decreases |blocks|
  {
    if |blocks| == 0 then [] else Flatten(blocks[..|blocks| - 1]) + blocks[|blocks| - 1]
  }

  /** Where block `i` starts inside `Flatten(blocks)`. */
  function Offset<T>(blocks: seq<seq<T>>, i: nat): nat
    requires i <= |blocks|
  {
    |Flatten(blocks[..i])|
  }

  function Sum(xs: seq<int>): int
    decreases |xs|
  {
    if |xs| == 0 then 0 else Sum(xs[..|xs| - 1]) + xs[|xs| - 1]
  }

  /** The lengths of the blocks, in order. */
  function Lengths<T>(blocks: seq<seq<T>>): (r: seq<int>)
    ensures |r| == |blocks|
    ensures forall i :: 0 <= i < |blocks| ==> r[i] == |blocks[i]|
  {
    seq(|blocks|, i requires 0 <= i < |blocks| => |blocks[i]|)
  }

  lemma {:induction false} FlattenAppend<T>(a: seq<seq<T>>, b: seq<seq<T>>)
    ensures Flatten(a + b) == Flatten(a) + Flatten(b)
    decreases |b|
  {
    if |b| == 0 {
      assert a + b == a;
    } else {
      var b' := b[..|b| - 1];
      assert (a + b)[..|a + b| - 1] == a + b';
      FlattenAppend(a, b');
    }
  }

  /** The length of the concatenation is the sum of the block lengths. */
  lemma {:induction false} FlattenLength<T>(blocks: seq<seq<T>>)
    ensures |Flatten(blocks)| == Sum(Lengths(blocks))
    decreases |blocks|
  {
    if |blocks| > 0 {
      var k := |blocks| - 1;
      FlattenLength(blocks[..k]);
      assert Lengths(blocks)[..k] == Lengths(blocks[..k]);
    }
  }

  /** Blocks that all have length `m` flatten to `|blocks| * m` elements, block `i` starting at `i * m`. */
  lemma {:induction false} FlattenUniform<T>(blocks: seq<seq<T>>, m: nat)
    requires forall i :: 0 <= i < |blocks| ==> |blocks[i]| == m
    ensures |Flatten(blocks)| == |blocks| * m
    ensures forall i :: 0 <= i <= |blocks| ==> Offset(blocks, i) == i * m
    decreases |blocks|
  {
    if |blocks| > 0 {
      var k := |blocks| - 1;
      FlattenUniform(blocks[..k], m);
      assert |Flatten(blocks)| == k * m + m;
      forall i | 0 <= i <= |blocks|
        ensures Offset(blocks, i) == i * m
      {
        if i < |blocks| {
          assert blocks[..i] == blocks[..k][..i];
          assert Offset(blocks[..k], i) == i * m;
        } else {
          assert blocks[..i] == blocks;
          assert (k + 1) * m == k * m + m;
        }
      }
    }
  }

  /** The length part of `FlattenUniform`. */
  lemma FlattenUniformLength<T>(blocks: seq<seq<T>>, m: nat)
    requires forall i :: 0 <= i < |blocks| ==> |blocks[i]| == m
    ensures |Flatten(blocks)| == |blocks| * m
  {
    FlattenUniform(blocks, m);
  }

  /** Element `j` of block `i` sits at `Offset(blocks, i) + j`. */
  lemma FlattenIndex<T>(blocks: seq<seq<T>>, i: nat, j: nat)
    requires i < |blocks| && j < |blocks[i]|
    ensures Offset(blocks, i) + j < |Flatten(blocks)|
    ensures Flatten(blocks)[Offset(blocks, i) + j] == blocks[i][j]
  {
    assert blocks == blocks[..i] + [blocks[i]] + blocks[i + 1..];
    FlattenAppend(blocks[..i] + [blocks[i]], blocks[i + 1..]);
    FlattenAppend(blocks[..i], [blocks[i]]);
    assert Flatten([blocks[i]]) == blocks[i] by {
      assert [blocks[i]][..0] == [];
    }
  }

  /** Position `j` of row `i` in a row-major grid with rows of length `m`. */
  function Cell(i: nat, m: nat, j: nat): nat {
    i * m + j
  }

  /** For blocks that all have length `m`, element `j` of block `i` sits at `Cell(i, m, j)`. */
  lemma FlattenGridAt<T>(blocks: seq<seq<T>>, m: nat, i: nat, j: nat)
    requires forall k :: 0 <= k < |blocks| ==> |blocks[k]| == m
    requires i < |blocks| && j < m
    ensures Cell(i, m, j) < |Flatten(blocks)| && Flatten(blocks)[Cell(i, m, j)] == blocks[i][j]
  {
    var o := Offset(blocks, i);
    assert o == i * m by {
      FlattenUniform(blocks, m);
    }
    FlattenIndex(blocks, i, j);
    assert Flatten(blocks)[o + j] == blocks[i][j];
  }

  /** `FlattenGridAt` for every position at once. */
  lemma FlattenGrid<T>(blocks: seq<seq<T>>, m: nat)
    requires forall i :: 0 <= i < |blocks| ==> |blocks[i]| == m
    ensures forall i, j :: 0 <= i < |blocks| && 0 <= j < m ==>
      Cell(i, m, j) < |Flatten(blocks)| && Flatten(blocks)[Cell(i, m, j)] == blocks[i][j]
  {
    forall i, j | 0 <= i < |blocks| && 0 <= j < m
      ensures Cell(i, m, j) < |Flatten(blocks)| && Flatten(blocks)[Cell(i, m, j)] == blocks[i][j]
    {
      FlattenGridAt(blocks, m, i, j);
    }
  }

  /** The block and in-block position of element `p` of the concatenation. */
  function Locate<T>(blocks: seq<seq<T>>, p: nat): (r: (nat, nat))
    requires p < |Flatten(blocks)|
    ensures r.0 < |blocks| && r.1 < |blocks[r.0]|
    ensures p == Offset(blocks, r.0) + r.1
    ensures Flatten(blocks)[p] == blocks[r.0][r.1]
    decreases |blocks|
  {
    var k := |blocks| - 1;
    var front := |Flatten(blocks[..k])|;
    if p >= front then
      assert blocks[..k] == blocks[..|blocks| - 1];
      (k, p - front)
    else
      var r := Locate(blocks[..k], p);
      assert blocks[..k][..r.0] == blocks[..r.0];
      FlattenIndex(blocks, r.0, r.1);
      r
  }

  /** Blocks start in order: a block never starts before an earlier one ends. */
  lemma OffsetMonotone<T>(blocks: seq<seq<T>>, i: nat, i': nat)
    requires i < i' <= |blocks|
    ensures Offset(blocks, i) + |blocks[i]| <= Offset(blocks, i')
  {
    assert blocks[..i'] == blocks[..i] + [blocks[i]] + blocks[i + 1..i'];
    FlattenAppend(blocks[..i] + [blocks[i]], blocks[i + 1..i']);
    FlattenAppend(blocks[..i], [blocks[i]]);
    assert Flatten([blocks[i]]) == blocks[i] by {
      assert [blocks[i]][..0] == [];
    }
  }

  /** Two positions located in the same block at the same place are the same position. */
  lemma LocateInjective<T>(blocks: seq<seq<T>>, p: nat, q: nat)
    requires p < |Flatten(blocks)| && q < |Flatten(blocks)|
    requires Locate(blocks, p) == Locate(blocks, q)
    ensures p == q
  {
  }

  /** Distinct positions land in different blocks or at different places of one block. */
  lemma LocateSeparates<T>(blocks: seq<seq<T>>, p: nat, q: nat)
    requires p < |Flatten(blocks)| && q < |Flatten(blocks)| && p != q
    ensures Locate(blocks, p) != Locate(blocks, q)
  {
  }
}

=== FILE: sgd.dfy ===
/** Plain stochastic gradient descent over the parameter arrays of the
    flat-array lineage: every entry `p` becomes `p - lr*g`. The source updates the
    arrays in place; here a step returns the updated parameters. */
module SGD {
  import opened Common
  import opened LinAlg

  datatype Optimizer = Optimizer(lr: real)

  /** The learning rate used when the constructor is called without one. */
  const DefaultRate: real := 0.01

  /** `new SGD(lr)`: an omitted (`undefined`) rate becomes 0.01. */
  function New(lr: Option<real>): (o: Optimizer)
    ensures lr.Some? ==> o.lr == lr.value
    ensures lr.None? ==> o.lr == 0.01
  {
    Optimizer(lr.GetOr(DefaultRate))
  }

  /** The number of rows of a matrix or entries of a vector (`p.length`). */
  function Count<T>(p: ArrayOf<T>): nat {
    match p
    case Mat(rows) => |rows|
    case Vec(entries) => |entries|
  }

  /** `g[i]` is defined: the gradient exists and has an `i`-th element. */
  predicate Indexable(g: Option<Grad>, i: nat) {
    g.Some? && i < Count(g.value)
  }

  /** Whether `Array.isArray(p[0])` holds, which selects the matrix branch. */
  predicate IsMatrix(p: Param) {
    p.Mat? && |p.rows| > 0
  }

  /** The update of one parameter with its gradient throws: some element the loop
      visits reads `g[i]` of a missing gradient, or `g[i][j]` of a missing row. */
  predicate PairThrows(p: Param, g: Option<Grad>) {
    if IsMatrix(p) then exists i :: 0 <= i < |p.rows| && |p.rows[i]| > 0 && !Indexable(g, i)
    else Count(p) > 0 && g.None?
  }

  /** The update of one parameter reads an entry that is not a number of the
      matching kind: `undefined` past the end of a row, a NaN entry, a number
      where a row is expected (each computes NaN in the source), or a row where
      the vector branch expects a number (which the source coerces: `[x]` to
      `x`, `[]` to 0, a longer row to NaN). */
  predicate PairMismatched(p: Param, g: Option<Grad>)
    requires !PairThrows(p, g)
  {
    if IsMatrix(p) then
      exists i :: 0 <= i < |p.rows| && |p.rows[i]| > 0 &&
        (g.value.Vec? || !RealUpTo(g.value.rows[i], |p.rows[i]|))
    else
      Count(p) > 0 && (g.value.Mat? || !RealUpTo(g.value.entries, Count(p)))
  }

  /** `p[i] - lr*g[i]` for every entry of `p`. */
  function VecStep(lr: real, p: Vector, g: seq<Num>): (q: Vector)
    requires RealUpTo(g, |p|)
    ensures |q| == |p|
  {
    seq(|p|, i requires 0 <= i < |p| => p[i] - lr * g[i].r)
  }

  /** Row `i` of `g` is there and long enough wherever row `i` of `p` has entries. */
  predicate RowsCovered(p: Matrix, g: seq<seq<Num>>) {
    forall i :: 0 <= i < |p| && |p[i]| > 0 ==> i < |g| && RealUpTo(g[i], |p[i]|)
  }

  /** `p[i][j] - lr*g[i][j]` for every entry of `p`; rows of `g` facing an empty
      row of `p` are never read. */
  function MatStep(lr: real, p: Matrix, g: seq<seq<Num>>): (q: Matrix)
    requires RowsCovered(p, g)
    ensures |q| == |p|
  {
    seq(|p|, i requires 0 <= i < |p| => if |p[i]| == 0 then [] else VecStep(lr, p[i], g[i]))
  }

  /** One iteration of the outer loop of `step`: the update of parameter `p` with
      its gradient `g` (`None` for `null`, `undefined` or a missing entry). */
  function PairStep(lr: real, p: Param, g: Option<Grad>): (r: Result<Param>)
    ensures r.Err? <==> PairThrows(p, g) || PairMismatched(p, g)
    ensures r.Err? ==> r.error == (if PairThrows(p, g) then TypeError else ShapeMismatch)
    ensures r.Ok? ==> r.value.Mat? == p.Mat? && Count(r.value) == Count(p)
    ensures r.Ok? && p.Mat? ==> forall i :: 0 <= i < |p.rows| ==>
      |r.value.rows[i]| == |p.rows[i]| &&
      forall j :: 0 <= j < |p.rows[i]| ==> r.value.rows[i][j] == p.rows[i][j] - lr * g.value.rows[i][j].r
    ensures r.Ok? && p.Vec? ==> forall i :: 0 <= i < |p.entries| ==>
      r.value.entries[i] == p.entries[i] - lr * g.value.entries[i].r
  {
    if PairThrows(p, g) then Err(TypeError)
    else if PairMismatched(p, g) then Err(ShapeMismatch)
    else if IsMatrix(p) && g.Some? && g.value.Mat? then
      Ok(Mat(MatStep(lr, p.rows, g.value.rows)))
    else if IsMatrix(p) then Ok(p)
    else if Count(p) == 0 then Ok(p)
    else Ok(Vec(VecStep(lr, p.entries, g.value.entries)))
  }

  /** `grads[k]`, with `undefined` past the end. */
  function GradAt(grads: seq<Option<Grad>>, k: nat): Option<Grad> {
    if k < |grads| then grads[k] else None
  }

  /** The updates of all parameters, in order, as long as none fails. */
  function StepAll(lr: real, params: seq<Param>, grads: seq<Option<Grad>>): (r: Result<seq<Param>>)
    ensures r.Ok? <==> forall k :: 0 <= k < |params| ==> PairStep(lr, params[k], GradAt(grads, k)).Ok?
    ensures r.Err? ==> exists k :: 0 <= k < |params| && PairStep(lr, params[k], GradAt(grads, k)) == Err(r.error)
    ensures r.Ok? ==> |r.value| == |params|
    ensures r.Ok? ==> forall k :: 0 <= k < |params| ==> r.value[k] == PairStep(lr, params[k], GradAt(grads, k)).value
    decreases |params|
  {
    if |params| == 0 then Ok([])
    else
      var n := |params| - 1;
      var front := StepAll(lr, params[..n], grads);
      var last := PairStep(lr, params[n], GradAt(grads, n));
      if front.Err? then front
      else if last.Err? then Err(last.error)
      else Ok(front.value + [last.value])
  }

  /** `step(params, grads)`: every pair is visited in order. A pair that throws
      stops the step with a TypeError (the source has then already updated the
      earlier parameters in place); otherwise a mismatched pair makes the step a
      ShapeMismatch (the source still updates every pair, writing NaN into the
      mismatched entries); otherwise the result holds every updated parameter. */
  function Step(o: Optimizer, params: seq<Param>, grads: seq<Option<Grad>>): (r: Result<seq<Param>>)
    ensures r.Err? <==> exists k :: 0 <= k < |params| && PairStep(o.lr, params[k], GradAt(grads, k)).Err?
    ensures r.Err? ==> (r.error == TypeError <==>
      exists k :: 0 <= k < |params| && PairThrows(params[k], GradAt(grads, k)))
    ensures r.Err? ==> r.error in {TypeError, ShapeMismatch}
    ensures r.Ok? ==> |r.value| == |params|
    ensures r.Ok? ==> forall k :: 0 <= k < |params| ==> r.value[k] == PairStep(o.lr, params[k], GradAt(grads, k)).value
  {
    if exists k :: 0 <= k < |params| && PairThrows(params[k], GradAt(grads, k)) then Err(TypeError)
    else StepAll(o.lr, params, grads)
  }

  /** The inner loop over a vector parameter, updating one entry per iteration. */
  method VecStepLoop(lr: real, p: Vector, g: seq<Num>) returns (q: Vector)
    requires RealUpTo(g, |p|)
    ensures q == VecStep(lr, p, g)
  {
    q := p;
    var i := 0;
    while i < |q|
      invariant 0 <= i <= |q| == |p|
      invariant forall j :: 0 <= j < i ==> q[j] == p[j] - lr * g[j].r
      invariant forall j :: i <= j < |q| ==> q[j] == p[j]
    {
      q := q[i := q[i] - lr * g[i].r];
      i := i + 1;
    }
    assert forall j :: 0 <= j < |q| ==> q[j] == VecStep(lr, p, g)[j];
  }

  /** The nested loops over a matrix parameter, row by row and entry by entry. */
  method MatStepLoop(lr: real, p: Matrix, g: seq<seq<Num>>) returns (q: Matrix)
    requires RowsCovered(p, g)
    ensures q == MatStep(lr, p, g)
  {
    q := p;
    var i := 0;
    while i < |q|
      invariant 0 <= i <= |q| == |p|
      invariant forall k :: 0 <= k < i ==> q[k] == MatStep(lr, p, g)[k]
      invariant forall k :: i <= k < |q| ==> q[k] == p[k]
    {
      var row := q[i];
      var j := 0;
      while j < |row|
        invariant 0 <= j <= |row| == |p[i]|
        invariant forall t :: 0 <= t < j ==> row[t] == p[i][t] - lr * g[i][t].r
        invariant forall t :: j <= t < |row| ==> row[t] == p[i][t]
      {
        row := row[j := row[j] - lr * g[i][j].r];
        j := j + 1;
      }
      assert row == MatStep(lr, p, g)[i] by {
        if |p[i]| > 0 {
          assert forall t :: 0 <= t < |row| ==> row[t] == VecStep(lr, p[i], g[i])[t];
        }
      }
      q := q[i := row];
      i := i + 1;
    }
  }

  /** A gradient of zeros in the shape of `p`. */
  function ZeroLike(p: Param): (z: Grad)
    ensures z.Mat? == p.Mat? && Count(z) == Count(p)
  {
    match p
    case Mat(rows) => Mat(seq(|rows|, i requires 0 <= i < |rows| => Lift(Zero(|rows[i]|))))
    case Vec(entries) => Vec(Lift(Zero(|entries|)))
  }

  /** A step with an all-zero gradient for every parameter succeeds and leaves
      every parameter as it was. */
  lemma ZeroGradientKeeps(o: Optimizer, params: seq<Param>, grads: seq<Option<Grad>>)
    requires forall k :: 0 <= k < |params| ==> GradAt(grads, k) == Some(ZeroLike(params[k]))
    ensures Step(o, params, grads) == Ok(params)
  {
    forall k | 0 <= k < |params|
      ensures PairStep(o.lr, params[k], GradAt(grads, k)) == Ok(params[k])
    {
      PairZero(o.lr, params[k]);
    }
    var r := Step(o, params, grads);
    assert r.Ok?;
    assert r.value == params;
  }

  lemma PairZero(lr: real, p: Param)
    ensures PairStep(lr, p, Some(ZeroLike(p))) == Ok(p)
  {
    var r := PairStep(lr, p, Some(ZeroLike(p)));
    assert !PairThrows(p, Some(ZeroLike(p)));
    assert r.Ok?;
    match p
    case Mat(rows) =>
      forall i | 0 <= i < |rows|
        ensures r.value.rows[i] == rows[i]
      {
        assert |r.value.rows[i]| == |rows[i]|;
        forall j | 0 <= j < |rows[i]|
          ensures r.value.rows[i][j] == rows[i][j]
        {
          assert ZeroLike(p).rows[i][j] == Real(0.0);
        }
      }
      assert r.value.rows == rows;
    case Vec(e) =>
      forall i | 0 <= i < |e|
        ensures r.value.entries[i] == e[i]
      {
        assert ZeroLike(p).entries[i] == Real(0.0);
      }
      assert r.value.entries == e;
  }

  /** Stepping with rate `lr` and then with rate `-lr` over the same gradients
      gives back the original parameters. */
  lemma PairUndo(lr: real, p: Param, g: Option<Grad>)
    requires PairStep(lr, p, g).Ok?
    ensures PairStep(-lr, PairStep(lr, p, g).value, g) == Ok(p)
  {
    var q := PairStep(lr, p, g).value;
    assert IsMatrix(q) == IsMatrix(p);
    if p.Mat? {
      assert forall i :: 0 <= i < |p.rows| ==> |q.rows[i]| == |p.rows[i]|;
    }
    var r := PairStep(-lr, q, g);
    assert r.Ok?;
    match p
    case Mat(rows) =>
      forall i | 0 <= i < |rows|
        ensures r.value.rows[i] == rows[i]
      {
        assert |r.value.rows[i]| == |rows[i]|;
      }
      assert r.value.rows == rows;
    case Vec(e) =>
      assert |r.value.entries| == |e|;
      forall i | 0 <= i < |e|
        ensures r.value.entries[i] == e[i]
      {
      }
      assert r.value.entries == e;
  }

  /** A successful step is undone by a step with the negated rate. */
  lemma StepUndo(o: Optimizer, params: seq<Param>, grads: seq<Option<Grad>>)
    requires Step(o, params, grads).Ok?
    ensures Step(Optimizer(-o.lr), Step(o, params, grads).value, grads) == Ok(params)
  {
    var q := Step(o, params, grads).value;
    forall k | 0 <= k < |params|
      ensures PairStep(-o.lr, q[k], GradAt(grads, k)) == Ok(params[k])
    {
      PairUndo(o.lr, params[k], GradAt(grads, k));
    }
    var r := Step(Optimizer(-o.lr), q, grads);
    assert r.Ok?;
    assert r.value == params;
  }

  /** Only the first `params.length` gradients are read: entries of `grads`
      beyond the parameters change nothing. */
  lemma ExtraGradsIgnored(o: Optimizer, params: seq<Param>, grads: seq<Option<Grad>>, extra: seq<Option<Grad>>)
    requires |grads| >= |params|
    ensures Step(o, params, grads + extra) == Step(o, params, grads)
  {
    assert forall k :: 0 <= k < |params| ==> GradAt(grads + extra, k) == GradAt(grads, k);
    var a := Step(o, params, grads + extra);
    var b := Step(o, params, grads);
    if a.Ok? {
      assert b.Ok?;
      assert a.value == b.value;
    } else {
      assert a.error == b.error;
    }
  }
}

=== FILE: tensor.dfy ===
/** The 2-D numeric grid shared by the column-vector lineage. The JavaScript
    constructor `new Tensor(data)` stores `data` as it is, which is the datatype
    constructor `Tensor(data)` here. */
module Tensor {
  import opened Common
  import opened LinAlg

  /** A grid of entries of type `T`: parameters and activations hold reals, while
      gradient tensors may hold NaN. */
  datatype TensorOf<T> = Tensor(data: seq<seq<T>>)
  type Tensor = TensorOf<real>

  /** `Tensor.zeros([rows, cols])`: `rows` rows of `cols` zeros. `Array(n)` throws a
      RangeError for a negative length or one of 2^32 or more, and the inner arrays
      are only built when there is at least one row. */
  function Zeros(rows: int, cols: int): (r: Result<Tensor>)
    ensures r.Ok? <==> IsArrayLength(rows) && (rows == 0 || IsArrayLength(cols))
    ensures r.Err? ==> r.error == RangeError
    ensures r.Ok? ==> |r.value.data| == rows
    ensures r.Ok? ==> forall i :: 0 <= i < |r.value.data| ==> |r.value.data[i]| == cols
    ensures r.Ok? ==> forall i, j :: 0 <= i < |r.value.data| && 0 <= j < |r.value.data[i]| ==>
      r.value.data[i][j] == 0.0
  {
    if !IsArrayLength(rows) then Err(RangeError)
    else if rows == 0 then Ok(Tensor([]))
    else if !IsArrayLength(cols) then Err(RangeError)
    else Ok(Tensor(seq(rows, i => seq(cols, j => 0.0))))
  }

  /** Every row has a first entry, so `row[0]` is a number. */
  predicate HasFirst<T>(m: seq<seq<T>>) {
    forall i :: 0 <= i < |m| ==> |m[i]| >= 1
  }

  /** The entries `m[i][0]`: the vector a column tensor of shape (n, 1) holds. */
  function FirstColumn<T>(m: seq<seq<T>>): (v: seq<T>)
    requires HasFirst(m)
    ensures |v| == |m|
  {
    seq(|m|, i requires 0 <= i < |m| => m[i][0])
  }

  /** The column tensor data `[[v0], [v1], …]` holding `v`. */
  function ColumnOf<T>(v: seq<T>): (m: seq<seq<T>>)
    ensures |m| == |v| && HasFirst(m)
  {
    seq(|v|, i requires 0 <= i < |v| => [v[i]])
  }

  /** Packing a vector as a column and reading the column back gives the vector. */
  lemma ColumnRoundTrip(v: Vector)
    ensures FirstColumn(ColumnOf(v)) == v
  {
  }

  /** Reading the column of a (n, 1) tensor and packing it again gives the same data. */
  lemma FirstColumnRoundTrip(m: Matrix)
    requires forall i :: 0 <= i < |m| ==> |m[i]| == 1
    ensures ColumnOf(FirstColumn(m)) == m
  {
    forall i | 0 <= i < |m|
      ensures ColumnOf(FirstColumn(m))[i] == m[i]
    {
      assert m[i] == [m[i][0]];
    }
  }

  /** The first `n` rows of `m` exist and each has a first entry, so `m[j][0]`
      is a number for every `j < n`. */
  predicate Readable(m: Matrix, n: nat) {
    n <= |m| && forall j :: 0 <= j < n ==> |m[j]| >= 1
  }

  /** The entries `m[j][0]` for `j < n`: the vector a column read up to `n` holds. */
  function ColumnPrefix(m: Matrix, n: nat): (v: Vector)
    requires Readable(m, n)
    ensures |v| == n && forall j :: 0 <= j < n ==> v[j] == m[j][0]
  {
    seq(n, j requires 0 <= j < n => m[j][0])
  }
}

=== FILE: text.dfy ===
/** Decimal rendering of numbers inside the string ids of graph nodes
    (JavaScript template literals such as `${i}-${j}`), and the facts that make
    such ids unambiguous. */
module Text {

  predicate IsDigit(c: char) {
    '0' <= c <= '9'
  }

  function Digit(d: nat): (c: char)
    requires d < 10
    ensures IsDigit(c)
  {
    (48 + d) as char
  }

  /** The decimal representation of `n`, as `String(n)` gives it. */
  function NatStr(n: nat): (s: string)
    ensures |s| >= 1
    ensures forall i :: 0 <= i < |s| ==> IsDigit(s[i])
    ensures n >= 10 ==> |s| >= 2
    decreases n
  {
    if n < 10 then [Digit(n)] else NatStr(n / 10) + [Digit(n % 10)]
  }

  /** The decimal representation of an integer, with a leading '-' when negative. */
  function IntStr(n: int): (s: string)
    ensures |s| >= 1
    ensures s[0] == '-' <==> n < 0
  {
    if n < 0 then "-" + NatStr(-n) else NatStr(n)
  }

  lemma DigitInjective(a: nat, b: nat)
    requires a < 10 && b < 10 && Digit(a) == Digit(b)
    ensures a == b
  {
    assert (Digit(a) as int) == 48 + a;
    assert (Digit(b) as int) == 48 + b;
  }

  /** Different numbers have different decimal representations. */
  lemma {:induction false} NatStrInjective(a: nat, b: nat)
    requires NatStr(a) == NatStr(b)
    ensures a == b
    decreases a
  {
    if a < 10 && b < 10 {
      DigitInjective(a, b);
    } else if a >= 10 && b >= 10 {
      var sa, sb := NatStr(a), NatStr(b);
      assert sa[|sa| - 1] == Digit(a % 10) && sb[|sb| - 1] == Digit(b % 10);
      DigitInjective(a % 10, b % 10);
      assert NatStr(a / 10) == sa[..|sa| - 1] == sb[..|sb| - 1] == NatStr(b / 10);
      NatStrInjective(a / 10, b / 10);
    }
  }

  /** A non-digit character never occurs in a decimal representation. */
  lemma NonDigitNotInNatStr(n: nat, c: char)
    requires !IsDigit(c)
    ensures c !in NatStr(n)
  {
  }

  lemma SepAt(a: string, b: string, sep: char)
    ensures (a + [sep] + b)[|a|] == sep
  {
  }

  /** Splitting at the first occurrence of a separator is unambiguous. */
  lemma SepSplit(a: string, b: string, c: string, d: string, sep: char)
    requires sep !in a && sep !in c
    requires a + [sep] + b == c + [sep] + d
    ensures a == c && b == d
  {
    var s := a + [sep] + b;
    if |a| < |c| {
      SepAt(a, b, sep);
      assert false;
    } else if |c| < |a| {
      SepAt(c, d, sep);
      assert false;
    }
    assert a == s[..|a|];
    assert c == (c + [sep] + d)[..|c|];
    assert b == s[|a| + 1..];
    assert d == (c + [sep] + d)[|c| + 1..];
  }

  /** A common prefix can be cancelled. */
  lemma CancelPrefix(p: string, b: string, d: string)
    requires p + b == p + d
    ensures b == d
  {
    assert b == (p + b)[|p|..];
    assert d == (p + d)[|p|..];
  }
}

=== FILE: units.dfy ===
/** The layers of the flat-array lineage as one closed family: the abstract
    base `Layer` itself, the dense layer and the ReLU activation. */
module Units {
  import opened Common
  import opened LinAlg
  import Dense
  import ReLU
  import SGD

  datatype Unit =
    | Base
    | DenseUnit(dense: Dense.Layer)
    | ReLUUnit(relu: ReLU.State)

  /** The messages the base class throws. */
  const ForwardMissing: string := "forward() not implemented"
  const BackwardMissing: string := "backward() not implemented"

  /** `layer.forward(input)`, dispatched on the variant. The base class always
      throws, without touching anything. */
  function Forward(u: Unit, input: Option<Vector>): (r: (Unit, Result<Vector>))
    ensures u.Base? ==> r == (u, Err(NotImplemented(ForwardMissing)))
    ensures u.DenseUnit? ==> r.0.DenseUnit? && (r.0.dense, r.1) == Dense.Forward(u.dense, input)
    ensures u.ReLUUnit? ==> r.0.ReLUUnit? && (r.0.relu, r.1) == ReLU.Forward(u.relu, input)
  {
    match u
    case Base => (u, Err(NotImplemented(ForwardMissing)))
    case DenseUnit(d) =>
      var (d', out) := Dense.Forward(d, input);
      (DenseUnit(d'), out)
    case ReLUUnit(s) =>
      var (s', out) := ReLU.Forward(s, input);
      (ReLUUnit(s'), out)
  }

  /** `layer.backward(gradOutput)`, dispatched on the variant. */
  function Backward(u: Unit, gradOutput: Vector): (r: (Unit, Result<Vector>))
    ensures u.Base? ==> r == (u, Err(NotImplemented(BackwardMissing)))
    ensures u.DenseUnit? ==> r.0.DenseUnit? && (r.0.dense, r.1) == Dense.Backward(u.dense, gradOutput)
    ensures u.ReLUUnit? ==> r == (u, ReLU.Backward(u.relu, gradOutput))
  {
    match u
    case Base => (u, Err(NotImplemented(BackwardMissing)))
    case DenseUnit(d) =>
      var (d', out) := Dense.Backward(d, gradOutput);
      (DenseUnit(d'), out)
    case ReLUUnit(s) => (u, ReLU.Backward(s, gradOutput))
  }

  /** `layer.getParams()`: empty unless the layer is dense. */
  function Params(u: Unit): (ps: seq<Param>)
    ensures !u.DenseUnit? ==> ps == []
    ensures u.DenseUnit? ==> ps == Dense.Params(u.dense)
  {
    match u
    case DenseUnit(d) => Dense.Params(d)
    case _ => []
  }

  /** `layer.getGrads()`: empty unless the layer is dense. */
  function Grads(u: Unit): (gs: seq<Option<Grad>>)
    ensures !u.DenseUnit? ==> gs == []
    ensures u.DenseUnit? ==> gs == Dense.Grads(u.dense)
  {
    match u
    case DenseUnit(d) => Dense.Grads(d)
    case _ => []
  }

  /** `layer.lastOutput`, which only the dense layer stores. */
  function LastOutput(u: Unit): (o: Option<seq<Num>>)
    ensures u.DenseUnit? ==> o == u.dense.lastOutput
    ensures !u.DenseUnit? ==> o.None?
  {
    match u
    case DenseUnit(d) => d.lastOutput
    case _ => None
  }

  /** `layer.W`, which only the dense layer has. */
  function Weights(u: Unit): (w: Option<Matrix>)
    ensures u.DenseUnit? ==> w == Some(u.dense.W)
    ensures !u.DenseUnit? ==> w.None?
  {
    match u
    case DenseUnit(d) => Some(d.W)
    case _ => None
  }

  /** Every layer reports as many gradients as parameters, in matching order. */
  lemma ParamsGradsAligned(u: Unit)
    ensures |Params(u)| == |Grads(u)|
    ensures forall k :: 0 <= k < |Grads(u)| && Grads(u)[k].Some? ==>
      Grads(u)[k].value.Mat? == Params(u)[k].Mat?
  {
  }

  /** After a successful backward pass of a dense layer whose gradient has an
      entry per output, an SGD step over its parameters and gradients succeeds
      and keeps the shape of every parameter. */
  lemma StepAfterBackward(u: Unit, g: Vector, o: SGD.Optimizer)
    requires u.DenseUnit? && |g| >= |u.dense.W|
    requires Backward(u, g).1.Ok?
    ensures SGD.Step(o, Params(Backward(u, g).0), Grads(Backward(u, g).0)).Ok?
    ensures |SGD.Step(o, Params(Backward(u, g).0), Grads(Backward(u, g).0)).value| == 2
  {
    var d := Backward(u, g).0.dense;
    var ps := Params(Backward(u, g).0);
    var gs := Grads(Backward(u, g).0);
    assert ps == [Mat(d.W), Vec(d.b)];
    assert d.dW.Some? && d.db == Some(g);
    forall k | 0 <= k < 2
      ensures SGD.PairStep(o.lr, ps[k], SGD.GradAt(gs, k)).Ok?
    {
      if k == 0 {
        assert SGD.GradAt(gs, 0) == Some(Mat(d.dW.value));
        assert !SGD.PairThrows(ps[0], SGD.GradAt(gs, 0));
      } else {
        assert SGD.GradAt(gs, 1) == Some(Vec(Lift(g)));
      }
    }
  }
}
